=== FILE: README.md ===
# BookVerse storefront — a Dafny model of its client-side core

BookVerse is a React bookshop. This project models its client-side logic as
pure Dafny functions over immutable datatypes and proves properties of them.
The modelled parts are:

- the cart context: add, remove, set a quantity, clear, and the subtotal with its threshold discount;
- the cart page: coupon codes, the coupon-discounted total, the snapshot handed to checkout, and the quantity buttons;
- the three-step checkout wizard;
- the session context, with its `user` and `admin` slots mirrored into browser storage;
- the login/signup form dispatcher;
- the route table with its three guards;
- the navigation bar's cart badge, logo, logout and category highlight;
- the explore page's category slug, filters and price sort;
- the admin orders, users and books pages;
- the blog index, the blog post page, and the author page.

Every server reply, stored value and static data file enters as a parameter.
One module follows each source file. Four shared modules support them:

- `Wrappers`: `Option`;
- `Seqs`: filter, sum, count, distinct, insertion sort, subsequence;
- `Text`: an ASCII case fold, JavaScript `trim`, `includes`, `startsWith`, `split`/`join`, and a string order by Unicode scalar value;
- `Catalog`: the book record and the category list.

Representation choices:

- An optional record field is an `Option`. JavaScript truthiness of a text field is `Text.Present`, meaning present and non-empty.
- Prices, quantities and stock are `int`. The coupon rate is a whole percentage and the discounted total is a `real`.
- A sort is an insertion sort under a total preorder. `localeCompare` becomes lexicographic order by Unicode scalar value.
- A React effect or handler is one function from the state before to the state after. Events run strictly one after another.

## Model

| member | source | states |
|---|---|---|
| Cart.AddToCart | src/components/context/CartContext.jsx:18-37 | A missing book or one without `_id` leaves the cart and reports "Invalid book". An id already present raises exactly those lines by one, reading a missing or zero quantity as 1, and keeps the length and every other line. A new id is appended with quantity 1. |
| Cart.RemoveFromCart | src/components/context/CartContext.jsx:39-42 | Keeps exactly the lines whose id differs, in order, as a subsequence, each as often as before; lines with the id are gone. An absent id leaves the cart as it was. "Removed from cart" is raised. |
| Cart.UpdateQuantity | src/components/context/CartContext.jsx:44-55 | A quantity ≤ 0 is a removal. Otherwise it sets exactly the matching lines' quantity, leaves the rest, and raises no toast. |
| Cart.ClearCart | src/components/context/CartContext.jsx:57-60 | The cart becomes empty and "Cart cleared!" is raised. |
| Cart.Subtotal | src/components/context/CartContext.jsx:63-70 | An empty cart sums to 0, and one line sums to its price times its quantity, each absent figure read as 0. |
| Cart.SubtotalAppend | src/components/context/CartContext.jsx:63-70 | The subtotal of two carts joined is the sum of their subtotals. |
| Cart.Discount | src/components/context/CartContext.jsx:73-75 | The discount is 50 exactly when the subtotal exceeds 500, and 0 otherwise. |
| Cart.Total | src/components/context/CartContext.jsx:73-80 | Above 500 the total is the subtotal minus 50; otherwise it is the subtotal. |
| Cart.TotalBounds | src/components/context/CartContext.jsx:63-80 | The total never exceeds the subtotal. It is non-negative when no price or quantity is negative. |
| Cart.ClearedTotals | src/components/context/CartContext.jsx:57-80 | After clearing, the subtotal, discount and total are all 0. |
| Cart.AddPreservesWellFormed | src/components/context/CartContext.jsx:18-37 | Unique present ids with quantities ≥ 1 survive an add. |
| Cart.RemovePreservesWellFormed | src/components/context/CartContext.jsx:39-42 | The same invariant survives a removal. |
| Cart.SubseqKeepsWellFormed | src/components/context/CartContext.jsx:40 | Any subsequence of a well-formed cart is well formed. |
| Cart.UpdatePreservesWellFormed | src/components/context/CartContext.jsx:44-55 | The invariant survives a quantity change with any integer. |
| Cart.RunPreservesWellFormed | src/components/context/CartContext.jsx:18-60 | The invariant survives any sequence of add, remove, update and clear events. |
| Cart.AddThenRemove | src/components/context/CartContext.jsx:35-42 | Adding a new id and then removing it restores the cart. |
| Cart.AddRaisesQuantityByOne | src/components/context/CartContext.jsx:21-36 | In a well-formed cart, a valid add raises the quantity held under the book's id by exactly one. It leaves every other id's quantity alone. |
| CartPage.SafeNumber | src/pages/Cart.jsx:27-29 | An absent figure reads as 0; a present one as itself. |
| CartPage.ApplyCoupon | src/pages/Cart.jsx:48-62 | The code is trimmed and upper-cased. Blank keeps the current rate with a warning, BOOK10 gives 10%, BOOK20 gives 20%, and anything else resets to 0 with an error. |
| CartPage.NormaliseIdempotent | src/pages/Cart.jsx:49 | Normalising a code twice is normalising it once. |
| CartPage.ApplyCouponNormalised | src/pages/Cart.jsx:48-62 | The outcome depends only on the normalised code. |
| CartPage.CouponIgnoresCaseAndPadding | src/pages/Cart.jsx:49-53 | A code typed in lower case with blanks around it has the same outcome as the code itself. |
| CartPage.DiscountedTotal | src/pages/Cart.jsx:30 | The total less the applied percentage of itself: total × (100 − rate) / 100. A zero rate leaves it unchanged, and a positive rate on a positive total lowers it strictly. For a non-negative total and a rate of at most 20%, it lies between 80% of the total and the total. |
| CartPage.HandleCheckout | src/pages/Cart.jsx:65-80 | An empty cart only warns. Otherwise the snapshot carries the items, the safe figures, the rate and the discounted total. |
| CartPage.CheckoutFromCart | src/pages/Cart.jsx:65-80 | For a live non-empty cart, the snapshot's total is subtotal minus discount. It lies between 0 and the subtotal, and the discounted total lies between 80% of the total and the total. |
| CartPage.TwentyPercentScenario | src/pages/Cart.jsx:30 | One book at 400 × 2 gives a subtotal of 800, a discount of 50 and a total of 750; with BOOK20 the discounted total is 600. |
| CartPage.MinusClick | src/pages/Cart.jsx:115-161 | At an effective quantity ≤ 1 the minus button removes the line. Otherwise exactly the lines with the item's id get one less than the effective quantity, the other lines are kept, the length is unchanged and nothing is announced. |
| CartPage.PlusClick | src/pages/Cart.jsx:117-172 | When the raised quantity is positive, exactly the lines with the item's id get it, the other lines are kept and nothing is announced. A raised quantity ≤ 0 (a quantity of −1 or below in the item) is a removal. |
| CartPage.PlusThenMinus | src/pages/Cart.jsx:160-171 | In a well-formed cart, plus then minus on the same line restores the cart. |
| Checkout.NextStep | src/pages/Checkout.jsx:36-62 | Step 1 advances exactly when all five shipping fields are filled. Step 2 advances exactly when the chosen method's fields are filled. Any other step advances by one. Nothing else changes. |
| Checkout.PrevStep | src/pages/Checkout.jsx:64-67 | The step goes down by one and nothing else changes. |
| Checkout.ChoosePayment | src/pages/Checkout.jsx:179 | Only the payment method changes. |
| Checkout.PlaceOrder | src/pages/Checkout.jsx:70-80 | The cart is emptied and the step becomes 4. |
| Checkout.Render | src/pages/Checkout.jsx:83-96 | The empty-cart view is shown exactly when the cart is empty. The confirmation needs step 4 and a non-empty cart. |
| Checkout.PressKeepsReachable | src/pages/Checkout.jsx:129-310 | Pressing a button the page offers keeps the step within 1..4. Step 4 only ever comes with an empty cart. |
| Checkout.RunKeepsReachable | src/pages/Checkout.jsx:129-310 | The same holds for any sequence of presses. |
| Checkout.ConfirmationNeverShown | src/pages/Checkout.jsx:70-96 | From a fresh page, whatever is pressed, the step stays within 1..4 and the confirmation panel is never rendered. |
| Checkout.ShownSummary | src/pages/Checkout.jsx:349-362 | The subtotal shown is the cart's subtotal, the discount is 50 exactly above 500, and the total is subtotal − discount: the cart's total, with no coupon rate applied. |
| Checkout.CouponNotCarried | src/pages/Checkout.jsx:9 | With a coupon applied on a positive total, the checkout total differs from the discounted total the cart page handed over. |
| Auth.Load | src/components/context/AuthContext.jsx:15-24 | Each slot is filled exactly when its storage key is present, with the stored identity. |
| Auth.Mirror | src/components/context/AuthContext.jsx:29-38 | Each key is written exactly when its slot is filled, and removed otherwise. Other keys are untouched. |
| Auth.LoadAfterMirror | src/components/context/AuthContext.jsx:15-38 | Reloading after the mirror restores the same session. |
| Auth.MessageOr | src/components/context/AuthContext.jsx:59-86 | A non-empty server message wins. Otherwise the fallback text is used. |
| Auth.Signup | src/components/context/AuthContext.jsx:43-65 | On success the user slot holds the returned user and the admin slot is cleared. On failure the session is unchanged and "Signup failed" or the server message is reported. |
| Auth.Login | src/components/context/AuthContext.jsx:70-90 | The same as signup, with "Login failed". |
| Auth.AdminLogin | src/components/context/AuthContext.jsx:95-99 | The admin slot is set and the user slot cleared. |
| Auth.Logout | src/components/context/AuthContext.jsx:104-108 | Both slots are cleared. |
| Auth.IsAdmin | src/components/context/AuthContext.jsx:110 | An admin slot makes the session admin. Without one, it is admin exactly when the user has role admin. An admin session is always authenticated. |
| Auth.IsAuthenticated | src/components/context/AuthContext.jsx:111 | A session is unauthenticated exactly when both slots are empty. |
| Auth.TransitionAtMostOne | src/components/context/AuthContext.jsx:43-108 | Every successful transition leaves at most one slot filled. A failed one changes nothing. |
| Auth.LoadMayFillBoth | src/components/context/AuthContext.jsx:15-24 | A store holding both keys loads with both slots filled. |
| Auth.RunKeepsAtMostOne | src/components/context/AuthContext.jsx:43-108 | Once at most one slot is filled, any event sequence keeps it so. |
| Auth.AdminFlags | src/components/context/AuthContext.jsx:95-111 | After the admin login, `isAdmin` and `isAuthenticated` hold. After logout, neither does. |
| Auth.PlainUserNotAdmin | src/components/context/AuthContext.jsx:110-111 | A logged-in user whose role is not admin is authenticated but not admin. |
| Auth.LogoutClearsStore | src/components/context/AuthContext.jsx:29-38 | After logout the mirror leaves neither key. |
| Routes.Gate | src/App.jsx:40-67 | The user guard admits exactly the logged-in visitors, else it sends them to /login. The login guard admits exactly the others, else it sends them to /home. The admin guard admits an admin slot, a stored admin or an admin-role user, else it sends them to /login. |
| Routes.LoginComplementsProtected | src/App.jsx:50-67 | The login page is open exactly when the protected pages are not. |
| Routes.AdminRoleUserPassesBoth | src/App.jsx:40-57 | A user with role admin passes both the user and the admin guard. |
| Routes.Match | src/App.jsx:77-247 | Every route the table yields is consistent. Login sits behind the login guard, the shop pages behind the user guard, and the admin pages behind the admin guard. Unguarded entries redirect to /login or /admin/home. |
| Routes.Segments | src/App.jsx:77-247 | Segments are non-empty and contain no slash. |
| Routes.SegmentsOfPath | src/App.jsx:77-247 | Writing segments as a path and splitting it again gives the same segments. |
| Routes.VisitPath | src/App.jsx:40-247 | A redirect goes only to /login, /home or /admin/home. Login is shown only when logged out, a user page only when logged in, and an admin page only when the admin gate holds. |
| Routes.UnmatchedGoesToLogin | src/App.jsx:247 | The root and unmatched paths redirect to /login. |
| Routes.BlogsGoesToLogin | src/App.jsx:247 | "/blogs" matches no route and is redirected to /login. |
| Routes.HomeRoute | src/App.jsx:50-105 | /home shows the home page exactly to a signed-in visitor and sends anyone else to /login. |
| Routes.LoginRoute | src/App.jsx:60-91 | /login shows the login page exactly when nobody is signed in and otherwise sends the visitor to /home. |
| Routes.AdminIndexRoute | src/App.jsx:230-238 | /admin forwards an admin to /admin/home and anyone else to /login. |
| Routes.AdminHomeRoute | src/App.jsx:230-239 | /admin/home shows the dashboard home exactly to an admin and sends anyone else to /login. |
| Routes.AdminLands | src/App.jsx:230-244 | After the admin login, /admin redirects to /admin/home, which is shown. |
| Routes.AdminIsNotUser | src/App.jsx:50-67 | After the admin login, /home bounces to /login and the login page is shown. |
| Routes.UserLands | src/App.jsx:50-105 | After an accepted login that returns a user, /home is shown and /login redirects to /home. |
| Routes.AcceptedWithoutUserBounces | src/App.jsx:50-57 | A login accepted without a user leaves /home redirecting to /login. |
| LoginSignup.Dispatch | src/pages/LoginSignup.jsx:17-50 | Blank fields make no call. The admin shortcut fires exactly on the untrimmed credentials in login mode, with role admin and name "Admin User". Login mode otherwise calls login and signup mode calls signup, both with the untrimmed fields. |
| LoginSignup.Submit | src/pages/LoginSignup.jsx:17-55 | Blank fields give "All fields are required". The form navigates exactly when there is no error: to /admin/home for the shortcut, to /home for an accepted login or signup. A rejected call keeps the session and shows the server message or "Something went wrong". |
| LoginSignup.AdminCredentialsInSignup | src/pages/LoginSignup.jsx:29-49 | The admin credentials in signup mode become an ordinary signup. |
| LoginSignup.PaddedAdminEmailGoesToServer | src/pages/LoginSignup.jsx:22-43 | White space before the admin email passes validation but misses the shortcut, so the login goes to the server. |
| LoginSignup.SubmitSlots | src/pages/LoginSignup.jsx:29-50 | After a navigating submit at most one slot is filled. The admin slot is filled exactly when the form went to /admin/home. |
| Navbar.AddRaisesCartCount | src/components/Navbar.jsx:39-42 | In a well-formed cart, a valid add raises the badge by exactly one. An invalid add leaves it unchanged. |
| Navbar.CartCount | src/components/Navbar.jsx:39-42 | An empty cart shows 0, and one line shows its quantity, or 1 when the quantity is absent or zero. |
| Navbar.CartCountAppend | src/components/Navbar.jsx:39-42 | The badge of two carts joined is the sum of their badges. |
| Navbar.LogoTarget | src/components/Navbar.jsx:54-57 | The logo leads to /admin/home exactly for role admin, and to /home otherwise. |
| Navbar.LogoClick | src/components/Navbar.jsx:30-57 | The role the logo reads is never provided, so the logo always leads to /home. |
| Navbar.HandleLogout | src/components/Navbar.jsx:59-63 | After logout nobody is authenticated and the bar goes to /login. |
| Navbar.LogoutShowsLogin | src/components/Navbar.jsx:59-63 | After logout, with the store mirrored, /login shows the login page. |
| Navbar.CurrentCategory | src/components/Navbar.jsx:65-67 | Without /explore/ it is empty. With it, it is the text after the first /explore/, up to the next one (none lies inside it) or the end, with hyphens turned into spaces. |
| Navbar.CurrentCategoryOfAnyPath | src/components/Navbar.jsx:65-67 | Any path cut as prefix, /explore/, a piece and a rest that starts a new /explore/ (or is empty) reads as the piece with hyphens turned into spaces. |
| Navbar.CurrentCategoryOfPath | src/components/Navbar.jsx:65-67 | /explore/<slug> reads back as the slug with hyphens turned into spaces. |
| Navbar.ChosenCategoryHighlighted | src/components/Navbar.jsx:118-121 | A category without hyphens or slashes is highlighted on the page its entry opens. |
| Navbar.MenuHighlightsChoice | src/components/Navbar.jsx:118-121 | Every menu category is highlighted on its own page. |
| Catalog.Slug | src/components/Navbar.jsx:118 | Each character of the name is lower-cased in place, and each space becomes a hyphen. The slug contains no space. |
| Catalog.CategoriesTitleShaped | src/pages/Explore.jsx:9-18 | Every listed category is letters and spaces, with a capital exactly at each word start. |
| Explore.CapitaliseWords | src/pages/Explore.jsx:32-34 | The same length. Word-start characters are upper-cased and the rest are unchanged. |
| Explore.SelectedCategory | src/pages/Explore.jsx:32-34 | No parameter, or an empty one, gives "". Otherwise the parameter with hyphens read as spaces and each word capitalised. It has the same length and no hyphen. |
| Explore.SelectedCategoryOfSlug | src/pages/Explore.jsx:32-34 | A title-shaped name's slug reads back as the name. |
| Explore.CategoryButtonsRoundTrip | src/pages/Explore.jsx:124-131 | Each category button opens a page headed by that category. |
| Explore.NarrowedIsOneFilter | src/pages/Explore.jsx:55-69 | The two-stage filter equals one filter by the combined condition. |
| Explore.SortByPrice | src/pages/Explore.jsx:71-72 | "low" sorts by ascending price and "high" by descending price. Both are permutations. Any other value leaves the list alone. |
| Explore.Visible | src/pages/Explore.jsx:53-75 | Exactly the kept books are shown, with their multiplicities, sorted by the chosen order, and otherwise in catalogue order. |
| Explore.BlankSearchKeepsAll | src/pages/Explore.jsx:65 | A search box holding only spaces filters nothing out. |
| Explore.SearchUsesUntrimmedTerm | src/pages/Explore.jsx:65-67 | A word equal to a title up to case matches it, but the same word after one space does not: the term is searched untrimmed. |
| Explore.AddToCartAndGo | src/pages/Explore.jsx:81-91 | The page rejects a book exactly when it has neither `_id` nor `bookId`. Otherwise it calls the cart's add and goes to /cart. |
| Explore.BookIdOnlyNotAdded | src/pages/Explore.jsx:82-87 | A book with only `bookId` passes the page's check but the cart refuses it. |
| Explore.AddedBookInCart | src/pages/Explore.jsx:82-90 | A book with `_id` ends up in the cart. |
| OrdersManager.SafeOrders | src/pages/admin/OrdersManager.jsx:26-30 | An array is taken as is. An object's array `orders` field is taken instead. Anything else gives an empty list. |
| OrdersManager.SafeOrdersStable | src/pages/admin/OrdersManager.jsx:26-30 | Normalising an already normalised list changes nothing. |
| OrdersManager.SearchVerdict | src/pages/admin/OrdersManager.jsx:62-66 | The customer name is tried first. A text id matches by containment. A numeric id throws. |
| OrdersManager.FilteredOrders | src/pages/admin/OrdersManager.jsx:54-70 | The render fails exactly when the trimmed term is non-empty and some status-kept order throws. Otherwise exactly the shown orders, with their multiplicities, in order. |
| OrdersManager.FallbackSearchThrows | src/components/context/AdminDataContext.jsx:27-30 | On the fallback orders with numeric ids, any non-blank search under a filter that keeps one of them fails. |
| OrdersManager.Summarise | src/pages/admin/OrdersManager.jsx:73-77 | The card total is the list length and the sales figure is the sum of the orders' totals, an absent total read as 0. The three status counts sum to at most the total. Sales are non-negative when every order total is. |
| OrdersManager.CardsMatchFilter | src/pages/admin/OrdersManager.jsx:54-77 | Each status card equals the number of rows listed under that status filter with an empty search. |
| OrdersManager.ChangeStatus | src/pages/admin/OrdersManager.jsx:92-114 | On success exactly the orders with the id are replaced by the returned order. Otherwise nothing changes. The three toasts match the three outcomes. |
| OrdersManager.FailedChangeKeepsOrders | src/pages/admin/OrdersManager.jsx:105-110 | A failed change leaves the list exactly as it was. |
| OrdersManager.ChangeStatusIdempotent | src/pages/admin/OrdersManager.jsx:100-104 | When the reply echoes the id, a second change changes nothing, and the returned order is in the list. |
| OrdersManager.DeleteOrder | src/pages/admin/OrdersManager.jsx:117-127 | Without confirmation and success, nothing changes. Otherwise exactly the orders with other ids stay, and the removed count equals the matching count, as a subsequence. |
| OrdersManager.DeleteLowersSales | src/pages/admin/OrdersManager.jsx:73-127 | A confirmed, successful delete lowers the sales figure by exactly the totals of the deleted orders, and the order count by their number. |
| OrdersManager.DeleteThenChange | src/pages/admin/OrdersManager.jsx:92-127 | Deleting twice is deleting once. A later status change for the deleted id changes nothing. |
| UsersManager.Narrowed | src/pages/admin/UsersManager.jsx:24-44 | The three filters keep exactly the users that pass all of them, with their multiplicities, as a subsequence. |
| UsersManager.ByKeyTotal | src/pages/admin/UsersManager.jsx:48-50 | Comparing a text key is a total preorder. |
| UsersManager.SortUsers | src/pages/admin/UsersManager.jsx:46-55 | The users are sorted by name, role or newest join date, as chosen. Each sort is a permutation. Any other option leaves the order. |
| UsersManager.FilteredUsers | src/pages/admin/UsersManager.jsx:24-58 | Exactly the kept users appear, each as often as in the list, in the chosen order. |
| UsersManager.NoFilterNoSort | src/pages/admin/UsersManager.jsx:28-55 | With every filter off and no sort option, the table is the list. |
| UsersManager.QueryCaseInsensitive | src/pages/admin/UsersManager.jsx:31-32 | Lower-casing the query shows the same table. |
| UsersManager.FindIndex | src/pages/admin/UsersManager.jsx:62 | The first position holding the id, or the length when none does. |
| UsersManager.Find | src/pages/admin/UsersManager.jsx:62 | None exactly when no user has the id. Otherwise the first such user. |
| UsersManager.NextStatus | src/pages/admin/UsersManager.jsx:64 | "blocked" exactly for an active user, and "active" otherwise. |
| UsersManager.NextStatusFlips | src/pages/admin/UsersManager.jsx:64 | Toggling twice restores an "active" or "blocked" status. |
| UsersManager.StatusToggle | src/pages/admin/UsersManager.jsx:61-66 | No call exactly when no user has the id. Otherwise the first such user's next status. |
| UsersManager.ToggleLabel | src/pages/admin/UsersManager.jsx:207 | "Block" exactly for an active user, and "Activate" otherwise. |
| UsersManager.StatusBadge | src/pages/admin/UsersManager.jsx:80-98 | "Active" exactly for status active, and "Blocked" otherwise. |
| UsersManager.RoleBadge | src/pages/admin/UsersManager.jsx:68-78 | "Admin" exactly for role admin, and "User" otherwise. |
| UsersManager.LabelMatchesCall | src/pages/admin/UsersManager.jsx:200-207 | For the first user with an id, the button's label names the status the click requests, and agrees with the badge. |
| BooksManager.HandleEdit | src/pages/admin/BooksManager.jsx:55 | The book is under edit and fills the form. |
| BooksManager.OpenAdd | src/pages/admin/BooksManager.jsx:96 | An empty record is under edit and the form is untouched. |
| BooksManager.HandleSubmit | src/pages/admin/BooksManager.jsx:36-53 | An update is sent exactly when the edited record has an `_id`, and a creation otherwise, with the form as body. Success resets the editor and toasts per kind. Failure keeps the editor and toasts "Error saving book". |
| BooksManager.EditSavesInPlace | src/pages/admin/BooksManager.jsx:36-55 | Editing a stored book saves it under its own id. "Add Book" creates a new record. |
| BooksManager.TitleOrdersTotal | src/pages/admin/BooksManager.jsx:73 | Both title orders are total preorders. |
| BooksManager.FilteredBooks | src/pages/admin/BooksManager.jsx:70-74 | Exactly the books matching the search and category, with their multiplicities. Sorted ascending for "asc" and descending otherwise. |
| BooksManager.EmptySearchShowsAll | src/pages/admin/BooksManager.jsx:70-74 | An empty search with all categories shows every book. |
| BooksManager.CategoryOptions | src/pages/admin/BooksManager.jsx:143 | The options are exactly the books' categories, each once, in the order of their first appearance among the books. |
| BooksManager.OptionShowsItsBooks | src/pages/admin/BooksManager.jsx:141-145 | A book's category is offered, and choosing it lists the book. |
| BooksManager.StockData | src/pages/admin/BooksManager.jsx:77-83 | One bar per grouping key, none repeated. There are no bars exactly when there are no books. |
| BooksManager.BarStock | src/pages/admin/BooksManager.jsx:78-80 | Each bar holds the summed stock of exactly the books under its key. |
| BooksManager.StockDataKeepsTotal | src/pages/admin/BooksManager.jsx:77-83 | The bars add up to the stock of all books. |
| BooksManager.StockBadge | src/pages/admin/BooksManager.jsx:179-185 | Plenty above 10, Low from 1 to 10, Out otherwise or when absent. |
| BooksManager.BadgeAgreesWithChart | src/pages/admin/BooksManager.jsx:180-185 | "Out of Stock" exactly for the books that add nothing positive to the chart. |
| Blog.CategoryOf | src/pages/Blog.jsx:18-23 | A present category is itself. An absent or empty one is "General". |
| Blog.Categories | src/pages/Blog.jsx:18 | "All" first. Then each post category once, and only those, in the order of their first appearance among the posts. |
| Blog.FilteredArticles | src/pages/Blog.jsx:21-28 | Exactly the posts in the selected category whose title contains the query ignoring case, each as often as in the list, in their original order. |
| Blog.OpeningShowsAll | src/pages/Blog.jsx:11-28 | The opening state lists every post. |
| Blog.OneButtonPerPost | src/pages/Blog.jsx:18-28 | With an empty search, every post is listed under exactly one category button after "All". |
| Blog.Preview | src/pages/Blog.jsx:150 | After removing backquotes and tildes, the first 120 characters (all, if fewer) followed by "...". No backquote or tilde is shown, and the shown text is a subsequence of the content. |
| Blog.PreviewOfPlainContent | src/pages/Blog.jsx:150 | Short content without those marks is shown whole, followed by "...". |
| Blog.PreviewIgnoresTail | src/pages/Blog.jsx:150 | Once the content has 120 characters besides the marks, anything appended leaves the preview unchanged. |
| Blog.Subscribe | src/pages/Blog.jsx:37-43 | A blank or present address leaves the list. A new one is appended. |
| Blog.HandleSubscribe | src/pages/Blog.jsx:35-50 | A blank entry changes nothing. Otherwise the input clears, the popup opens, and storage is written only for a new address. |
| Blog.SubscribeIdempotent | src/pages/Blog.jsx:40-43 | Subscribing the same address twice stores it once. |
| Blog.SubscribeKeepsNoDups | src/pages/Blog.jsx:40-43 | A list without repeats keeps none. |
| Blog.SubscribeAllIsDistinct | src/pages/Blog.jsx:35-50 | After any series of submits, the list holds the non-blank addresses, each once, in order of first submission. |
| BlogDetails.ParseIntOfIntToString | src/pages/BlogDetails.jsx:13 | `parseInt` reads back every integer written in decimal. |
| BlogDetails.ParseInt | src/pages/BlogDetails.jsx:13 | After leading white space and one optional sign, it reads the longest run of digits, in base 16 after `0x` or `0X` and in base 10 otherwise. No digit means no number, and a minus sign negates the value. |
| BlogDetails.ParseIntSkipsSpace | src/pages/BlogDetails.jsx:13 | White space before the text does not change what is read. |
| BlogDetails.ParseIntReadsHex | src/pages/BlogDetails.jsx:13 | "0x1" reads as 1. |
| BlogDetails.ParseIntStopsAtNonDigit | src/pages/BlogDetails.jsx:13 | "2abc" reads as 2. |
| BlogDetails.ParseIntNeedsDigit | src/pages/BlogDetails.jsx:13 | "abc" reads as no number. |
| BlogDetails.FindPost | src/pages/BlogDetails.jsx:13 | None exactly when the id is not a number or no post has it. Otherwise the first post with it. |
| BlogDetails.Related | src/pages/BlogDetails.jsx:21 | The first min(3, n) posts with another id, in order, where n is the number of such posts. |
| BlogDetails.Classify | src/pages/BlogDetails.jsx:63-66 | Heading, quote and item exactly by the first matching marker. The line is the marker followed by the text. |
| BlogDetails.Body | src/pages/BlogDetails.jsx:61-67 | One block per line: the newline count plus one, each classified. |
| BlogDetails.BodyRoundTrip | src/pages/BlogDetails.jsx:61-67 | Putting the markers back and joining with newlines gives the content. |
| BlogDetails.Open | src/pages/BlogDetails.jsx:12-21 | A missing post goes to "/blogs". A found one shows it with its related posts and body. |
| BlogDetails.CardLinkOpensPost | src/pages/Blog.jsx:135 | With unique ids, the link a card writes opens that card's post. |
| BlogDetails.MissingPostGoesHome | src/pages/BlogDetails.jsx:12-16 | A missing post is sent to "/blogs", which matches no route and is redirected to /login. A signed-in reader, the only kind a post page admits, is sent on from /login to /home. |
| AuthorProfile.FindAuthor | src/pages/AuthorProfile.jsx:15-19 | None exactly when no author's trimmed, lower-cased name equals the route name's. Otherwise the first such author. |
| AuthorProfile.BooksByAuthor | src/pages/AuthorProfile.jsx:22-29 | Exactly the books with a non-empty author field that normalises to the author's name, with their multiplicities, as a subsequence. |
| AuthorProfile.Lookup | src/pages/AuthorProfile.jsx:14-30 | The author becomes the found one. Its books are recomputed when found and kept otherwise. |
| AuthorProfile.Render | src/pages/AuthorProfile.jsx:32-78 | Not-found with a button to "/" exactly when there is no author. Otherwise the profile, with the no-books note exactly for an empty list. |
| AuthorProfile.UnknownAuthorKeepsBooks | src/pages/AuthorProfile.jsx:20-44 | An unknown name shows the not-found view and keeps the previous book list. |
| AuthorProfile.LookupIgnoresPaddingAndCase | src/pages/AuthorProfile.jsx:15-18 | Surrounding white space and case in the route name do not change the author found. |
| AuthorProfile.OwnNameFindsAuthor | src/pages/AuthorProfile.jsx:17 | An author's own name finds that author, unless an earlier one shares the normalised name. |
| AuthorProfile.BooksByNormalName | src/pages/AuthorProfile.jsx:23-27 | Names that normalise alike list the same books. Names that do not share none. |
| AuthorProfile.LookupIdempotent | src/pages/AuthorProfile.jsx:14-30 | Running the effect twice for a name is running it once. |
| AuthorProfile.OpenAuthorPage | src/pages/AuthorProfile.jsx:14-78 | From a fresh page, an author's own name shows that author with exactly their books. The note appears exactly when none was written by them. |
| Text.TrimIgnoresPadding | src/pages/AuthorProfile.jsx:15-18 | White space around a string does not change what it trims to. |
| Text.LowerTrimCommute | src/pages/AuthorProfile.jsx:15-18 | Trimming and lower-casing commute. |

## Left out

- HTTP calls: every server reply is a parameter. This covers the orders fetch, the book fetch and delete in the books manager, the catalogue fetch in the explore page, and the status update call.
- Browser storage beyond the auth keys. JSON encoding and malformed stored JSON are not modelled.
- Timers: the checkout delay and redirect, the popup timeout and the toasts' lifetime. The order placement is one atomic step.
- React batching and stale closures. Events run strictly in sequence, so `addToCart`'s check and update see the same cart.
- Random offer percentages and crossed-out prices, which are random and floating-point.
- Floating-point arithmetic and `toFixed`: exact `int` and `real` are used instead.
- `salesByMonth` in the orders page, which depends on date parsing and locale month names.
- Locale-dependent text handling: `toLowerCase`/`toUpperCase` are an ASCII case fold, and `localeCompare` is lexicographic order by Unicode scalar value.
- Strings are sequences of Unicode scalar values, not UTF-16 code units. JavaScript's `.length`, `slice(0, 120)` and `<` count and compare code units, so text outside the Basic Multilingual Plane (emoji, for example) can differ: such a character counts twice, sorts by its surrogates, and a cut at 120 can split it. The model cuts and orders whole characters.
- Sort stability: only sortedness and permutation are stated.
- Object key enumeration order: `Object.entries` puts integer-like keys first. The stock chart's bars are stated as a set of distinct keys with their totals, not in display order.
- `decodeURIComponent` of the author route parameter: the route name enters already decoded.
- URL matching details: case-insensitive matching, trailing slashes and query strings.
- The card navigation paths and keys of the author page, and its image fallbacks: presentation only.
- Form fields that no logic reads: checkout `handleChange`, and the image and description fields of the books form.
- The `updatingId` spinner state of the orders page and the `loading` flags: presentation only.
- UsersManager.StatusToggle: the admin data context provides no `updateUserStatus`, so the call would throw. The model returns the call the page would make.
- OrdersManager.ChangeStatus: a reply marked successful but carrying no `order` puts `undefined` into the list; the model always receives an order. An object held in the context makes `prev.map` throw; this is not modelled.
- OrdersManager.DeleteOrder: an object held in the context makes `prev.filter` throw; this is not modelled, and the model always filters a list.
- BooksManager.FilteredBooks: a book without a title or category makes `toLowerCase` throw; the model reads the field as "".
- UsersManager.SortUsers: a user without a name or role makes `localeCompare` throw, and an invalid `createdAt` compares as NaN. The model reads a missing field as "" and `createdAt` as a number.
- Explore.SortByPrice: a missing price compares as NaN in the page; the model reads it as 0.
- CartPage.HandleCheckout: `cartCount`, shown in the cart header, is never provided by the cart context, so the header always reads 0; the header is not modelled.
- Author, title and bio rendering: presentation only.

=== FILE: auth.dfy ===
/** The session of `AuthContext.jsx`: a `user` slot and an `admin` slot,
    loaded from and mirrored into the `userAuth` and `adminAuth` storage keys,
    changed by signup, login, the local admin login and logout. The server's
    answer to signup and login is a parameter. */
module Auth {
  import opened Wrappers

  datatype Identity = Identity(name: string, email: string, role: Option<string>)

  datatype Session = Session(user: Option<Identity>, admin: Option<Identity>)

  /** The persisted key-value store, reduced to the identities it holds. */
  type Store = map<string, Identity>

  const UserKey := "userAuth"
  const AdminKey := "adminAuth"

  /** The initial slots: each read from its key, absent when the key is. */
  function Load(store: Store): (s: Session)
    ensures s.user.Some? <==> UserKey in store
    ensures s.admin.Some? <==> AdminKey in store
    ensures s.user.Some? ==> s.user.value == store[UserKey]
    ensures s.admin.Some? ==> s.admin.value == store[AdminKey]
  {
    Session(if UserKey in store then Some(store[UserKey]) else None,
            if AdminKey in store then Some(store[AdminKey]) else None)
  }

  /** The two storage effects: a non-null slot writes its key, a null slot removes it. */
  function Mirror(s: Session, store: Store): (r: Store)
    ensures UserKey in r <==> s.user.Some?
    ensures AdminKey in r <==> s.admin.Some?
    ensures s.user.Some? ==> r[UserKey] == s.user.value
    ensures s.admin.Some? ==> r[AdminKey] == s.admin.value
    ensures forall k :: k != UserKey && k != AdminKey ==> (k in r <==> k in store)
    ensures forall k :: k in store && k != UserKey && k != AdminKey ==> r[k] == store[k]
  {
    var withUser := if s.user.Some? then store[UserKey := s.user.value] else store - {UserKey};
    if s.admin.Some? then withUser[AdminKey := s.admin.value] else withUser - {AdminKey}
  }

  /** Reloading after the mirror has run restores the same slots. */
  lemma LoadAfterMirror(s: Session, store: Store)
    ensures Load(Mirror(s, store)) == s
  {
  }

  /** What the server answered to a signup or login request. */
  datatype Reply = Accepted(user: Option<Identity>) | Rejected(message: Option<string>)

  /** `err.response?.data?.message || fallback`. */
  function MessageOr(message: Option<string>, fallback: string): (m: string)
    ensures message.Some? && message.value != "" ==> m == message.value
    ensures message.None? || message.value == "" ==> m == fallback
  {
    if message.Some? && message.value != "" then message.value else fallback
  }

  /** A transition's result: on failure the error is reported and rethrown. */
  datatype Outcome = Succeeded | Failed(toast: string)

  datatype Step = Step(session: Session, outcome: Outcome)

  /** `signup`. */
  function Signup(s: Session, reply: Reply): (r: Step)
    ensures reply.Accepted? ==> r == Step(Session(reply.user, None), Succeeded)
    ensures reply.Rejected? ==> r == Step(s, Failed(MessageOr(reply.message, "Signup failed")))
  {
    match reply
    case Accepted(u) => Step(Session(u, None), Succeeded)
    case Rejected(m) => Step(s, Failed(MessageOr(m, "Signup failed")))
  }

  /** `login`. */
  function Login(s: Session, reply: Reply): (r: Step)
    ensures reply.Accepted? ==> r == Step(Session(reply.user, None), Succeeded)
    ensures reply.Rejected? ==> r == Step(s, Failed(MessageOr(reply.message, "Login failed")))
  {
    match reply
    case Accepted(u) => Step(Session(u, None), Succeeded)
    case Rejected(m) => Step(s, Failed(MessageOr(m, "Login failed")))
  }

  /** `adminLogin(adminData)`. */
  function AdminLogin(s: Session, d: Identity): (r: Session)
    ensures r.admin == Some(d) && r.user.None?
  {
    Session(None, Some(d))
  }

  /** `logout()`. */
  function Logout(s: Session): (r: Session)
    ensures r.user.None? && r.admin.None?
  {
    Session(None, None)
  }

  /** `isAdmin`: an admin slot, or a user whose role is "admin"; an admin is
      always authenticated. */
  function IsAdmin(s: Session): (b: bool)
    ensures b ==> IsAuthenticated(s)
    ensures s.admin.Some? ==> b
    ensures s.admin.None? ==> (b <==> s.user.Some? && s.user.value.role == Some("admin"))
  {
    s.admin.Some? || (s.user.Some? && s.user.value.role == Some("admin"))
  }

  /** `isAuthenticated`: false only for the empty session. */
  function IsAuthenticated(s: Session): (b: bool)
    ensures !b <==> s == Session(None, None)
  {
    s.user.Some? || s.admin.Some?
  }

  predicate AtMostOne(s: Session) {
    s.user.None? || s.admin.None?
  }

  datatype Event = SignupEvent(reply: Reply) | LoginEvent(reply: Reply) | AdminLoginEvent(d: Identity) | LogoutEvent

  function Apply(s: Session, e: Event): Session {
    match e
    case SignupEvent(reply) => Signup(s, reply).session
    case LoginEvent(reply) => Login(s, reply).session
    case AdminLoginEvent(d) => AdminLogin(s, d)
    case LogoutEvent => Logout(s)
  }

  predicate Succeeds(e: Event) {
    !(e.SignupEvent? || e.LoginEvent?) || e.reply.Accepted?
  }

  /** Every successful transition leaves at most one slot filled; a failed one
      leaves the session as it was. */
  lemma TransitionAtMostOne(s: Session, e: Event)
    ensures Succeeds(e) ==> AtMostOne(Apply(s, e))
    ensures !Succeeds(e) ==> Apply(s, e) == s
  {
  }

  /** The initial load alone does not rule out both slots being filled. */
  lemma LoadMayFillBoth(i: Identity)
    ensures !AtMostOne(Load(map[UserKey := i, AdminKey := i]))
  {
  }

  /** Once at most one slot is filled, every later transition keeps it so. */
  lemma {:induction false} RunKeepsAtMostOne(s: Session, events: seq<Event>)
    requires AtMostOne(s)
    ensures AtMostOne(Run(s, events))
    decreases |events|
  {
    if |events| > 0 {
      TransitionAtMostOne(s, events[0]);
      RunKeepsAtMostOne(Apply(s, events[0]), events[1..]);
    }
  }

  function Run(s: Session, events: seq<Event>): Session
    decreases |events|
  {
    if |events| == 0 then s else Run(Apply(s, events[0]), events[1..])
  }

  /** `isAdmin` holds after the admin login, and neither flag holds after logout. */
  lemma AdminFlags(s: Session, d: Identity)
    ensures IsAdmin(AdminLogin(s, d)) && IsAuthenticated(AdminLogin(s, d))
    ensures !IsAdmin(Logout(s)) && !IsAuthenticated(Logout(s))
  {
  }

  /** A signed-in user whose role is not "admin" is not an admin. */
  lemma PlainUserNotAdmin(s: Session, reply: Reply)
    requires reply.Accepted? && reply.user.Some? && reply.user.value.role != Some("admin")
    ensures !IsAdmin(Login(s, reply).session) && IsAuthenticated(Login(s, reply).session)
  {
  }

  /** After logout the mirror leaves neither storage key behind. */
  lemma LogoutClearsStore(s: Session, store: Store)
    ensures UserKey !in Mirror(Logout(s), store) && AdminKey !in Mirror(Logout(s), store)
  {
  }
}

=== FILE: author_profile.dfy ===
/** The author page of `AuthorProfile.jsx`: the author named in the route is
    looked up in the static author list by trimmed, lower-cased name, and
    the books written by that author are picked out of the static book
    list. Both lists are parameters. */
module AuthorProfile {
  import opened Wrappers
  import Seqs
  import Text
  import opened Catalog

  /** An entry of the author list; every entry has a name. */
  datatype Author = Author(name: string, title: string, bio: string, image: Option<string>)

  /** `s.trim().toLowerCase()`: the form in which names are compared. */
  function Normal(s: string): string {
    Text.Lower(Text.Trim(s))
  }

  /** The normalised names, position by position. */
  function Names(authors: seq<Author>): (r: seq<string>)
    ensures |r| == |authors| && forall j :: 0 <= j < |authors| ==> r[j] == Normal(authors[j].name)
  {
    seq(|authors|, j requires 0 <= j < |authors| => Normal(authors[j].name))
  }

  /** `foundAuthor`: the first author whose name matches the route's, if any. */
  function FindAuthor(authors: seq<Author>, routeName: string): (r: Option<Author>)
    ensures r.None? <==> forall j :: 0 <= j < |authors| ==> Normal(authors[j].name) != Normal(routeName)
    ensures r.Some? ==> exists k :: (0 <= k < |authors| && r.value == authors[k] &&
                                     Normal(authors[k].name) == Normal(routeName) &&
                                     forall j :: 0 <= j < k ==> Normal(authors[j].name) != Normal(routeName))
  {
    var names, key := Names(authors), Normal(routeName);
    if key in names then Some(authors[Seqs.FirstIndex(names, key)]) else None
  }

  /** `book.author && book.author.trim().toLowerCase() === name.trim().toLowerCase()`:
      an empty author field never matches. */
  predicate WrittenBy(name: string, b: Book) {
    Text.Present(b.author) && Normal(b.author.value) == Normal(name)
  }

  function WrittenByOf(name: string): Book -> bool {
    (b: Book) => WrittenBy(name, b)
  }

  /** `booksByAuthor`: the books written by the author, in the list's order. */
  function BooksByAuthor(books: seq<Book>, a: Author): (r: seq<Book>)
    ensures forall b :: b in r <==> b in books && WrittenBy(a.name, b)
    ensures forall b :: multiset(r)[b] == if WrittenBy(a.name, b) then multiset(books)[b] else 0
    ensures Seqs.IsSubseq(r, books)
  {
    Seqs.Filter(books, WrittenByOf(a.name))
  }

  /** The page's state: the author shown (none until found) and the books listed. */
  datatype Page = Page(author: Option<Author>, authorBooks: seq<Book>)

  const Opening := Page(None, [])

  /** The effect run for a route name: the author is always replaced; the
      book list is recomputed only when an author was found. */
  function Lookup(page: Page, authors: seq<Author>, books: seq<Book>, routeName: string): (r: Page)
    ensures r.author == FindAuthor(authors, routeName)
    ensures r.author.Some? ==> r.authorBooks == BooksByAuthor(books, r.author.value)
    ensures r.author.None? ==> r.authorBooks == page.authorBooks
  {
    var found := FindAuthor(authors, routeName);
    match found
    case None => Page(None, page.authorBooks)
    case Some(a) => Page(found, BooksByAuthor(books, a))
  }

  /** What the page renders. */
  datatype View =
    | NotFound(home: string)
    | Profile(author: Author, books: seq<Book>, noBooksNote: bool)

  /** Without an author, the not-found message with a button back to "/";
      otherwise the author's card and books, with a note when there are none. */
  function Render(page: Page): (v: View)
    ensures v.NotFound? <==> page.author.None?
    ensures v.NotFound? ==> v.home == "/"
    ensures v.Profile? ==> v.author == page.author.value && v.books == page.authorBooks &&
                           (v.noBooksNote <==> |page.authorBooks| == 0)
  {
    match page.author
    case None => NotFound("/")
    case Some(a) => Profile(a, page.authorBooks, |page.authorBooks| == 0)
  }

  /** An unknown name shows the not-found view and leaves the previous book
      list in place, whatever it held. */
  lemma UnknownAuthorKeepsBooks(page: Page, authors: seq<Author>, books: seq<Book>, routeName: string)
    requires forall j :: 0 <= j < |authors| ==> Normal(authors[j].name) != Normal(routeName)
    ensures Lookup(page, authors, books, routeName).authorBooks == page.authorBooks
    ensures Render(Lookup(page, authors, books, routeName)) == NotFound("/")
  {
  }

  /** The lookup ignores white space around the route name and its case. */
  lemma {:induction false} LookupIgnoresPaddingAndCase(authors: seq<Author>, pre: string, name: string, post: string)
    requires forall i :: 0 <= i < |pre| ==> Text.IsSpace(pre[i])
    requires forall i :: 0 <= i < |post| ==> Text.IsSpace(post[i])
    ensures FindAuthor(authors, pre + Text.Lower(name) + post) == FindAuthor(authors, name)
  {
    Text.TrimIgnoresPadding(pre, Text.Lower(name), post);
    Text.LowerTrimCommute(name);
    Text.LowerIdempotent(Text.Trim(name));
    assert Normal(pre + Text.Lower(name) + post) == Normal(name);
  }

  /** An author's own name, as the author card links to it, opens that
      author's page, unless an earlier author shares the normalised name. */
  lemma OwnNameFindsAuthor(authors: seq<Author>, k: nat)
    requires k < |authors|
    requires forall j :: 0 <= j < k ==> Normal(authors[j].name) != Normal(authors[k].name)
    ensures FindAuthor(authors, authors[k].name) == Some(authors[k])
  {
    var names := Names(authors);
    assert names[k] == Normal(authors[k].name);
  }

  /** Authors whose names normalise alike list the same books, and authors
      whose names do not share none. */
  lemma BooksByNormalName(books: seq<Book>, a1: Author, a2: Author)
    ensures Normal(a1.name) == Normal(a2.name) ==> BooksByAuthor(books, a1) == BooksByAuthor(books, a2)
    ensures Normal(a1.name) != Normal(a2.name) ==>
      forall b :: !(b in BooksByAuthor(books, a1) && b in BooksByAuthor(books, a2))
  {
    if Normal(a1.name) == Normal(a2.name) {
      Seqs.FilterExtensional(books, WrittenByOf(a1.name), WrittenByOf(a2.name));
    }
  }

  /** Running the effect again for the same route name changes nothing. */
  lemma LookupIdempotent(page: Page, authors: seq<Author>, books: seq<Book>, routeName: string)
    ensures var once := Lookup(page, authors, books, routeName);
      Lookup(once, authors, books, routeName) == once
  {
  }

  /** Opening an author's page from the author list lists exactly that
      author's books, in catalogue order. */
  lemma {:induction false} OpenAuthorPage(authors: seq<Author>, books: seq<Book>, k: nat)
    requires k < |authors|
    requires forall j :: 0 <= j < k ==> Normal(authors[j].name) != Normal(authors[k].name)
    ensures var v := Render(Lookup(Opening, authors, books, authors[k].name));
      v.Profile? && v.author == authors[k] && v.books == BooksByAuthor(books, authors[k]) &&
      (v.noBooksNote <==> forall b :: b in books ==> !WrittenBy(authors[k].name, b))
  {
    OwnNameFindsAuthor(authors, k);
  }
}

=== FILE: blog.dfy ===
/** The blog index of `Blog.jsx`: the category buttons, the category and
    title filter, the card preview, and the newsletter form that keeps a list
    of subscriber emails in the browser's storage. The posts come from a
    static data file and are a parameter. */
module Blog {
  import opened Wrappers
  import Seqs
  import Text

  /** A post of the data file, reduced to the fields these pages read. */
  datatype Post = Post(id: int, title: string, category: Option<string>, content: string)

  /** `b.category || "General"`. */
  function CategoryOf(p: Post): (c: string)
    ensures Text.Present(p.category) ==> c == p.category.value
    ensures !Text.Present(p.category) ==> c == "General"
  {
    if Text.Present(p.category) then p.category.value else "General"
  }

  function CategoriesOf(posts: seq<Post>): (cs: seq<string>)
    ensures |cs| == |posts| && forall i :: 0 <= i < |posts| ==> cs[i] == CategoryOf(posts[i])
  {
    seq(|posts|, i requires 0 <= i < |posts| => CategoryOf(posts[i]))
  }

  /** `["All", ...new Set(blogPosts.map((b) => b.category || "General"))]`:
      "All", then each category once, in the order of its first post. */
  function Categories(posts: seq<Post>): (r: seq<string>)
    ensures |r| >= 1 && r[0] == "All"
    ensures Seqs.NoDups(r[1..])
    ensures forall c :: c in r[1..] <==> exists i :: 0 <= i < |posts| && CategoryOf(posts[i]) == c
    ensures forall c :: c in r[1..] <==> c in CategoriesOf(posts)
    ensures var d := r[1..];
      forall i, j :: 0 <= i < j < |d| ==>
        Seqs.FirstIndex(CategoriesOf(posts), d[i]) < Seqs.FirstIndex(CategoriesOf(posts), d[j])
  {
    Seqs.DistinctFirstOccurrence(CategoriesOf(posts));
    var d := Seqs.Distinct(CategoriesOf(posts));
    assert (["All"] + d)[1..] == d;
    ["All"] + d
  }

  /** A post the grid shows: in the selected category ("All" selects every
      one), with a title containing the query, ignoring case. */
  predicate Shown(selected: string, query: string, p: Post) {
    (selected == "All" || CategoryOf(p) == selected) && Text.Contains(Text.Lower(p.title), Text.Lower(query))
  }

  function ShownOf(selected: string, query: string): Post -> bool {
    (p: Post) => Shown(selected, query, p)
  }

  /** `filteredArticles`: the shown posts, in the data file's order. */
  function FilteredArticles(posts: seq<Post>, selected: string, query: string): (r: seq<Post>)
    ensures forall p :: p in r <==> p in posts && Shown(selected, query, p)
    ensures forall p :: multiset(r)[p] == if Shown(selected, query, p) then multiset(posts)[p] else 0
    ensures Seqs.IsSubseq(r, posts)
  {
    Seqs.Filter(posts, ShownOf(selected, query))
  }

  /** The page as it opens, "All" with an empty search, lists every post. */
  lemma OpeningShowsAll(posts: seq<Post>)
    ensures FilteredArticles(posts, "All", "") == posts
  {
    forall i | 0 <= i < |posts| ensures Shown("All", "", posts[i]) {
      Text.ContainsEmpty(Text.Lower(posts[i].title));
    }
    Seqs.FilterAll(posts, ShownOf("All", ""));
  }

  /** With an empty search, when no post is filed under "All", every post is
      listed under exactly one of the category buttons after "All". */
  lemma {:induction false} OneButtonPerPost(posts: seq<Post>, i: nat)
    requires i < |posts|
    requires forall j :: 0 <= j < |posts| ==> CategoryOf(posts[j]) != "All"
    ensures var cs := Categories(posts);
      && (exists k :: 1 <= k < |cs| && Shown(cs[k], "", posts[i]))
      && forall j, k :: 1 <= j < k < |cs| ==> !(Shown(cs[j], "", posts[i]) && Shown(cs[k], "", posts[i]))
  {
    var cs := Categories(posts);
    var p := posts[i];
    Text.ContainsEmpty(Text.Lower(p.title));
    assert CategoryOf(p) in cs[1..];
    var k :| 0 <= k < |cs[1..]| && cs[1..][k] == CategoryOf(p);
    assert Shown(cs[k + 1], "", p);
    forall j, k | 1 <= j < k < |cs|
      ensures !(Shown(cs[j], "", p) && Shown(cs[k], "", p))
    {
      assert cs[j] == cs[1..][j - 1] && cs[k] == cs[1..][k - 1];
      assert cs[j] in cs[1..] && cs[k] in cs[1..];
      assert cs[j] != "All" && cs[k] != "All";
    }
  }

  /** The characters the preview drops. */
  const Marks: set<char> := {'`', '~'}

  /** The card's preview: the content without backquotes or tildes, cut to
      120 characters, followed by an ellipsis. */
  function Preview(content: string): (r: string)
    ensures 3 <= |r| <= 123 && r[|r| - 3..] == "..."
    ensures var kept := Text.RemoveChars(content, Marks);
      |r| - 3 == (if |kept| < 120 then |kept| else 120) && r[..|r| - 3] == kept[..|r| - 3]
    ensures forall i :: 0 <= i < |r| - 3 ==> r[i] != '`' && r[i] != '~'
    ensures Seqs.IsSubseq(r[..|r| - 3], content)
  {
    var kept := Text.RemoveChars(content, Marks);
    var cut := Seqs.Take(kept, 120);
    assert Seqs.IsSubseq(cut, kept) by {
      TakeIsSubseq(kept, |cut|);
    }
    Seqs.SubseqTrans(cut, kept, content);
    assert (cut + "...")[..|cut|] == cut;
    cut + "..."
  }

  /** Once the content before a point already fills the cut, what follows it
      does not change the preview. */
  lemma PreviewIgnoresTail(content: string, more: string)
    requires |Text.RemoveChars(content, Marks)| >= 120
    ensures Preview(content + more) == Preview(content)
  {
    var kept := Text.RemoveChars(content, Marks);
    Seqs.FilterAppend(content, more, Text.Outside(Marks));
    var all := Text.RemoveChars(content + more, Marks);
    assert all == kept + Text.RemoveChars(more, Marks);
    assert all[..120] == kept[..120];
  }

  /** A prefix is a subsequence. */
  lemma {:induction false} TakeIsSubseq(s: string, n: nat)
    requires n <= |s|
    ensures Seqs.IsSubseq(s[..n], s)
    decreases n
  {
    if n > 0 {
      assert s[..n][1..] == s[1..][..n - 1];
      TakeIsSubseq(s[1..], n - 1);
    }
  }

  /** Content without backquotes or tildes that fits the cut is shown whole. */
  lemma PreviewOfPlainContent(content: string)
    requires |content| <= 120 && '`' !in content && '~' !in content
    ensures Preview(content) == content + "..."
  {
    Text.RemoveCharsNone(content, Marks);
  }

  /** One handled subscribe on the stored list: a blank entry is ignored, an
      address already present is not added again, any other is appended as typed. */
  function Subscribe(list: seq<string>, email: string): (r: seq<string>)
    ensures Text.Blank(email) || email in list ==> r == list
    ensures !Text.Blank(email) && email !in list ==> r == list + [email]
  {
    if Text.Blank(email) || email in list then list else list + [email]
  }

  /** The form after a submit: the stored list (absent until first written),
      the input, and whether the success popup opened. */
  datatype Form = Form(stored: Option<seq<string>>, input: string, popup: bool)

  /** `handleSubscribe`: the stored list is read as empty when absent, written
      back only when the address was new; the input clears and the popup opens
      for any non-blank entry. */
  function HandleSubscribe(stored: Option<seq<string>>, email: string): (r: Form)
    ensures Text.Blank(email) ==> r == Form(stored, email, false)
    ensures !Text.Blank(email) ==> r.input == "" && r.popup
    ensures !Text.Blank(email) && stored.Some? && email in stored.value ==> r.stored == stored
    ensures !Text.Blank(email) && (stored.None? || email !in stored.value) ==>
      r.stored == Some(stored.GetOr([]) + [email])
  {
    if Text.Blank(email) then Form(stored, email, false)
    else
      var list := stored.GetOr([]);
      if email in list then Form(stored, "", true)
      else Form(Some(Subscribe(list, email)), "", true)
  }

  /** Subscribing the same address twice stores it once. */
  lemma SubscribeIdempotent(list: seq<string>, email: string)
    ensures Subscribe(Subscribe(list, email), email) == Subscribe(list, email)
  {
  }

  /** A list without repeats keeps none. */
  lemma SubscribeKeepsNoDups(list: seq<string>, email: string)
    requires Seqs.NoDups(list)
    ensures Seqs.NoDups(Subscribe(list, email))
  {
  }

  /** The list after a series of submits, starting from an empty store. */
  function SubscribeAll(emails: seq<string>): seq<string>
  {
    if |emails| == 0 then []
    else Subscribe(SubscribeAll(emails[..|emails| - 1]), emails[|emails| - 1])
  }

  function NotBlank(s: string): bool {
    !Text.Blank(s)
  }

  /** One more submit, in terms of the non-blank submits before it. */
  lemma DistinctSnoc(f: seq<string>, x: string)
    ensures Seqs.Distinct(f + Seqs.Filter([x], NotBlank)) == Subscribe(Seqs.Distinct(f), x)
  {
    if NotBlank(x) {
      assert Seqs.Filter([x], NotBlank) == [x];
      var s := f + [x];
      assert s[..|s| - 1] == f && s[|s| - 1] == x;
    } else {
      assert Seqs.Filter([x], NotBlank) == [];
      assert f + [] == f;
    }
  }

  /** Filtering a list with one more entry. */
  lemma FilterSnoc(pre: seq<string>, x: string)
    ensures Seqs.Filter(pre + [x], NotBlank) == Seqs.Filter(pre, NotBlank) + Seqs.Filter([x], NotBlank)
  {
    Seqs.FilterAppend(pre, [x], NotBlank);
  }

  /** The stored list is the non-blank addresses submitted, each once, in
      order of first submission. */
  lemma {:induction false} SubscribeAllIsDistinct(emails: seq<string>)
    ensures SubscribeAll(emails) == Seqs.Distinct(Seqs.Filter(emails, NotBlank))
    decreases |emails|
  {
    if |emails| > 0 {
      var pre, x := emails[..|emails| - 1], emails[|emails| - 1];
      assert emails == pre + [x];
      var f := Seqs.Filter(pre, NotBlank);
      assert SubscribeAll(emails) == Subscribe(Seqs.Distinct(f), x) by {
        SubscribeAllIsDistinct(pre);
      }
      FilterSnoc(pre, x);
      DistinctSnoc(f, x);
    }
  }
}

=== FILE: blog_details.dfy ===
/** The post page of `BlogDetails.jsx`: the post looked up by the number in
    the URL, the three related posts, and the body split into lines rendered
    as headings, quotes, list items and paragraphs. */
module BlogDetails {
  import opened Wrappers
  import Seqs
  import Text
  import Auth
  import Routes
  import opened Blog

  /** The value of a digit character, or 36 for any other character. */
  function DigitOf(c: char): (d: nat)
    ensures d <= 36
  {
    if '0' <= c <= '9' then c as nat - '0' as nat
    else if 'a' <= c <= 'f' then c as nat - 'a' as nat + 10
    else if 'A' <= c <= 'F' then c as nat - 'A' as nat + 10
    else 36
  }

  /** The length of the run of base-`base` digits at the start of `s`. */
  function DigitRun(s: string, base: nat): (n: nat)
    ensures n <= |s|
    ensures forall i :: 0 <= i < n ==> DigitOf(s[i]) < base
    ensures n < |s| ==> DigitOf(s[n]) >= base
  {
    if |s| > 0 && DigitOf(s[0]) < base then 1 + DigitRun(s[1..], base) else 0
  }

  /** The number a run of digits denotes, most significant first. */
  function Value(ds: string, base: nat): nat
    decreases |ds|
  {
    if |ds| == 0 then 0 else Value(ds[..|ds| - 1], base) * base + DigitOf(ds[|ds| - 1])
  }

  /** The text after an optional sign, and whether the sign was a minus. */
  function Unsigned(t: string): (string, bool) {
    if |t| > 0 && (t[0] == '-' || t[0] == '+') then (t[1..], t[0] == '-') else (t, false)
  }

  /** A `0x` or `0X` prefix selects base 16. */
  predicate HexPrefixed(u: string) {
    |u| >= 2 && u[0] == '0' && (u[1] == 'x' || u[1] == 'X')
  }

  /** The digits after the sign: the longest run in the selected base, or
      `None` when the run is empty. */
  function ParseUnsigned(u: string): Option<nat> {
    var base := if HexPrefixed(u) then 16 else 10;
    var body := if HexPrefixed(u) then u[2..] else u;
    var n := DigitRun(body, base);
    if n == 0 then None else Some(Value(body[..n], base))
  }

  /** `parseInt(s)` without a radix: leading white space skipped, an optional
      sign, a `0x` prefix selecting base 16, then the longest run of digits;
      no digits at all is `NaN`, here `None`. */
  function ParseInt(s: string): (r: Option<int>)
    ensures var (u, negative) := Unsigned(Text.TrimStart(s));
      && (r.None? <==> ParseUnsigned(u).None?)
      && (r.Some? ==> (if negative then -r.value else r.value) == ParseUnsigned(u).value)
  {
    ParseTrimmed(Text.TrimStart(s))
  }

  /** `parseInt` once the leading white space is gone. */
  function ParseTrimmed(t: string): Option<int> {
    var (u, negative) := Unsigned(t);
    match ParseUnsigned(u)
    case None => None
    case Some(v) =>
      var k: int := if negative then -(v as int) else v;
      Some(k)
  }

  function DigitChar(d: nat): (c: char)
    requires d < 10
    ensures DigitOf(c) == d
  {
    ('0' as nat + d) as char
  }

  /** A non-negative number written in decimal, as `${n}` writes it. */
  function NatToString(n: nat): (s: string)
    ensures |s| > 0 && forall i :: 0 <= i < |s| ==> DigitOf(s[i]) < 10
    ensures n >= 10 ==> s[0] != '0'
    ensures n < 10 ==> |s| == 1
  {
    if n < 10 then [DigitChar(n)] else NatToString(n / 10) + [DigitChar(n % 10)]
  }

  /** `${n}` for any integer. */
  function IntToString(n: int): (s: string)
    ensures |s| > 0
  {
    if n < 0 then "-" + NatToString(-n) else NatToString(n)
  }

  lemma {:induction false} ValueOfNatToString(n: nat)
    ensures Value(NatToString(n), 10) == n
  {
    if n >= 10 {
      var s := NatToString(n);
      assert s[..|s| - 1] == NatToString(n / 10);
      ValueOfNatToString(n / 10);
    }
  }

  lemma {:induction false} DigitRunOfDigits(s: string)
    requires forall i :: 0 <= i < |s| ==> DigitOf(s[i]) < 10
    ensures DigitRun(s, 10) == |s|
    decreases |s|
  {
    if |s| > 0 {
      DigitRunOfDigits(s[1..]);
    }
  }

  lemma ParseUnsignedOfNat(m: nat)
    ensures ParseUnsigned(NatToString(m)) == Some(m)
  {
    var d := NatToString(m);
    assert !HexPrefixed(d);
    DigitRunOfDigits(d);
    assert d[..|d|] == d;
    ValueOfNatToString(m);
  }

  lemma ParseIntOfNat(m: nat)
    ensures ParseInt(IntToString(m)) == Some(m)
  {
    assert IntToString(m) == NatToString(m);
    var d := NatToString(m);
    assert !Text.IsSpace(d[0]) && d[0] != '-' && d[0] != '+' by {
      assert DigitOf(d[0]) < 10;
    }
    assert Unsigned(Text.TrimStart(d)) == (d, false);
    ParseUnsignedOfNat(m);
  }

  lemma ParseIntOfNegative(m: nat)
    requires m > 0
    ensures ParseInt(IntToString(-(m as int))) == Some(-(m as int))
  {
    assert IntToString(-(m as int)) == "-" + NatToString(m);
    ParseUnsignedOfNat(m);
    ParseIntMinus(NatToString(m), m);
  }

  lemma ParseIntMinus(d: string, v: nat)
    requires ParseUnsigned(d) == Some(v)
    ensures ParseInt("-" + d) == Some(0 - v as int)
  {
    var s := "-" + d;
    assert s[0] == '-' && s[1..] == d;
    assert Text.TrimStart(s) == s by {
      assert !Text.IsSpace(s[0]);
    }
  }

  /** `parseInt` reads back every number written in decimal, so the link
      `/blog/${id}` carries the post's id. */
  lemma ParseIntOfIntToString(n: int)
    ensures ParseInt(IntToString(n)) == Some(n)
  {
    if n < 0 {
      ParseIntOfNegative(-n);
    } else {
      ParseIntOfNat(n);
    }
  }

  /** White space before the number is skipped. */
  lemma ParseIntSkipsSpace(pre: string, s: string)
    requires forall i :: 0 <= i < |pre| ==> Text.IsSpace(pre[i])
    requires |s| > 0 && !Text.IsSpace(s[0])
    ensures ParseInt(pre + s) == ParseInt(s)
  {
    Text.TrimStartPadded(pre, s);
    Text.TrimStartPadded([], s);
    assert [] + s == s;
    assert Text.TrimStart(pre + s) == Text.TrimStart(s);
  }

  /** Text that starts with neither space nor sign is parsed as it stands. */
  lemma ParseIntUnsigned(s: string)
    requires |s| > 0 && !Text.IsSpace(s[0]) && s[0] != '-' && s[0] != '+'
    ensures ParseInt(s) == ParseUnsigned(s)
  {
    assert Text.TrimStart(s) == s;
  }

  /** A hexadecimal id also opens a post: "0x1" reads as 1. */
  lemma ParseIntReadsHex()
    ensures ParseInt("0x1") == Some(1)
  {
    var s := "0x1";
    ParseIntUnsigned(s);
    assert HexPrefixed(s) && s[2..] == "1";
    assert DigitRun("1", 16) == 1 by { assert DigitOf('1') == 1; assert "1"[1..] == ""; }
    assert Value("1", 16) == 1 by { assert "1"[..0] == ""; }
  }

  /** Digits followed by other text read as the digits: "2abc" opens post 2. */
  lemma ParseIntStopsAtNonDigit()
    ensures ParseInt("2abc") == Some(2)
  {
    var s := "2abc";
    assert DigitRun(s, 10) == 1 by {
      assert DigitOf(s[0]) == 2;
      assert DigitOf(s[1..][0]) >= 10;
    }
    assert Value(s[..1], 10) == 2 by {
      assert s[..1] == "2";
      assert "2"[..0] == "";
    }
    assert ParseUnsigned(s) == Some(2) by {
      assert !HexPrefixed(s);
    }
    ParseIntUnsigned(s);
  }

  /** Text with no leading digit opens no post. */
  lemma ParseIntNeedsDigit()
    ensures ParseInt("abc").None?
  {
    var s := "abc";
    ParseIntUnsigned(s);
    assert !HexPrefixed(s);
    assert DigitRun(s, 10) == 0 by { assert DigitOf(s[0]) >= 10; }
  }

  /** The first post whose id equals the parsed number, or none. */
  function FindPost(posts: seq<Post>, id: Option<int>): (r: Option<Post>)
    ensures r.None? <==> id.None? || forall i :: 0 <= i < |posts| ==> posts[i].id != id.value
    ensures r.Some? ==> exists k :: (0 <= k < |posts| && posts[k] == r.value && r.value.id == id.value &&
      forall j :: 0 <= j < k ==> posts[j].id != id.value)
  {
    if id.None? || |posts| == 0 then None
    else if posts[0].id == id.value then Some(posts[0])
    else
      var r := FindPost(posts[1..], id);
      assert r.Some? ==> exists k :: (0 <= k < |posts| && posts[k] == r.value && r.value.id == id.value &&
        forall j :: 0 <= j < k ==> posts[j].id != id.value) by {
        if r.Some? {
          var k :| 0 <= k < |posts[1..]| && posts[1..][k] == r.value && r.value.id == id.value &&
            forall j :: 0 <= j < k ==> posts[1..][j].id != id.value;
          assert posts[k + 1] == r.value;
          assert forall j :: 1 <= j < k + 1 ==> posts[j] == posts[1..][j - 1];
        }
      }
      r
  }

  function IdIsNot(id: int): Post -> bool {
    (p: Post) => p.id != id
  }

  /** `relatedBlogs`: the first three other posts, in the data file's order. */
  function Related(posts: seq<Post>, current: Post): (r: seq<Post>)
    ensures |r| <= 3
    ensures forall i :: 0 <= i < |r| ==> r[i].id != current.id && r[i] in posts
    ensures |r| == if Seqs.Count(posts, IdIsNot(current.id)) < 3 then Seqs.Count(posts, IdIsNot(current.id)) else 3
    ensures r == Seqs.Filter(posts, IdIsNot(current.id))[..|r|]
  {
    var others := Seqs.Filter(posts, IdIsNot(current.id));
    var r := Seqs.Take(others, 3);
    assert forall i :: 0 <= i < |r| ==> r[i] == others[i];
    r
  }

  /** How a line of the body is rendered. */
  datatype Block = Heading(text: string) | Quote(text: string) | Item(text: string) | Paragraph(text: string)

  /** The marker `line.startsWith` tests for, in the order tested. */
  function Marker(b: Block): string {
    match b
    case Heading(_) => "### "
    case Quote(_) => "> "
    case Item(_) => "- "
    case Paragraph(_) => ""
  }

  /** One line: the first marker it starts with is dropped and decides the block. */
  function Classify(line: string): (b: Block)
    ensures b.Heading? <==> Text.StartsWith(line, "### ")
    ensures b.Quote? <==> !Text.StartsWith(line, "### ") && Text.StartsWith(line, "> ")
    ensures b.Item? <==> !Text.StartsWith(line, "### ") && !Text.StartsWith(line, "> ") && Text.StartsWith(line, "- ")
    ensures line == Marker(b) + b.text
  {
    if Text.StartsWith(line, "### ") then Heading(line[4..])
    else if Text.StartsWith(line, "> ") then Quote(line[2..])
    else if Text.StartsWith(line, "- ") then Item(line[2..])
    else Paragraph(line)
  }

  /** The body: one block per line of the content. */
  function Body(content: string): (r: seq<Block>)
    ensures |r| == |Text.Split(content, '\n')| == multiset(content)['\n'] + 1
    ensures forall i :: 0 <= i < |r| ==> r[i] == Classify(Text.Split(content, '\n')[i])
  {
    var lines := Text.Split(content, '\n');
    Text.SplitCount(content, '\n');
    seq(|lines|, i requires 0 <= i < |lines| => Classify(lines[i]))
  }

  /** The lines the blocks were made from. */
  function Lines(blocks: seq<Block>): (r: seq<string>)
    ensures |r| == |blocks| && forall i :: 0 <= i < |blocks| ==> r[i] == Marker(blocks[i]) + blocks[i].text
  {
    seq(|blocks|, i requires 0 <= i < |blocks| => Marker(blocks[i]) + blocks[i].text)
  }

  /** Nothing of the content is lost: putting each marker back and joining the
      lines with newlines gives the content again. */
  lemma BodyRoundTrip(content: string)
    ensures Text.Join(Lines(Body(content)), '\n') == content
  {
    var lines := Text.Split(content, '\n');
    assert Lines(Body(content)) == lines;
    Text.JoinSplit(content, '\n');
  }

  /** What the page does for a URL id. */
  datatype Opened = ShowPost(post: Post, related: seq<Post>, body: seq<Block>) | GoTo(path: string)

  /** The effect and the render: the post with the parsed id, or a
      navigation to "/blogs" when there is none. */
  function Open(posts: seq<Post>, param: string): (r: Opened)
    ensures r.GoTo? <==> FindPost(posts, ParseInt(param)).None?
    ensures r.GoTo? ==> r.path == "/blogs"
    ensures r.ShowPost? ==> (r.post == FindPost(posts, ParseInt(param)).value &&
      r.related == Related(posts, r.post) && r.body == Body(r.post.content))
  {
    match FindPost(posts, ParseInt(param))
    case None => GoTo("/blogs")
    case Some(p) => ShowPost(p, Related(posts, p), Body(p.content))
  }

  /** Following a card's link opens the post it shows, when ids are unique. */
  lemma CardLinkOpensPost(posts: seq<Post>, i: nat)
    requires i < |posts|
    requires forall j :: 0 <= j < i ==> posts[j].id != posts[i].id
    ensures Open(posts, IntToString(posts[i].id)).ShowPost?
    ensures Open(posts, IntToString(posts[i].id)).post == posts[i]
  {
    ParseIntOfIntToString(posts[i].id);
    var r := FindPost(posts, Some(posts[i].id));
    var k :| 0 <= k < |posts| && posts[k] == r.value && r.value.id == posts[i].id &&
      forall j :: 0 <= j < k ==> posts[j].id != posts[i].id;
    assert k == i;
  }

  /** A URL id with no post leads to "/blogs", which no route matches, so the
      reader is redirected to /login. A post page is only open to a signed-in
      reader, and /login sends such a reader on to /home. */
  lemma MissingPostGoesHome(posts: seq<Post>, param: string, s: Auth.Session, store: Auth.Store)
    requires FindPost(posts, ParseInt(param)).None?
    ensures Routes.VisitPath(Open(posts, param).path, s, store) == Routes.Redirected("/login")
    ensures Routes.LoggedIn(s, store) ==> Routes.VisitPath("/login", s, store) == Routes.Redirected("/home")
  {
    Routes.BlogsGoesToLogin(s, store);
    Routes.LoginRoute(s, store);
  }
}

=== FILE: books_manager.dfy ===
/** The admin books page of `BooksManager.jsx`: the add/edit form's submit,
    the title search with the category filter and title sort, the stock chart
    grouped by category, the category options and the stock badge. The
    catalogue service is a parameter: its answers are inputs, its requests
    outputs. */
module BooksManager {
  import opened Wrappers
  import opened Catalog
  import Seqs
  import Text
  import Cart

  /** The form's fields after a reset: empty text, no price and no stock. */
  const BlankForm := Book(None, None, Some(""), Some(""), Some(""), None, None, None)

  /** The form state: the book being edited (`null` when closed) and the field values. */
  datatype Editor = Editor(editing: Option<Book>, form: Book)

  /** The request a submit sends. */
  datatype SaveCall = UpdateCall(id: string, body: Book) | CreateCall(body: Book)

  datatype Saved = Saved(editor: Editor, call: SaveCall, toast: string)

  /** `handleEdit(book)`: edit that book with its own values in the form. */
  function HandleEdit(e: Editor, book: Book): (r: Editor)
    ensures r.editing == Some(book) && r.form == book
  {
    Editor(Some(book), book)
  }

  /** The "Add Book" button: an empty record under edit, the form untouched. */
  function OpenAdd(e: Editor): (r: Editor)
    ensures r.editing == Some(Book(None, None, None, None, None, None, None, None)) && r.form == e.form
  {
    Editor(Some(Book(None, None, None, None, None, None, None, None)), e.form)
  }

  /** `handleSubmit`: an update when the edited record has an `_id`, a creation
      otherwise; success closes the editor and resets the form, failure keeps both. */
  function HandleSubmit(e: Editor, succeeded: bool): (r: Saved)
    ensures r.call.UpdateCall? <==> e.editing.Some? && Text.Present(e.editing.value.id)
    ensures r.call.UpdateCall? ==> r.call.id == e.editing.value.id.value
    ensures r.call.body == e.form
    ensures succeeded ==> r.editor == Editor(None, BlankForm)
    ensures !succeeded ==> r.editor == e && r.toast == "Error saving book"
    ensures succeeded ==> (r.toast == "Book updated successfully!" <==> r.call.UpdateCall?)
    ensures succeeded && !r.call.UpdateCall? ==> r.toast == "Book added successfully!"
  {
    var call := if e.editing.Some? && Text.Present(e.editing.value.id) then UpdateCall(e.editing.value.id.value, e.form)
                else CreateCall(e.form);
    if !succeeded then Saved(e, call, "Error saving book")
    else if call.UpdateCall? then Saved(Editor(None, BlankForm), call, "Book updated successfully!")
    else Saved(Editor(None, BlankForm), call, "Book added successfully!")
  }

  /** Editing a stored book and saving sends that book back under its own
      `_id`; the "Add Book" button always creates. */
  lemma EditSavesInPlace(e: Editor, book: Book, succeeded: bool)
    requires Text.Present(book.id)
    ensures HandleSubmit(HandleEdit(e, book), succeeded).call == UpdateCall(book.id.value, book)
    ensures HandleSubmit(OpenAdd(e), succeeded).call == CreateCall(e.form)
  {
  }

  /** `b.title.toLowerCase()` and friends read an absent field as empty text. */
  function TitleOf(b: Book): string {
    b.title.GetOr("")
  }

  function CategoryOf(b: Book): string {
    b.category.GetOr("")
  }

  /** The search: the title contains the term, ignoring case; an empty term matches every title. */
  predicate TitleHit(search: string, b: Book) {
    Text.Contains(Text.Lower(TitleOf(b)), Text.Lower(search))
  }

  /** The category filter: "all", or the category equal to the filter ignoring case. */
  predicate CategoryHit(categoryFilter: string, b: Book) {
    categoryFilter == "all" || Text.EqualsIgnoreCase(CategoryOf(b), categoryFilter)
  }

  function TitleHitOf(search: string): Book -> bool {
    (b: Book) => TitleHit(search, b)
  }

  function CategoryIs(categoryFilter: string): Book -> bool {
    (b: Book) => Text.EqualsIgnoreCase(CategoryOf(b), categoryFilter)
  }

  /** `a.title.localeCompare(b.title)`, and its reverse for any other sort value. */
  predicate TitleAsc(a: Book, b: Book) {
    Text.StrLe(TitleOf(a), TitleOf(b))
  }

  predicate TitleDesc(a: Book, b: Book) {
    Text.StrLe(TitleOf(b), TitleOf(a))
  }

  lemma TitleOrdersTotal()
    ensures Seqs.TotalPreorder(TitleAsc) && Seqs.TotalPreorder(TitleDesc)
  {
    forall a: Book, b: Book
      ensures TitleAsc(a, b) || TitleAsc(b, a)
    {
      Text.StrLeTotal(TitleOf(a), TitleOf(b));
    }
    forall a: Book, b: Book
      ensures TitleDesc(a, b) || TitleDesc(b, a)
    {
      Text.StrLeTotal(TitleOf(a), TitleOf(b));
    }
    forall a: Book, b: Book, c: Book | TitleAsc(a, b) && TitleAsc(b, c)
      ensures TitleAsc(a, c)
    {
      Text.StrLeTrans(TitleOf(a), TitleOf(b), TitleOf(c));
    }
    forall a: Book, b: Book, c: Book | TitleDesc(a, b) && TitleDesc(b, c)
      ensures TitleDesc(a, c)
    {
      Text.StrLeTrans(TitleOf(c), TitleOf(b), TitleOf(a));
    }
  }

  /** A book the table lists. */
  predicate BookKept(search: string, categoryFilter: string, b: Book) {
    TitleHit(search, b) && CategoryHit(categoryFilter, b)
  }

  function BookKeptOf(search: string, categoryFilter: string): Book -> bool {
    (b: Book) => BookKept(search, categoryFilter, b)
  }

  /** The two filters, search first. */
  function KeptBooks(books: seq<Book>, search: string, categoryFilter: string): (r: seq<Book>)
    ensures forall b :: multiset(r)[b] == if BookKept(search, categoryFilter, b) then multiset(books)[b] else 0
    ensures |r| <= |books|
  {
    var bySearch := Seqs.Filter(books, TitleHitOf(search));
    Seqs.FilterWhen(bySearch, categoryFilter != "all", CategoryIs(categoryFilter))
  }

  /** The title sort: ascending for "asc", descending for any other value. */
  function SortByTitle(s: seq<Book>, sort: string): (r: seq<Book>)
    ensures multiset(r) == multiset(s) && |r| == |s|
    ensures sort == "asc" ==> Seqs.Sorted(r, TitleAsc)
    ensures sort != "asc" ==> Seqs.Sorted(r, TitleDesc)
  {
    TitleOrdersTotal();
    if sort == "asc" then Seqs.Sort(s, TitleAsc) else Seqs.Sort(s, TitleDesc)
  }

  /** `filteredBooks`: the books matching the search and the category filter,
      each as often as in the list, sorted by title ascending for "asc" and
      descending otherwise. */
  function FilteredBooks(books: seq<Book>, search: string, categoryFilter: string, sort: string): (r: seq<Book>)
    ensures forall b :: multiset(r)[b] == if BookKept(search, categoryFilter, b) then multiset(books)[b] else 0
    ensures forall b :: b in r <==> b in books && BookKept(search, categoryFilter, b)
    ensures |r| <= |books|
    ensures sort == "asc" ==> Seqs.Sorted(r, TitleAsc)
    ensures sort != "asc" ==> Seqs.Sorted(r, TitleDesc)
  {
    var r := SortByTitle(KeptBooks(books, search, categoryFilter), sort);
    Seqs.MembersOfKept(r, books, BookKeptOf(search, categoryFilter));
    r
  }

  /** An empty search with every category shows every book. */
  lemma EmptySearchShowsAll(books: seq<Book>, sort: string)
    ensures multiset(FilteredBooks(books, "", "all", sort)) == multiset(books)
  {
    forall b ensures TitleHit("", b) {
      Text.ContainsEmpty(Text.Lower(TitleOf(b)));
    }
    var r := FilteredBooks(books, "", "all", sort);
    assert forall b :: multiset(r)[b] == multiset(books)[b];
  }

  /** `books.map((b) => b.category)`. */
  function CategoryColumn(books: seq<Book>): (cs: seq<Option<string>>)
    ensures |cs| == |books| && forall i :: 0 <= i < |books| ==> cs[i] == books[i].category
  {
    seq(|books|, i requires 0 <= i < |books| => books[i].category)
  }

  /** `[...new Set(books.map((b) => b.category))]`: the category options, each
      once, in the order of its first book. */
  function CategoryOptions(books: seq<Book>): (r: seq<Option<string>>)
    ensures Seqs.NoDups(r)
    ensures forall c :: c in r <==> exists i :: 0 <= i < |books| && books[i].category == c
    ensures forall c :: c in r <==> c in CategoryColumn(books)
    ensures forall i, j :: 0 <= i < j < |r| ==>
      Seqs.FirstIndex(CategoryColumn(books), r[i]) < Seqs.FirstIndex(CategoryColumn(books), r[j])
  {
    var cats := CategoryColumn(books);
    Seqs.DistinctFirstOccurrence(cats);
    Seqs.Distinct(cats)
  }

  /** Choosing any category the menu offers shows every book of that category
      whose title matches the search. */
  lemma OptionShowsItsBooks(books: seq<Book>, search: string, sort: string, i: nat)
    requires i < |books| && books[i].category.Some? && TitleHit(search, books[i])
    ensures Some(books[i].category.value) in CategoryOptions(books)
    ensures books[i] in FilteredBooks(books, search, books[i].category.value, sort)
  {
  }

  /** The chart's grouping key: `acc[book.category]` names an absent category "undefined". */
  function StockKey(b: Book): string {
    if b.category.Some? then b.category.value else "undefined"
  }

  /** `Number(book.stock || 0)`. */
  function StockOf(b: Book): int {
    Cart.OrZero(b.stock)
  }

  function KeyIs(k: string): Book -> bool {
    (b: Book) => StockKey(b) == k
  }

  /** One bar of the chart. */
  datatype StockEntry = StockEntry(category: string, stock: int)

  function EntryStock(e: StockEntry): int {
    e.stock
  }

  /** The bars for the keys `ks`, in order, each with the stock of its books. */
  function Entries(books: seq<Book>, ks: seq<string>): (r: seq<StockEntry>)
    ensures |r| == |ks|
    ensures forall i :: 0 <= i < |ks| ==> r[i].category == ks[i]
  {
    if |ks| == 0 then []
    else [StockEntry(ks[0], Seqs.SumOf(Seqs.Filter(books, KeyIs(ks[0])), StockOf))] + Entries(books, ks[1..])
  }

  lemma {:induction false} EntryStockOfKey(books: seq<Book>, ks: seq<string>, i: nat)
    requires i < |ks|
    ensures Entries(books, ks)[i].stock == Seqs.SumOf(Seqs.Filter(books, KeyIs(ks[i])), StockOf)
    decreases |ks|
  {
    if i > 0 {
      EntryStockOfKey(books, ks[1..], i - 1);
    }
  }

  /** The categories of the bars, in order. */
  function Bars(r: seq<StockEntry>): (cs: seq<string>)
    ensures |cs| == |r| && forall i :: 0 <= i < |r| ==> cs[i] == r[i].category
  {
    seq(|r|, i requires 0 <= i < |r| => r[i].category)
  }

  function Keys(books: seq<Book>): (r: seq<string>)
    ensures |r| == |books| && forall i :: 0 <= i < |books| ==> r[i] == StockKey(books[i])
  {
    seq(|books|, i requires 0 <= i < |books| => StockKey(books[i]))
  }

  /** `stockData`: one bar per key, in order of first appearance, none repeated;
      no bars exactly when there are no books. */
  function StockData(books: seq<Book>): (r: seq<StockEntry>)
    ensures forall k :: k in Bars(r) <==> k in Keys(books)
    ensures Seqs.NoDups(Bars(r))
    ensures |r| == 0 <==> |books| == 0
  {
    var ks := Seqs.Distinct(Keys(books));
    var r := Entries(books, ks);
    assert Bars(r) == ks;
    assert |books| > 0 ==> Keys(books)[0] in ks;
    r
  }

  /** Each bar holds the stock of exactly the books filed under its category. */
  lemma BarStock(books: seq<Book>)
    ensures var r := StockData(books);
      forall i :: 0 <= i < |r| ==> r[i].stock == Seqs.SumOf(Seqs.Filter(books, KeyIs(r[i].category)), StockOf)
  {
    var r := StockData(books);
    forall i | 0 <= i < |r|
      ensures r[i].stock == Seqs.SumOf(Seqs.Filter(books, KeyIs(r[i].category)), StockOf)
    {
      EntryStockOfKey(books, Seqs.Distinct(Keys(books)), i);
    }
  }

  /** One book at the front adds its stock to its own key's sum only. */
  lemma KeySumPeel(b: Book, rest: seq<Book>, k: string)
    ensures Seqs.SumOf(Seqs.Filter([b] + rest, KeyIs(k)), StockOf) ==
      Seqs.SumOf(Seqs.Filter(rest, KeyIs(k)), StockOf) + (if StockKey(b) == k then StockOf(b) else 0)
  {
    var s := [b] + rest;
    assert s[0] == b && s[1..] == rest;
  }

  /** Adding one book to the front changes each bar's total by its stock when
      the key is its category. */
  lemma {:induction false} EntriesPeel(b: Book, rest: seq<Book>, ks: seq<string>)
    requires Seqs.NoDups(ks)
    ensures Seqs.SumOf(Entries([b] + rest, ks), EntryStock) ==
      Seqs.SumOf(Entries(rest, ks), EntryStock) + (if StockKey(b) in ks then StockOf(b) else 0)
    decreases |ks|
  {
    if |ks| > 0 {
      var k, tail := ks[0], ks[1..];
      var s := [b] + rest;
      var whole, whole' := Seqs.SumOf(Entries(s, ks), EntryStock), Seqs.SumOf(Entries(rest, ks), EntryStock);
      var later, later' := Seqs.SumOf(Entries(s, tail), EntryStock), Seqs.SumOf(Entries(rest, tail), EntryStock);
      var first, first' := Seqs.SumOf(Seqs.Filter(s, KeyIs(k)), StockOf), Seqs.SumOf(Seqs.Filter(rest, KeyIs(k)), StockOf);
      var here := if StockKey(b) == k then StockOf(b) else 0;
      var there := if StockKey(b) in tail then StockOf(b) else 0;
      assert whole == first + later by {
        EntriesCons(s, ks);
      }
      assert whole' == first' + later' by {
        EntriesCons(rest, ks);
      }
      assert first == first' + here by {
        KeySumPeel(b, rest, k);
      }
      assert Seqs.NoDups(tail) && k !in tail by {
        Seqs.NoDupsTail(ks);
      }
      assert later == later' + there by {
        EntriesPeel(b, rest, tail);
      }
      assert (if StockKey(b) in ks then StockOf(b) else 0) == here + there by {
        Seqs.InHeadOrTail(ks, StockKey(b));
      }
    }
  }

  /** The bars' total is the first key's sum plus the total of the other bars. */
  lemma EntriesCons(books: seq<Book>, ks: seq<string>)
    requires |ks| > 0
    ensures Seqs.SumOf(Entries(books, ks), EntryStock) ==
      Seqs.SumOf(Seqs.Filter(books, KeyIs(ks[0])), StockOf) + Seqs.SumOf(Entries(books, ks[1..]), EntryStock)
  {
    var r := Entries(books, ks);
    assert r[0].stock == Seqs.SumOf(Seqs.Filter(books, KeyIs(ks[0])), StockOf);
    assert r[1..] == Entries(books, ks[1..]);
  }

  /** Bars over distinct keys covering every book's key hold all the stock. */
  lemma {:induction false} EntriesTotal(books: seq<Book>, ks: seq<string>)
    requires Seqs.NoDups(ks)
    requires forall i :: 0 <= i < |books| ==> StockKey(books[i]) in ks
    ensures Seqs.SumOf(Entries(books, ks), EntryStock) == Seqs.SumOf(books, StockOf)
    decreases |books|
  {
    if |books| == 0 {
      EntriesEmpty(ks);
    } else {
      var b, rest := books[0], books[1..];
      assert Seqs.SumOf(Entries(books, ks), EntryStock) == Seqs.SumOf(Entries(rest, ks), EntryStock) + StockOf(b) by {
        assert [b] + rest == books;
        assert StockKey(b) in ks;
        EntriesPeel(b, rest, ks);
      }
      assert Seqs.SumOf(Entries(rest, ks), EntryStock) == Seqs.SumOf(rest, StockOf) by {
        assert forall i :: 0 <= i < |rest| ==> rest[i] == books[i + 1];
        EntriesTotal(rest, ks);
      }
    }
  }

  lemma {:induction false} EntriesEmpty(ks: seq<string>)
    ensures Seqs.SumOf(Entries([], ks), EntryStock) == 0
    decreases |ks|
  {
    if |ks| > 0 {
      EntriesEmpty(ks[1..]);
    }
  }

  /** The chart shows all the stock: its bars add up to the stock of every book. */
  lemma StockDataKeepsTotal(books: seq<Book>)
    ensures Seqs.SumOf(StockData(books), EntryStock) == Seqs.SumOf(books, StockOf)
  {
    var ks := Seqs.Distinct(Keys(books));
    forall i | 0 <= i < |books| ensures StockKey(books[i]) in ks {
      assert Keys(books)[i] == StockKey(books[i]);
    }
    EntriesTotal(books, ks);
  }

  /** The colour band of the stock badge. */
  datatype Badge = Plenty | Low | Out

  /** `book.stock > 10`, then `book.stock > 0`; an absent stock compares false. */
  function StockBadge(stock: Option<int>): (r: Badge)
    ensures r == Plenty <==> stock.Some? && stock.value > 10
    ensures r == Low <==> stock.Some? && 0 < stock.value <= 10
    ensures r == Out <==> stock.None? || stock.value <= 0
  {
    if stock.Some? && stock.value > 10 then Plenty
    else if stock.Some? && stock.value > 0 then Low
    else Out
  }

  /** The badge shows "Out of Stock" exactly for the books that add nothing
      positive to the chart. */
  lemma BadgeAgreesWithChart(b: Book)
    ensures StockBadge(b.stock) == Out <==> StockOf(b) <= 0
  {
  }
}

=== FILE: cart.dfy ===
/** The cart engine of `CartContext.jsx`: an ordered sequence of line items
    keyed by `_id`, the four operations that change it, and the derived
    subtotal, threshold discount and total. Each operation returns the new
    sequence together with the toast it raises. */
module Cart {
  import opened Wrappers
  import opened Catalog
  import Seqs
  import Text

  /** The toast each operation raises. */
  datatype Notice = InvalidBook | QuantityUpdated | AddedToCart | RemovedFromCart | CartCleared

  /** The cart after an operation, and the toast raised (none for a quantity change). */
  datatype Change = Change(items: seq<Book>, notice: Option<Notice>)

  /** `(q || 1)`: an absent or zero quantity reads as 1. */
  function QtyOr1(q: Option<int>): int {
    if q.None? || q.value == 0 then 1 else q.value
  }

  /** `(x || 0)` for a numeric field. */
  function OrZero(x: Option<int>): int {
    x.GetOr(0)
  }

  predicate HasId(items: seq<Book>, id: Option<string>) {
    exists i :: 0 <= i < |items| && items[i].id == id
  }

  /** Every line item carries an `_id`, no two share one, and every quantity is at least 1. */
  predicate WellFormed(items: seq<Book>) {
    && (forall i :: 0 <= i < |items| ==>
          Text.Present(items[i].id) && items[i].quantity.Some? && items[i].quantity.value >= 1)
    && (forall i, j :: 0 <= i < j < |items| ==> items[i].id != items[j].id)
  }

  /** The line item with its quantity raised by one, reading a missing quantity as 1. */
  function Bumped(item: Book): Book {
    item.(quantity := Some(QtyOr1(item.quantity) + 1))
  }

  /** `addToCart(book)`. */
  function AddToCart(items: seq<Book>, book: Option<Book>): (r: Change)
    ensures book.None? || !Text.Present(book.value.id) ==> r == Change(items, Some(InvalidBook))
    ensures book.Some? && Text.Present(book.value.id) && HasId(items, book.value.id) ==>
      && r.notice == Some(QuantityUpdated)
      && |r.items| == |items|
      && (forall i :: 0 <= i < |items| && items[i].id == book.value.id ==> r.items[i] == Bumped(items[i]))
      && (forall i :: 0 <= i < |items| && items[i].id != book.value.id ==> r.items[i] == items[i])
    ensures book.Some? && Text.Present(book.value.id) && !HasId(items, book.value.id) ==>
      r == Change(items + [book.value.(quantity := Some(1))], Some(AddedToCart))
  {
    if book.None? || !Text.Present(book.value.id) then Change(items, Some(InvalidBook))
    else if HasId(items, book.value.id) then
      var id := book.value.id;
      Change(seq(|items|, i requires 0 <= i < |items| =>
               if items[i].id == id then Bumped(items[i]) else items[i]),
             Some(QuantityUpdated))
    else Change(items + [book.value.(quantity := Some(1))], Some(AddedToCart))
  }

  /** `removeFromCart(id)`. */
  function RemoveFromCart(items: seq<Book>, id: Option<string>): (r: Change)
    ensures r.notice == Some(RemovedFromCart)
    ensures forall b :: b in r.items <==> b in items && b.id != id
    ensures forall b :: multiset(r.items)[b] == if b.id != id then multiset(items)[b] else 0
    ensures Seqs.IsSubseq(r.items, items)
    ensures !HasId(items, id) ==> r.items == items
  {
    if !HasId(items, id) then
      Seqs.FilterAll(items, (b: Book) => b.id != id);
      Change(Seqs.Filter(items, (b: Book) => b.id != id), Some(RemovedFromCart))
    else
      Change(Seqs.Filter(items, (b: Book) => b.id != id), Some(RemovedFromCart))
  }

  /** `updateQuantity(id, quantity)`. */
  function UpdateQuantity(items: seq<Book>, id: Option<string>, quantity: int): (r: Change)
    ensures quantity <= 0 ==> r == RemoveFromCart(items, id)
    ensures quantity > 0 ==>
      && r.notice.None?
      && |r.items| == |items|
      && (forall i :: 0 <= i < |items| && items[i].id == id ==> r.items[i] == items[i].(quantity := Some(quantity)))
      && (forall i :: 0 <= i < |items| && items[i].id != id ==> r.items[i] == items[i])
    ensures quantity > 0 && !HasId(items, id) ==> r.items == items
  {
    if quantity <= 0 then RemoveFromCart(items, id)
    else
      Change(seq(|items|, i requires 0 <= i < |items| =>
               if items[i].id == id then items[i].(quantity := Some(quantity)) else items[i]),
             None)
  }

  /** `clearCart()`. */
  function ClearCart(items: seq<Book>): (r: Change)
    ensures r.items == [] && r.notice == Some(CartCleared)
  {
    Change([], Some(CartCleared))
  }

  /** One line's contribution to the subtotal: `(price || 0) * (quantity || 0)`. */
  function LineAmount(item: Book): int {
    OrZero(item.price) * OrZero(item.quantity)
  }

  /** `subtotal`: the line amounts added up, so an empty cart has none, a
      single line its own amount, and a cart split in two the sum of both
      parts (`SubtotalAppend`). */
  function Subtotal(items: seq<Book>): (s: int)
    ensures |items| == 0 ==> s == 0
    ensures |items| == 1 ==> s == LineAmount(items[0])
  {
    assert |items| == 1 ==> items == [items[0]];
    if |items| == 1 then Seqs.SumOfSingle(items[0], LineAmount); Seqs.SumOf(items, LineAmount)
    else Seqs.SumOf(items, LineAmount)
  }

  /** The subtotal of two carts put together is the sum of their subtotals. */
  lemma SubtotalAppend(a: seq<Book>, b: seq<Book>)
    ensures Subtotal(a + b) == Subtotal(a) + Subtotal(b)
  {
    Seqs.SumOfAppend(a, b, LineAmount);
  }

  /** The fixed threshold rule: 50 off once the subtotal exceeds 500. */
  function Discount(subtotal: int): (d: int)
    ensures d == 50 <==> subtotal > 500
    ensures d == 0 <==> subtotal <= 500
  {
    if subtotal > 500 then 50 else 0
  }

  /** `total`: the subtotal less 50 above 500, the subtotal itself otherwise. */
  function Total(items: seq<Book>): (t: int)
    ensures Subtotal(items) > 500 ==> t == Subtotal(items) - 50
    ensures Subtotal(items) <= 500 ==> t == Subtotal(items)
  {
    Subtotal(items) - Discount(Subtotal(items))
  }

  /** No negative price or quantity anywhere in the cart. */
  predicate NonNegative(items: seq<Book>) {
    forall i :: 0 <= i < |items| ==> OrZero(items[i].price) >= 0 && OrZero(items[i].quantity) >= 0
  }

  /** The total never exceeds the subtotal and, for non-negative prices and
      quantities, never goes below zero. */
  lemma TotalBounds(items: seq<Book>)
    ensures Total(items) <= Subtotal(items)
    ensures NonNegative(items) ==> 0 <= Total(items)
  {
    if NonNegative(items) {
      Seqs.SumOfNonNegative(items, LineAmount);
    }
  }

  /** An emptied cart has subtotal, discount and total all zero. */
  lemma ClearedTotals(items: seq<Book>)
    ensures var c := ClearCart(items).items;
      Subtotal(c) == 0 && Discount(Subtotal(c)) == 0 && Total(c) == 0
  {
  }

  lemma {:induction false} AddPreservesWellFormed(items: seq<Book>, book: Option<Book>)
    requires WellFormed(items)
    ensures WellFormed(AddToCart(items, book).items)
  {
    var r := AddToCart(items, book).items;
    if book.Some? && Text.Present(book.value.id) && HasId(items, book.value.id) {
      forall i, j | 0 <= i < j < |r| ensures r[i].id != r[j].id {
        assert r[i].id == items[i].id && r[j].id == items[j].id;
      }
    } else if book.Some? && Text.Present(book.value.id) {
      forall i, j | 0 <= i < j < |r| ensures r[i].id != r[j].id {
        if j == |items| {
          assert r[i] == items[i];
        } else {
          assert r[i] == items[i] && r[j] == items[j];
        }
      }
    }
  }

  lemma {:induction false} RemovePreservesWellFormed(items: seq<Book>, id: Option<string>)
    requires WellFormed(items)
    ensures WellFormed(RemoveFromCart(items, id).items)
  {
    var r := RemoveFromCart(items, id).items;
    SubseqKeepsWellFormed(r, items);
  }

  lemma {:induction false} SubseqKeepsWellFormed(a: seq<Book>, b: seq<Book>)
    requires WellFormed(b) && Seqs.IsSubseq(a, b)
    ensures WellFormed(a)
    decreases |b|
  {
    if |a| > 0 {
      assert WellFormed(b[1..]) by {
        forall i, j | 0 <= i < j < |b[1..]| ensures b[1..][i].id != b[1..][j].id {
          assert b[1..][i] == b[i + 1] && b[1..][j] == b[j + 1];
        }
      }
      if a[0] == b[0] && Seqs.IsSubseq(a[1..], b[1..]) {
        SubseqKeepsWellFormed(a[1..], b[1..]);
        SubseqMembers(a[1..], b[1..]);
        forall j | 0 < j < |a| ensures a[0].id != a[j].id {
          assert a[j] == a[1..][j - 1];
          assert a[1..][j - 1] in a[1..];
          var k :| 0 <= k < |b[1..]| && b[1..][k] == a[j];
          assert b[k + 1] == a[j];
        }
        forall i, j | 0 <= i < j < |a| ensures a[i].id != a[j].id {
          if i > 0 {
            assert a[i] == a[1..][i - 1] && a[j] == a[1..][j - 1];
          }
        }
      } else {
        SubseqKeepsWellFormed(a, b[1..]);
      }
    }
  }

  lemma {:induction false} SubseqMembers(a: seq<Book>, b: seq<Book>)
    requires Seqs.IsSubseq(a, b)
    ensures forall x :: x in a ==> x in b
    decreases |b|
  {
    if |a| > 0 {
      if a[0] == b[0] && Seqs.IsSubseq(a[1..], b[1..]) {
        SubseqMembers(a[1..], b[1..]);
        assert forall x :: x in a ==> x == a[0] || x in a[1..];
      } else {
        SubseqMembers(a, b[1..]);
      }
    }
  }

  lemma {:induction false} UpdatePreservesWellFormed(items: seq<Book>, id: Option<string>, quantity: int)
    requires WellFormed(items)
    ensures WellFormed(UpdateQuantity(items, id, quantity).items)
  {
    if quantity <= 0 {
      RemovePreservesWellFormed(items, id);
    } else {
      var r := UpdateQuantity(items, id, quantity).items;
      forall i, j | 0 <= i < j < |r| ensures r[i].id != r[j].id {
        assert r[i].id == items[i].id && r[j].id == items[j].id;
      }
    }
  }

  /** The events that change the cart, one at a time. */
  datatype Event = Add(book: Option<Book>) | Remove(id: Option<string>) | SetQuantity(id: Option<string>, quantity: int) | Clear

  function Apply(items: seq<Book>, e: Event): seq<Book> {
    match e
    case Add(b) => AddToCart(items, b).items
    case Remove(id) => RemoveFromCart(items, id).items
    case SetQuantity(id, q) => UpdateQuantity(items, id, q).items
    case Clear => ClearCart(items).items
  }

  function Run(items: seq<Book>, events: seq<Event>): seq<Book>
    decreases |events|
  {
    if |events| == 0 then items else Run(Apply(items, events[0]), events[1..])
  }

  /** Id uniqueness and quantities of at least 1 survive any sequence of cart events. */
  lemma {:induction false} RunPreservesWellFormed(items: seq<Book>, events: seq<Event>)
    requires WellFormed(items)
    ensures WellFormed(Run(items, events))
    decreases |events|
  {
    if |events| > 0 {
      match events[0] {
        case Add(b) => AddPreservesWellFormed(items, b);
        case Remove(id) => RemovePreservesWellFormed(items, id);
        case SetQuantity(id, q) => UpdatePreservesWellFormed(items, id, q);
        case Clear =>
      }
      RunPreservesWellFormed(Apply(items, events[0]), events[1..]);
    }
  }

  /** Adding a book whose id is not yet in the cart and then removing that id
      gives back the cart as it was. */
  lemma AddThenRemove(items: seq<Book>, book: Book)
    requires Text.Present(book.id) && !HasId(items, book.id)
    ensures RemoveFromCart(AddToCart(items, Some(book)).items, book.id).items == items
  {
    var p := (b: Book) => b.id != book.id;
    Seqs.FilterAppend(items, [book.(quantity := Some(1))], p);
    Seqs.FilterAll(items, p);
  }

  /** The quantity held under one id: the sum of `(quantity || 1)` over the lines with that id. */
  function QuantityOf(items: seq<Book>, id: Option<string>): int {
    Seqs.SumOf(items, (b: Book) => if b.id == id then QtyOr1(b.quantity) else 0)
  }

  /** In a well-formed cart a valid add raises the quantity held under the
      book's id by exactly one and leaves every other id's quantity alone. */
  lemma AddRaisesQuantityByOne(items: seq<Book>, book: Book, other: Option<string>)
    requires WellFormed(items) && Text.Present(book.id)
    ensures QuantityOf(AddToCart(items, Some(book)).items, book.id) == QuantityOf(items, book.id) + 1
    ensures other != book.id ==> QuantityOf(AddToCart(items, Some(book)).items, other) == QuantityOf(items, other)
  {
    var r := AddToCart(items, Some(book)).items;
    var f := (b: Book) => if b.id == book.id then QtyOr1(b.quantity) else 0;
    var g := (b: Book) => if b.id == other then QtyOr1(b.quantity) else 0;
    if HasId(items, book.id) {
      var k :| 0 <= k < |items| && items[k].id == book.id;
      Seqs.SumOfBump(items, r, f, k, 1);
      if other != book.id {
        Seqs.SumOfEqual(items, r, g);
      }
    } else {
      var nb := book.(quantity := Some(1));
      Seqs.SumOfAppend(items, [nb], f);
      Seqs.SumOfAppend(items, [nb], g);
      assert Seqs.SumOf([nb], f) == 1;
      assert other != book.id ==> Seqs.SumOf([nb], g) == 0;
    }
  }
}

=== FILE: cart_page.dfy ===
/** The cart page of `Cart.jsx`: coupon entry, the coupon-discounted total,
    the empty-cart guard and snapshot handed to checkout, and the quantity
    buttons. */
module CartPage {
  import opened Wrappers
  import opened Catalog
  import Cart
  import Text

  /** `Number(x) || 0`: a value that is absent or not a number reads as 0. */
  function SafeNumber(x: Option<int>): (n: int)
    ensures x.None? ==> n == 0
    ensures x.Some? ==> n == x.value
  {
    x.GetOr(0)
  }

  /** The coupon code as it is matched: trimmed, then upper-cased. */
  function NormaliseCode(code: string): string {
    Text.Upper(Text.Trim(code))
  }

  /** The message the coupon button shows. */
  datatype CouponNotice = EnterCode | TenPercentOff | TwentyPercentOff | InvalidCode

  /** The applied rate, as a whole percentage, and the message shown. */
  datatype CouponResult = CouponResult(ratePercent: nat, notice: CouponNotice)

  /** `handleApplyCoupon`, given the code typed and the rate applied so far. */
  function ApplyCoupon(code: string, current: nat): (r: CouponResult)
    ensures NormaliseCode(code) == "" ==> r == CouponResult(current, EnterCode)
    ensures NormaliseCode(code) == "BOOK10" ==> r == CouponResult(10, TenPercentOff)
    ensures NormaliseCode(code) == "BOOK20" ==> r == CouponResult(20, TwentyPercentOff)
    ensures NormaliseCode(code) !in {"", "BOOK10", "BOOK20"} ==> r == CouponResult(0, InvalidCode)
  {
    var c := NormaliseCode(code);
    if c == "" then CouponResult(current, EnterCode)
    else if c == "BOOK10" then CouponResult(10, TenPercentOff)
    else if c == "BOOK20" then CouponResult(20, TwentyPercentOff)
    else CouponResult(0, InvalidCode)
  }

  /** Normalising twice is normalising once. */
  lemma NormaliseIdempotent(code: string)
    ensures NormaliseCode(NormaliseCode(code)) == NormaliseCode(code)
  {
    var t := Text.Trim(code);
    var u := Text.Upper(t);
    if |t| > 0 {
      assert !Text.IsSpace(t[0]) && !Text.IsSpace(t[|t| - 1]);
    }
    Text.TrimNoSpace(u);
    assert Text.Upper(u) == u;
  }

  /** The coupon outcome depends on the code only through its normal form,
      so case and surrounding white space never matter. */
  lemma ApplyCouponNormalised(code: string, current: nat)
    ensures ApplyCoupon(NormaliseCode(code), current) == ApplyCoupon(code, current)
  {
    NormaliseIdempotent(code);
  }

  /** A code typed in lower case between blanks is applied as the code itself. */
  lemma CouponIgnoresCaseAndPadding(pre: string, code: string, post: string, current: nat)
    requires forall i :: 0 <= i < |pre| ==> Text.IsSpace(pre[i])
    requires forall i :: 0 <= i < |post| ==> Text.IsSpace(post[i])
    ensures ApplyCoupon(pre + Text.Lower(code) + post, current) == ApplyCoupon(code, current)
  {
    Text.TrimIgnoresPadding(pre, Text.Lower(code), post);
    Text.LowerTrimCommute(code);
    Text.UpperOfLower(Text.Trim(code));
    assert NormaliseCode(pre + Text.Lower(code) + post) == NormaliseCode(code);
  }

  /** `discountedTotal`: the coupon is taken off the post-threshold total, so
      what remains is the total scaled by the percentage not taken off. */
  function DiscountedTotal(total: int, ratePercent: nat): (r: real)
    ensures r == total as real * (100 - ratePercent) as real / 100.0
    ensures ratePercent == 0 ==> r == total as real
    ensures total > 0 && ratePercent > 0 ==> r < total as real
    ensures total >= 0 && ratePercent <= 20 ==> 0.8 * total as real <= r <= total as real
  {
    var t := total as real;
    var rate := ratePercent as real / 100.0;
    assert total >= 0 && ratePercent <= 20 ==> t * rate <= 0.2 * t by {
      if total >= 0 && ratePercent <= 20 {
        assert rate <= 0.2;
      }
    }
    t - t * rate
  }

  /** The state handed to the checkout route. */
  datatype Snapshot = Snapshot(
    items: seq<Book>,
    subtotal: int,
    discount: int,
    appliedRatePercent: nat,
    total: int,
    discountedTotal: real)

  datatype CheckoutOutcome = CartEmptyWarning | GoToCheckout(snapshot: Snapshot)

  /** `handleCheckout`, given the cart and the totals the cart context supplies. */
  function HandleCheckout(items: seq<Book>, subtotal: Option<int>, discount: Option<int>,
                          total: Option<int>, ratePercent: nat): (r: CheckoutOutcome)
    ensures r.CartEmptyWarning? <==> |items| == 0
    ensures r.GoToCheckout? ==>
      && r.snapshot.items == items
      && r.snapshot.subtotal == SafeNumber(subtotal)
      && r.snapshot.discount == SafeNumber(discount)
      && r.snapshot.total == SafeNumber(total)
      && r.snapshot.appliedRatePercent == ratePercent
      && r.snapshot.discountedTotal == DiscountedTotal(SafeNumber(total), ratePercent)
  {
    if |items| == 0 then CartEmptyWarning
    else
      var t := SafeNumber(total);
      GoToCheckout(Snapshot(items, SafeNumber(subtotal), SafeNumber(discount), ratePercent, t,
                            DiscountedTotal(t, ratePercent)))
  }

  /** The snapshot taken from a live cart: its total is subtotal less the
      threshold discount, and with an applied coupon the amount to pay lies
      between 80% of that total and the total itself. */
  lemma CheckoutFromCart(items: seq<Book>, ratePercent: nat)
    requires |items| > 0 && Cart.NonNegative(items) && ratePercent in {0, 10, 20}
    ensures var sub := Cart.Subtotal(items);
      var r := HandleCheckout(items, Some(sub), Some(Cart.Discount(sub)), Some(Cart.Total(items)), ratePercent);
      && r.GoToCheckout?
      && r.snapshot.total == r.snapshot.subtotal - r.snapshot.discount
      && 0 <= r.snapshot.total <= r.snapshot.subtotal
      && 0.8 * r.snapshot.total as real <= r.snapshot.discountedTotal <= r.snapshot.total as real
  {
    Cart.TotalBounds(items);
  }

  /** One book at 400, quantity 2: subtotal 800, threshold discount 50,
      total 750, and with BOOK20 the amount to pay is 600. */
  lemma TwentyPercentScenario(book: Book)
    requires book.price == Some(400) && book.quantity == Some(2)
    ensures Cart.Subtotal([book]) == 800
    ensures Cart.Discount(800) == 50
    ensures Cart.Total([book]) == 750
    ensures DiscountedTotal(750, ApplyCoupon("BOOK20", 0).ratePercent) == 600.0
  {
    assert Cart.Subtotal([book]) == 800 by {
      assert [book][1..] == [];
      assert Cart.LineAmount(book) == 800;
      assert Cart.Subtotal([book]) == Cart.LineAmount(book) + Cart.Subtotal([]);
    }
    assert ApplyCoupon("BOOK20", 0).ratePercent == 20 by {
      PlainCodeNormal("BOOK20");
    }
  }

  /** A code typed in capitals without surrounding blanks is matched as typed. */
  lemma PlainCodeNormal(code: string)
    requires |code| > 0 && !Text.IsSpace(code[0]) && !Text.IsSpace(code[|code| - 1])
    requires forall i :: 0 <= i < |code| ==> !Text.IsLowerAscii(code[i])
    ensures NormaliseCode(code) == code
  {
    Text.TrimNoSpace(code);
  }

  /** The minus button: `updateQuantity(id, (Number(quantity) || 1) - 1)`. */
  function MinusClick(items: seq<Book>, item: Book): (r: Cart.Change)
    ensures Cart.QtyOr1(item.quantity) <= 1 ==> r == Cart.RemoveFromCart(items, item.id)
    ensures var q := Cart.QtyOr1(item.quantity) - 1;
      q > 0 ==> && r.notice.None? && |r.items| == |items|
                && forall i :: 0 <= i < |items| ==>
                     r.items[i] == if items[i].id == item.id then items[i].(quantity := Some(q)) else items[i]
  {
    Cart.UpdateQuantity(items, item.id, Cart.QtyOr1(item.quantity) - 1)
  }

  /** The plus button: `updateQuantity(id, (Number(quantity) || 1) + 1)`. */
  function PlusClick(items: seq<Book>, item: Book): (r: Cart.Change)
    ensures var q := Cart.QtyOr1(item.quantity) + 1;
      q > 0 ==> && r.notice.None? && |r.items| == |items|
                && forall i :: 0 <= i < |items| ==>
                     r.items[i] == if items[i].id == item.id then items[i].(quantity := Some(q)) else items[i]
    ensures Cart.QtyOr1(item.quantity) + 1 <= 0 ==> r == Cart.RemoveFromCart(items, item.id)
  {
    Cart.UpdateQuantity(items, item.id, Cart.QtyOr1(item.quantity) + 1)
  }

  /** In a well-formed cart, plus and then minus on the same line restores the cart. */
  lemma PlusThenMinus(items: seq<Book>, k: nat)
    requires Cart.WellFormed(items) && k < |items|
    ensures var after := PlusClick(items, items[k]).items;
      MinusClick(after, after[k]).items == items
  {
    var item := items[k];
    var after := PlusClick(items, item).items;
    var q := Cart.QtyOr1(item.quantity);
    assert after[k] == item.(quantity := Some(q + 1));
    var back := MinusClick(after, after[k]).items;
    forall i | 0 <= i < |items| ensures back[i] == items[i] {
      if i != k {
        assert items[i].id != item.id;
      }
    }
  }
}

=== FILE: catalog.dfy ===
/** The book record shared by the cart, the explore page, the admin books
    manager and the author pages, and the category list and URL slug shared
    by the navigation bar and the explore page. */
module Catalog {
  import opened Wrappers
  import Text

  /** A book as the pages receive it (from the catalogue service, the static
      data files or the persisted cart); any field may be absent. `id` is the
      record's `_id`; `quantity` is set once the book sits in the cart. */
  datatype Book = Book(
    id: Option<string>,
    bookId: Option<string>,
    title: Option<string>,
    author: Option<string>,
    category: Option<string>,
    price: Option<int>,
    stock: Option<int>,
    quantity: Option<int>)

  /** The categories offered in the navigation bar's menu and on the explore page. */
  const Categories: seq<string> :=
    ["Fiction", "Non Fiction", "Science", "History", "Children", "Thriller", "Fantasy", "Health"]

  /** `cat.toLowerCase().replace(/ /g, "-")`: the URL segment of a category. */
  function Slug(name: string): (r: string)
    ensures |r| == |name| && ' ' !in r
    ensures forall i :: 0 <= i < |name| ==> r[i] == if name[i] == ' ' then '-' else Text.LowerChar(name[i])
  {
    Text.ReplaceChar(Text.Lower(name), ' ', '-')
  }

  predicate IsLetter(c: char) {
    Text.IsUpperAscii(c) || Text.IsLowerAscii(c)
  }

  /** Position `i` holds a space, or a letter that is upper-case exactly
      when it starts a word. */
  predicate WordCased(name: string, i: nat)
    requires i < |name|
  {
    name[i] == ' ' ||
    (IsLetter(name[i]) && (Text.IsUpperAscii(name[i]) <==> (i == 0 || name[i - 1] == ' ')))
  }

  /** Every position from `i` on is word-cased. */
  predicate WordCasedFrom(name: string, i: nat)
    decreases |name| - i
  {
    i >= |name| || (WordCased(name, i) && WordCasedFrom(name, i + 1))
  }

  /** Letters and spaces, with a capital exactly at the start of each word. */
  predicate TitleShaped(name: string) {
    WordCasedFrom(name, 0)
  }

  /** The recursive check covers each position. */
  lemma {:induction false} WordCasedFromAll(name: string, i: nat)
    requires WordCasedFrom(name, i)
    ensures forall j :: i <= j < |name| ==> WordCased(name, j)
    decreases |name| - i
  {
    if i < |name| {
      WordCasedFromAll(name, i + 1);
    }
  }

  /** Every listed category is written in title case. */
  lemma CategoriesTitleShaped()
    ensures forall k :: 0 <= k < |Categories| ==> TitleShaped(Categories[k])
  {
    assert TitleShaped("Fiction") && TitleShaped("Non Fiction");
    assert TitleShaped("Science") && TitleShaped("History");
    assert TitleShaped("Children") && TitleShaped("Thriller");
    assert TitleShaped("Fantasy") && TitleShaped("Health");
  }
}

=== FILE: checkout.dfy ===
/** The checkout page of `Checkout.jsx`: a step counter (1 shipping,
    2 payment, 3 review, 4 confirmation) advanced by `nextStep` once the
    current step's fields are filled, moved back by `prevStep`, and set to 4
    when the order is placed. The live cart decides whether any step is shown. */
module Checkout {
  import opened Wrappers
  import opened Catalog
  import Cart
  import CartPage

  datatype Payment = Card | Upi | CashOnDelivery

  /** The form fields the page keeps; all start empty. */
  datatype Form = Form(
    name: string, email: string, address: string, city: string, zip: string,
    cardNumber: string, expiry: string, cvv: string, upiId: string)

  datatype State = State(step: int, payment: Payment, form: Form, items: seq<Book>)

  const EmptyForm := Form("", "", "", "", "", "", "", "", "")

  /** The page as first rendered over the live cart: step 1, card payment, empty form. */
  function Init(items: seq<Book>): State {
    State(1, Card, EmptyForm, items)
  }

  predicate ShippingFilled(f: Form) {
    f.name != "" && f.email != "" && f.address != "" && f.city != "" && f.zip != ""
  }

  predicate PaymentFilled(p: Payment, f: Form) {
    match p
    case Card => f.cardNumber != "" && f.expiry != "" && f.cvv != ""
    case Upi => f.upiId != ""
    case CashOnDelivery => true
  }

  /** `nextStep`: validates the current step's fields, then advances by one. */
  function NextStep(s: State): (r: State)
    ensures r.payment == s.payment && r.form == s.form && r.items == s.items
    ensures s.step == 1 ==> (r.step == 2 <==> ShippingFilled(s.form)) && (r.step == 1 <==> !ShippingFilled(s.form))
    ensures s.step == 2 ==> (r.step == 3 <==> PaymentFilled(s.payment, s.form)) && (r.step == 2 <==> !PaymentFilled(s.payment, s.form))
    ensures s.step != 1 && s.step != 2 ==> r.step == s.step + 1
  {
    if s.step == 1 && !ShippingFilled(s.form) then s
    else if s.step == 2 && !PaymentFilled(s.payment, s.form) then s
    else s.(step := s.step + 1)
  }

  /** `prevStep`. */
  function PrevStep(s: State): (r: State)
    ensures r.step == s.step - 1
    ensures r.payment == s.payment && r.form == s.form && r.items == s.items
  {
    s.(step := s.step - 1)
  }

  /** A payment-method button. */
  function ChoosePayment(s: State, m: Payment): (r: State)
    ensures r.payment == m
    ensures r.step == s.step && r.form == s.form && r.items == s.items
  {
    s.(payment := m)
  }

  /** `handlePlaceOrder`, taken as one step: the cart is cleared and the step becomes 4. */
  function PlaceOrder(s: State): (r: State)
    ensures r.items == [] && r.step == 4
    ensures r.payment == s.payment && r.form == s.form
  {
    s.(items := Cart.ClearCart(s.items).items, step := 4)
  }

  datatype View = EmptyCartView | ShippingView | PaymentView | ReviewView | ConfirmationView | NoPanel

  /** What the page renders: the empty-cart view takes precedence over every step. */
  function Render(s: State): (v: View)
    ensures |s.items| == 0 <==> v == EmptyCartView
    ensures v == ConfirmationView ==> s.step == 4 && |s.items| > 0
  {
    if |s.items| == 0 then EmptyCartView
    else if s.step == 1 then ShippingView
    else if s.step == 2 then PaymentView
    else if s.step == 3 then ReviewView
    else if s.step == 4 then ConfirmationView
    else NoPanel
  }

  /** The buttons of the step panels that move the checkout along. */
  datatype Button = ContinueButton | ReviewOrderButton | BackButton | PlaceOrderButton | MethodButton(m: Payment)

  /** The buttons the rendered view offers. */
  predicate Offered(s: State, b: Button) {
    match Render(s)
    case ShippingView => b == ContinueButton
    case PaymentView => b == BackButton || b == ReviewOrderButton || b.MethodButton?
    case ReviewView => b == BackButton || b == PlaceOrderButton
    case _ => false
  }

  function Press(s: State, b: Button): State {
    match b
    case ContinueButton => NextStep(s)
    case ReviewOrderButton => NextStep(s)
    case BackButton => PrevStep(s)
    case PlaceOrderButton => PlaceOrder(s)
    case MethodButton(m) => ChoosePayment(s, m)
  }

  /** Pressing only offered buttons keeps the step within 1 to 4 and never
      shows step 4 over a non-empty cart. */
  ghost predicate Reachable(s: State) {
    1 <= s.step <= 4 && (s.step == 4 ==> |s.items| == 0)
  }

  lemma PressKeepsReachable(s: State, b: Button)
    requires Reachable(s) && Offered(s, b)
    ensures Reachable(Press(s, b))
  {
  }

  /** Presses only take effect on buttons the page renders at that moment. */
  function Run(s: State, presses: seq<Button>): State
    decreases |presses|
  {
    if |presses| == 0 then s
    else Run(if Offered(s, presses[0]) then Press(s, presses[0]) else s, presses[1..])
  }

  lemma {:induction false} RunKeepsReachable(s: State, presses: seq<Button>)
    requires Reachable(s)
    ensures Reachable(Run(s, presses))
    decreases |presses|
  {
    if |presses| > 0 {
      if Offered(s, presses[0]) {
        PressKeepsReachable(s, presses[0]);
      }
      RunKeepsReachable(if Offered(s, presses[0]) then Press(s, presses[0]) else s, presses[1..]);
    }
  }

  /** From a fresh page, whatever is pressed, the step stays in 1..4 and the
      confirmation panel is never rendered: placing the order empties the cart,
      so the empty-cart view replaces it. */
  lemma ConfirmationNeverShown(items: seq<Book>, presses: seq<Button>)
    ensures var s := Run(Init(items), presses);
      1 <= s.step <= 4 && Render(s) != ConfirmationView
  {
    RunKeepsReachable(Init(items), presses);
  }

  /** Figures in the order summary: the cart's own subtotal, discount and total. */
  datatype Summary = Summary(subtotal: int, discount: int, total: int)

  function ShownSummary(s: State): (r: Summary)
    ensures r.subtotal == Cart.Subtotal(s.items)
    ensures r.total == r.subtotal - r.discount
    ensures r.discount == 50 <==> r.subtotal > 500
  {
    var sub := Cart.Subtotal(s.items);
    Summary(sub, Cart.Discount(sub), Cart.Total(s.items))
  }

  /** The checkout page ignores the snapshot the cart page passes on, so a
      coupon applied on the cart page is not reflected in the total shown here. */
  lemma CouponNotCarried(items: seq<Book>, ratePercent: nat)
    requires |items| > 0 && ratePercent > 0 && Cart.Total(items) > 0
    ensures var sub := Cart.Subtotal(items);
      var r := CartPage.HandleCheckout(items, Some(sub), Some(Cart.Discount(sub)), Some(Cart.Total(items)), ratePercent);
      r.GoToCheckout? && ShownSummary(Init(items)).total as real != r.snapshot.discountedTotal
  {
    var t := Cart.Total(items) as real;
    var rate := ratePercent as real / 100.0;
    assert t * rate > 0.0;
  }
}

=== FILE: explore.dfy ===
/** The explore page of `Explore.jsx`: the category read from the URL, the
    category filter, the title search, the price sort, and the add-and-go
    button. The fetched catalogue is a parameter. */
module Explore {
  import opened Wrappers
  import opened Catalog
  import Seqs
  import Text
  import Cart

  /** A character of the regular-expression class `\w`. */
  predicate IsWordChar(c: char) {
    IsLetter(c) || '0' <= c <= '9' || c == '_'
  }

  /** Position `i` starts a word: the `\b\w` of the source's replacement. */
  predicate StartsWord(s: string, i: nat)
    requires i < |s|
  {
    IsWordChar(s[i]) && (i == 0 || !IsWordChar(s[i - 1]))
  }

  /** `s.replace(/\b\w/g, (l) => l.toUpperCase())`. */
  function CapitaliseWords(s: string): (r: string)
    ensures |r| == |s|
    ensures forall i :: 0 <= i < |s| && StartsWord(s, i) ==> r[i] == Text.UpperChar(s[i])
    ensures forall i :: 0 <= i < |s| && !StartsWord(s, i) ==> r[i] == s[i]
  {
    seq(|s|, i requires 0 <= i < |s| => if StartsWord(s, i) then Text.UpperChar(s[i]) else s[i])
  }

  /** `selectedCategory`: the URL segment with hyphens as spaces and each word
      capitalised, or empty when the segment is absent. */
  function SelectedCategory(param: Option<string>): (r: string)
    ensures !Text.Present(param) ==> r == ""
    ensures Text.Present(param) ==> |r| == |param.value| && '-' !in r
    ensures Text.Present(param) ==> r == CapitaliseWords(Text.ReplaceChar(param.value, '-', ' '))
  {
    if Text.Present(param) then
      var spaced := Text.ReplaceChar(param.value, '-', ' ');
      var r := CapitaliseWords(spaced);
      assert forall i :: 0 <= i < |r| ==> r[i] != '-' by {
        forall i | 0 <= i < |r| ensures r[i] != '-' {
          assert spaced[i] != '-';
        }
      }
      r
    else ""
  }

  /** Reading back a title-cased category's slug gives the category itself. */
  lemma SelectedCategoryOfSlug(name: string)
    requires TitleShaped(name)
    ensures SelectedCategory(Some(Slug(name))) == name
  {
    if |name| > 0 {
      WordCasedFromAll(name, 0);
      var lower := Text.Lower(name);
      assert '-' !in lower by {
        forall i | 0 <= i < |lower| ensures lower[i] != '-' {
          assert WordCased(name, i);
        }
      }
      Text.ReplaceCharRoundTrip(lower, ' ', '-');
      var r := CapitaliseWords(lower);
      forall i | 0 <= i < |name|
        ensures r[i] == name[i]
      {
        assert WordCased(name, i);
        assert IsWordChar(lower[i]) <==> name[i] != ' ';
        if i > 0 {
          assert WordCased(name, i - 1);
          assert IsWordChar(lower[i - 1]) <==> name[i - 1] != ' ';
        }
      }
    }
  }

  /** Each category button opens a page whose heading is that category. */
  lemma CategoryButtonsRoundTrip()
    ensures forall k :: 0 <= k < |Categories| ==> SelectedCategory(Some(Slug(Categories[k]))) == Categories[k]
  {
    CategoriesTitleShaped();
    forall k | 0 <= k < |Categories|
      ensures SelectedCategory(Some(Slug(Categories[k]))) == Categories[k]
    {
      SelectedCategoryOfSlug(Categories[k]);
    }
  }

  /** The category filter: a category present and equal to the selected one, ignoring case. */
  predicate InCategory(b: Book, selected: string) {
    Text.Present(b.category) && Text.EqualsIgnoreCase(b.category.value, selected)
  }

  /** The search filter: a title whose lower-case form contains the lower-case
      term, taken untrimmed. */
  predicate MatchesSearch(b: Book, term: string) {
    b.title.Some? && Text.Contains(Text.Lower(b.title.value), Text.Lower(term))
  }

  /** The books the page keeps: the category filter applies when a category is
      selected, the search filter when the trimmed term is non-empty. */
  predicate Keep(selected: string, term: string, b: Book) {
    (selected == "" || InCategory(b, selected)) && (Text.Blank(term) || MatchesSearch(b, term))
  }

  function InCategoryOf(selected: string): Book -> bool {
    (b: Book) => InCategory(b, selected)
  }

  function MatchesSearchOf(term: string): Book -> bool {
    (b: Book) => MatchesSearch(b, term)
  }

  function KeepOf(selected: string, term: string): Book -> bool {
    (b: Book) => Keep(selected, term, b)
  }

  /** The two filters in turn, as the effect applies them. */
  function Narrowed(books: seq<Book>, selected: string, term: string): seq<Book> {
    var byCategory := if selected != "" then Seqs.Filter(books, InCategoryOf(selected)) else books;
    if !Text.Blank(term) then Seqs.Filter(byCategory, MatchesSearchOf(term)) else byCategory
  }

  /** Filtering in two stages keeps exactly the books `Keep` admits, in catalogue order. */
  lemma {:induction false} NarrowedIsOneFilter(books: seq<Book>, selected: string, term: string)
    ensures Narrowed(books, selected, term) == Seqs.Filter(books, KeepOf(selected, term))
  {
    var cat, hit, keep := InCategoryOf(selected), MatchesSearchOf(term), KeepOf(selected, term);
    if selected != "" && !Text.Blank(term) {
      Seqs.FilterFilter(books, cat, hit, keep);
    } else if selected != "" {
      Seqs.FilterExtensional(books, cat, keep);
    } else if !Text.Blank(term) {
      Seqs.FilterExtensional(books, hit, keep);
    } else {
      Seqs.FilterAll(books, keep);
    }
  }

  /** `a.price - b.price` as an order; a missing price reads as 0. */
  predicate CheaperOrEqual(a: Book, b: Book) {
    Cart.OrZero(a.price) <= Cart.OrZero(b.price)
  }

  predicate DearerOrEqual(a: Book, b: Book) {
    Cart.OrZero(b.price) <= Cart.OrZero(a.price)
  }

  /** The price sort: ascending for "low", descending for "high", otherwise untouched. */
  function SortByPrice(s: seq<Book>, sortOrder: string): (r: seq<Book>)
    ensures multiset(r) == multiset(s)
    ensures sortOrder == "low" ==> Seqs.Sorted(r, CheaperOrEqual)
    ensures sortOrder == "high" ==> Seqs.Sorted(r, DearerOrEqual)
    ensures sortOrder != "low" && sortOrder != "high" ==> r == s
  {
    if sortOrder == "low" then
      assert Seqs.TotalPreorder(CheaperOrEqual);
      Seqs.Sort(s, CheaperOrEqual)
    else if sortOrder == "high" then
      assert Seqs.TotalPreorder(DearerOrEqual);
      Seqs.Sort(s, DearerOrEqual)
    else s
  }

  /** The books shown: narrowed, then sorted by price when "low" or "high" is chosen. */
  function Visible(books: seq<Book>, selected: string, term: string, sortOrder: string): (r: seq<Book>)
    ensures forall b :: b in r <==> b in books && Keep(selected, term, b)
    ensures forall b :: multiset(r)[b] == if Keep(selected, term, b) then multiset(books)[b] else 0
    ensures sortOrder == "low" ==> Seqs.Sorted(r, CheaperOrEqual)
    ensures sortOrder == "high" ==> Seqs.Sorted(r, DearerOrEqual)
    ensures sortOrder != "low" && sortOrder != "high" ==> Seqs.IsSubseq(r, books)
  {
    NarrowedIsOneFilter(books, selected, term);
    var kept := Narrowed(books, selected, term);
    var r := SortByPrice(kept, sortOrder);
    assert forall b :: b in r <==> b in multiset(kept);
    r
  }

  /** A blank search box, however many spaces it holds, filters nothing out. */
  lemma BlankSearchKeepsAll(books: seq<Book>, term: string)
    requires Text.Blank(term)
    ensures Visible(books, "", term, "") == books
  {
    NarrowedIsOneFilter(books, "", term);
    Seqs.FilterAll(books, KeepOf("", term));
  }

  /** The term is trimmed only to decide whether to search: a word that
      matches a title stops matching once a space is typed before it. */
  lemma SearchUsesUntrimmedTerm(b: Book, word: string)
    requires b.title.Some? && Text.Lower(b.title.value) == Text.Lower(word)
    requires |word| > 0 && !Text.IsSpace(word[0])
    ensures Keep("", word, b)
    ensures !Keep("", " " + word, b)
  {
    var t, padded := Text.Lower(word), " " + word;
    assert !Text.Blank(word) by {
      Text.BlankIffAllSpace(word);
    }
    assert Text.Contains(t, t) by {
      assert Text.OccursAt(t, t, 0);
    }
    assert !Text.Blank(padded) by {
      Text.BlankIffAllSpace(padded);
      assert padded[1] == word[0];
    }
    assert !Text.Contains(t, Text.Lower(padded)) by {
      assert |Text.Lower(padded)| > |t|;
    }
  }

  /** What the add-and-go button did. */
  datatype AddAndGo =
    | InvalidBookData
    | Added(change: Cart.Change, toastTitle: Option<string>, navigate: string)

  /** `handleAddToCartAndGo`: it accepts a book with either identifier and
      hands it to the cart, which only accepts one with an `_id`. */
  function AddToCartAndGo(items: seq<Book>, book: Option<Book>): (r: AddAndGo)
    ensures r.InvalidBookData? <==> book.None? || (!Text.Present(book.value.id) && !Text.Present(book.value.bookId))
    ensures r.Added? ==> r.change == Cart.AddToCart(items, book) && r.navigate == "/cart" && r.toastTitle == book.value.title
  {
    if book.None? || (!Text.Present(book.value.id) && !Text.Present(book.value.bookId)) then InvalidBookData
    else Added(Cart.AddToCart(items, book), book.value.title, "/cart")
  }

  /** A book carrying only `bookId` passes the page's check and is announced as
      added, but the cart rejects it and stays as it was. */
  lemma BookIdOnlyNotAdded(items: seq<Book>, book: Book)
    requires !Text.Present(book.id) && Text.Present(book.bookId)
    ensures var r := AddToCartAndGo(items, Some(book));
      r.Added? && r.change.items == items && r.change.notice == Some(Cart.InvalidBook)
  {
  }

  /** A book with an `_id` ends up in the cart under that id. */
  lemma AddedBookInCart(items: seq<Book>, book: Book)
    requires Text.Present(book.id)
    ensures var r := AddToCartAndGo(items, Some(book));
      r.Added? && Cart.HasId(r.change.items, book.id)
  {
    var r := Cart.AddToCart(items, Some(book)).items;
    if !Cart.HasId(items, book.id) {
      assert r[|items|].id == book.id;
    }
  }
}

=== FILE: login.dfy ===
/** The form of `LoginSignup.jsx`: validation, the local admin shortcut,
    and the hand-off to the session's login or signup with the navigation
    that follows. The server's reply is a parameter. */
module LoginSignup {
  import opened Wrappers
  import Text
  import opened Auth

  datatype Mode = LoginMode | SignupMode

  const AdminEmail := "admin@bookverse.com"
  const AdminPassword := "admin123"

  /** Which session operation a submit reaches. */
  datatype Call =
    | NoCall
    | AdminLoginCall(identity: Identity)
    | LoginCall(email: string, password: string)
    | SignupCall(name: string, email: string, password: string)

  predicate Incomplete(mode: Mode, name: string, email: string, password: string) {
    Text.Blank(email) || Text.Blank(password) || (mode == SignupMode && Text.Blank(name))
  }

  /** The branch `handleSubmit` takes. The admin shortcut compares the fields
      untrimmed, and only in login mode; the server receives them untrimmed. */
  function Dispatch(mode: Mode, name: string, email: string, password: string): (c: Call)
    ensures c == NoCall <==> Incomplete(mode, name, email, password)
    ensures c.AdminLoginCall? <==>
      !Incomplete(mode, name, email, password) && mode == LoginMode && email == AdminEmail && password == AdminPassword
    ensures c.AdminLoginCall? ==> c.identity == Identity("Admin User", email, Some("admin"))
    ensures c.LoginCall? ==> mode == LoginMode && c == LoginCall(email, password)
    ensures c.SignupCall? <==> !Incomplete(mode, name, email, password) && mode == SignupMode
    ensures c.SignupCall? ==> c == SignupCall(name, email, password)
  {
    if Incomplete(mode, name, email, password) then NoCall
    else if mode == LoginMode && email == AdminEmail && password == AdminPassword then
      AdminLoginCall(Identity("Admin User", email, Some("admin")))
    else if mode == LoginMode then LoginCall(email, password)
    else SignupCall(name, email, password)
  }

  /** The form after a submit: the session, the error line, and where it navigated. */
  datatype Submitted = Submitted(session: Session, error: string, navigate: Option<string>)

  function Submit(s: Session, mode: Mode, name: string, email: string, password: string, reply: Reply): (r: Submitted)
    ensures Incomplete(mode, name, email, password) ==> r == Submitted(s, "All fields are required", None)
    ensures r.navigate.Some? <==> r.error == ""
    ensures r.navigate == Some("/admin/home") <==> Dispatch(mode, name, email, password).AdminLoginCall?
    ensures r.navigate == Some("/home") <==>
      (Dispatch(mode, name, email, password).LoginCall? || Dispatch(mode, name, email, password).SignupCall?) && reply.Accepted?
    ensures r.navigate.None? && !Incomplete(mode, name, email, password) ==>
      reply.Rejected? && r.session == s && r.error == Auth.MessageOr(reply.message, "Something went wrong")
  {
    match Dispatch(mode, name, email, password)
    case NoCall => Submitted(s, "All fields are required", None)
    case AdminLoginCall(d) => Submitted(AdminLogin(s, d), "", Some("/admin/home"))
    case LoginCall(_, _) => AfterServer(s, Login(s, reply), reply)
    case SignupCall(_, _, _) => AfterServer(s, Signup(s, reply), reply)
  }

  /** The form once the server has answered: on success the session the call
      produced and the home page; on failure the old session and the server's
      message, or a generic one. */
  function AfterServer(s: Session, step: Step, reply: Reply): (r: Submitted)
    requires step.outcome == Succeeded <==> reply.Accepted?
    ensures reply.Accepted? ==> r == Submitted(step.session, "", Some("/home"))
    ensures reply.Rejected? ==> r == Submitted(s, MessageOr(reply.message, "Something went wrong"), None)
  {
    if step.outcome == Succeeded then Submitted(step.session, "", Some("/home"))
    else Submitted(s, MessageOr(reply.message, "Something went wrong"), None)
  }

  /** The admin credentials typed into the signup form create an ordinary account request. */
  lemma AdminCredentialsInSignup(name: string)
    requires !Text.Blank(name)
    ensures Dispatch(SignupMode, name, AdminEmail, AdminPassword) == SignupCall(name, AdminEmail, AdminPassword)
  {
    AdminFieldsFilled();
  }

  /** Neither admin field is blank. */
  lemma AdminFieldsFilled()
    ensures !Text.Blank(AdminEmail) && !Text.Blank(AdminPassword)
  {
    Text.LeadNotBlank(AdminEmail);
    Text.LeadNotBlank(AdminPassword);
  }

  /** White space typed before the admin email passes validation but misses
      the shortcut, so the server is asked to log the address in. */
  lemma PaddedAdminEmailGoesToServer(pad: string, name: string)
    requires |pad| > 0 && forall i :: 0 <= i < |pad| ==> Text.IsSpace(pad[i])
    ensures Dispatch(LoginMode, name, pad + AdminEmail, AdminPassword) == LoginCall(pad + AdminEmail, AdminPassword)
  {
    AdminFieldsFilled();
    Text.PrefixKeepsNotBlank(pad, AdminEmail);
    assert pad + AdminEmail != AdminEmail by {
      assert |pad + AdminEmail| != |AdminEmail|;
    }
  }

  /** Only the admin shortcut fills the admin slot; a login or signup that
      succeeds fills the user slot with what the server sent. */
  lemma SubmitSlots(s: Session, mode: Mode, name: string, email: string, password: string, reply: Reply)
    ensures var r := Submit(s, mode, name, email, password, reply);
      r.navigate.Some? ==> AtMostOne(r.session) && (r.session.admin.Some? <==> r.navigate == Some("/admin/home"))
  {
  }
}

=== FILE: navbar.dfy ===
/** The navigation bar of `Navbar.jsx`: the cart badge, the logo and logout
    handlers, and the category menu whose entry for the current
    `/explore/<slug>` path is highlighted. */
module Navbar {
  import opened Wrappers
  import opened Catalog
  import Seqs
  import Text
  import Cart
  import Auth
  import Routes

  /** One line's share of the badge: `item.quantity || 1`. */
  function BadgeShare(b: Book): int {
    Cart.QtyOr1(b.quantity)
  }

  /** The badge: `(quantity || 1)` summed over the cart, so an empty cart
      shows 0, a single line its quantity (1 when absent or zero), and a cart
      split in two the sum of both parts (`CartCountAppend`). */
  function CartCount(items: seq<Book>): (n: int)
    ensures |items| == 0 ==> n == 0
    ensures |items| == 1 ==> n == Cart.QtyOr1(items[0].quantity)
  {
    assert |items| == 1 ==> items == [items[0]];
    if |items| == 1 then Seqs.SumOfSingle(items[0], BadgeShare); Seqs.SumOf(items, BadgeShare)
    else Seqs.SumOf(items, BadgeShare)
  }

  lemma CartCountAppend(a: seq<Book>, b: seq<Book>)
    ensures CartCount(a + b) == CartCount(a) + CartCount(b)
  {
    Seqs.SumOfAppend(a, b, BadgeShare);
  }

  /** In a well-formed cart an add with an `_id` raises the badge by exactly
      one, whether it bumps a line or appends one; an add without one leaves it. */
  lemma AddRaisesCartCount(items: seq<Book>, book: Option<Book>)
    requires Cart.WellFormed(items)
    ensures book.Some? && Text.Present(book.value.id) ==>
      CartCount(Cart.AddToCart(items, book).items) == CartCount(items) + 1
    ensures !(book.Some? && Text.Present(book.value.id)) ==>
      CartCount(Cart.AddToCart(items, book).items) == CartCount(items)
  {
    var f := BadgeShare;
    if book.Some? && Text.Present(book.value.id) {
      var r := Cart.AddToCart(items, book).items;
      if Cart.HasId(items, book.value.id) {
        var k :| 0 <= k < |items| && items[k].id == book.value.id;
        Seqs.SumOfBump(items, r, f, k, 1);
      } else {
        Seqs.SumOfAppend(items, [book.value.(quantity := Some(1))], f);
      }
    }
  }

  /** Where the logo leads for a given role. */
  function LogoTarget(userRole: Option<string>): (to: string)
    ensures to == "/admin/home" <==> userRole == Some("admin")
    ensures to != "/admin/home" ==> to == "/home"
  {
    if userRole == Some("admin") then "/admin/home" else "/home"
  }

  /** `handleLogoClick`: the role it reads is not among the values the session
      context provides, so it is always absent and the logo leads home, admin or not. */
  function LogoClick(s: Auth.Session): (to: string)
    ensures to == "/home"
  {
    LogoTarget(None)
  }

  /** `handleLogout`: both slots cleared, then the login page. */
  function HandleLogout(s: Auth.Session): (r: (Auth.Session, string))
    ensures !Auth.IsAuthenticated(r.0) && r.1 == "/login"
  {
    (Auth.Logout(s), "/login")
  }

  /** After logout, with the store mirrored, the login page the handler
      navigates to is shown rather than redirected. */
  lemma LogoutShowsLogin(s: Auth.Session, store: Auth.Store)
    ensures var (s', to) := HandleLogout(s);
      Routes.VisitPath(to, s', Auth.Mirror(s', store)) == Routes.Shown(Routes.LoginPage)
  {
    var s' := HandleLogout(s).0;
    Routes.LoginRoute(s', Auth.Mirror(s', store));
  }

  const ExplorePrefix := "/explore/"

  /** The path a category entry navigates to. */
  function CategoryPath(name: string): string {
    ExplorePrefix + Slug(name)
  }

  /** `currentCategory`: the piece after the first `/explore/`, up to the
      next one or the end, with hyphens read as spaces. */
  function CurrentCategory(path: string): (r: string)
    ensures !Text.Contains(path, ExplorePrefix) ==> r == ""
    ensures Text.Contains(path, ExplorePrefix) ==> '-' !in r
    ensures Text.Contains(path, ExplorePrefix) ==>
      var rest := path[Text.IndexOf(path, ExplorePrefix).value + |ExplorePrefix|..];
      && |r| <= |rest|
      && (forall i :: 0 <= i < |r| ==> r[i] == if rest[i] == '-' then ' ' else rest[i])
      && (|r| == |rest| || Text.OccursAt(rest, ExplorePrefix, |r|))
      && (forall j :: 0 <= j < |r| ==> !Text.OccursAt(rest, ExplorePrefix, j))
  {
    if Text.Contains(path, ExplorePrefix) then
      Text.ReplaceUpTo(path[Text.IndexOf(path, ExplorePrefix).value + |ExplorePrefix|..], ExplorePrefix, '-', ' ')
    else ""
  }

  /** Whether the menu highlights a category on the current path. */
  predicate Highlighted(path: string, cat: string) {
    Text.EqualsIgnoreCase(CurrentCategory(path), cat)
  }

  /** Any path holding `/explore/`: split it at the first occurrence into
      `pre`, the prefix, the `piece` up to the next occurrence, and the `more`
      that starts there (or nothing); the category is the piece with hyphens
      read as spaces. */
  lemma CurrentCategoryOfAnyPath(pre: string, piece: string, more: string)
    requires forall j :: 0 <= j < |pre| ==> !Text.OccursAt(pre + ExplorePrefix, ExplorePrefix, j)
    requires forall j :: 0 <= j < |piece| ==> !Text.OccursAt(piece + more, ExplorePrefix, j)
    requires more == [] || Text.OccursAt(more, ExplorePrefix, 0)
    ensures CurrentCategory(pre + ExplorePrefix + piece + more) == Text.ReplaceChar(piece, '-', ' ')
  {
    Text.SecondPieceOf(pre, ExplorePrefix, piece, more);
    assert Text.Contains(pre + ExplorePrefix + piece + more, ExplorePrefix);
  }

  /** A path `/explore/<slug>` whose slug has no slash reads back as the slug
      with hyphens turned into spaces. */
  lemma CurrentCategoryOfPath(slug: string)
    requires '/' !in slug
    ensures CurrentCategory(ExplorePrefix + slug) == Text.ReplaceChar(slug, '-', ' ')
  {
    var path := ExplorePrefix + slug;
    assert path[..|ExplorePrefix|] == ExplorePrefix;
    assert Text.OccursAt(path, ExplorePrefix, 0);
    assert Text.IndexOf(path, ExplorePrefix) == Some(0);
    assert path[|ExplorePrefix|..] == slug;
    forall i ensures !Text.OccursAt(slug, ExplorePrefix, i) {
      if 0 <= i && i + |ExplorePrefix| <= |slug| {
        assert slug[i..i + |ExplorePrefix|][0] == slug[i];
      }
    }
  }

  /** Choosing a category without hyphens or slashes in its name leads to a
      path on which the menu highlights that category. */
  lemma ChosenCategoryHighlighted(name: string)
    requires '-' !in name && '/' !in name
    ensures Highlighted(CategoryPath(name), name)
  {
    var lower := Text.Lower(name);
    assert '-' !in lower && '/' !in lower by {
      forall i | 0 <= i < |lower| ensures lower[i] != '-' && lower[i] != '/' {
        assert name[i] != '-' && name[i] != '/';
      }
    }
    assert '/' !in Slug(name);
    CurrentCategoryOfPath(Slug(name));
    Text.ReplaceCharRoundTrip(lower, ' ', '-');
    Text.LowerIdempotent(name);
  }

  /** Every category of the menu is highlighted on the page its entry opens. */
  lemma MenuHighlightsChoice()
    ensures forall k :: 0 <= k < |Categories| ==> Highlighted(CategoryPath(Categories[k]), Categories[k])
  {
    CategoriesTitleShaped();
    forall k | 0 <= k < |Categories|
      ensures Highlighted(CategoryPath(Categories[k]), Categories[k])
    {
      var name := Categories[k];
      WordCasedFromAll(name, 0);
      assert '-' !in name && '/' !in name by {
        forall i | 0 <= i < |name| ensures name[i] != '-' && name[i] != '/' {
          assert WordCased(name, i);
        }
      }
      ChosenCategoryHighlighted(name);
    }
  }
}

=== FILE: orders.dfy ===
/** The admin orders page of `OrdersManager.jsx`: the normalised order list,
    the status filter and search, the summary cards, and the status change and
    delete handlers. Server replies and the confirmation dialog are parameters. */
module OrdersManager {
  import opened Wrappers
  import Seqs
  import Text
  import Cart

  /** An order's `_id`: the server sends text, the fallback data of the admin
      context numbers. */
  datatype OrderId = TextId(text: string) | NumberId(number: int)

  /** The fields the page reads: `_id`, `userId.name`, `status` and `total`. */
  datatype Order = Order(id: Option<OrderId>, customer: Option<string>, status: Option<string>, total: Option<int>)

  /** The `orders` field of an object held in the context: an array or anything else. */
  datatype Field = ArrayValue(items: seq<Order>) | OtherValue

  /** What the context's `orders` holds: an array, an object, or anything else. */
  datatype Payload = ArrayPayload(items: seq<Order>) | ObjectPayload(orders: Field) | OtherPayload

  /** `safeOrders`. */
  function SafeOrders(p: Payload): (r: seq<Order>)
    ensures p.ArrayPayload? ==> r == p.items
    ensures p.ObjectPayload? && p.orders.ArrayValue? ==> r == p.orders.items
    ensures p.OtherPayload? || p == ObjectPayload(OtherValue) ==> r == []
  {
    match p
    case ArrayPayload(items) => items
    case ObjectPayload(ArrayValue(items)) => items
    case _ => []
  }

  /** Normalising twice is normalising once: storing the normalised list back
      in the context shows the same orders. */
  lemma SafeOrdersStable(p: Payload)
    ensures SafeOrders(ArrayPayload(SafeOrders(p))) == SafeOrders(p)
    ensures SafeOrders(ObjectPayload(ArrayValue(SafeOrders(p)))) == SafeOrders(p)
  {
  }

  function StatusIs(status: string): Order -> bool {
    (o: Order) => o.status == Some(status)
  }

  /** The status filter: "All" keeps every order, any other value only the
      orders whose status is exactly that value. */
  predicate StatusKept(statusFilter: string, o: Order) {
    statusFilter == "All" || o.status == Some(statusFilter)
  }

  /** How one order's search test ends: it matches, it does not, or it throws. */
  datatype Verdict = Hit | Miss | Throws

  predicate CustomerHit(o: Order, term: string) {
    o.customer.Some? && Text.Contains(Text.Lower(o.customer.value), Text.Lower(term))
  }

  /** The search test: the customer name first; only when that fails is the
      `_id` lower-cased, which throws for a numeric id. */
  function SearchVerdict(o: Order, term: string): (v: Verdict)
    ensures v == Hit <==>
      CustomerHit(o, term) || (o.id.Some? && o.id.value.TextId? && Text.Contains(Text.Lower(o.id.value.text), Text.Lower(term)))
    ensures v == Throws <==> !CustomerHit(o, term) && o.id.Some? && o.id.value.NumberId?
  {
    if CustomerHit(o, term) then Hit
    else match o.id
      case None => Miss
      case Some(TextId(t)) => if Text.Contains(Text.Lower(t), Text.Lower(term)) then Hit else Miss
      case Some(NumberId(_)) => Throws
  }

  function HitOf(term: string): Order -> bool {
    (o: Order) => SearchVerdict(o, term) == Hit
  }

  /** An order the table lists. */
  predicate Shown(statusFilter: string, term: string, o: Order) {
    StatusKept(statusFilter, o) && (Text.Blank(term) || SearchVerdict(o, term) == Hit)
  }

  /** `filteredOrders`, or `None` when the search throws while rendering. The
      search runs only when the trimmed term is non-empty, and then with the
      untrimmed term. */
  function FilteredOrders(orders: seq<Order>, statusFilter: string, term: string): (r: Option<seq<Order>>)
    ensures r.None? <==>
      !Text.Blank(term) && exists o :: o in orders && StatusKept(statusFilter, o) && SearchVerdict(o, term) == Throws
    ensures r.Some? ==> forall o :: multiset(r.value)[o] == if Shown(statusFilter, term, o) then multiset(orders)[o] else 0
    ensures r.Some? ==> Seqs.IsSubseq(r.value, orders)
  {
    var byStatus := ByStatus(orders, statusFilter);
    if Text.Blank(term) then Some(byStatus)
    else if exists i :: 0 <= i < |byStatus| && SearchVerdict(byStatus[i], term) == Throws then None
    else
      var r := Seqs.Filter(byStatus, HitOf(term));
      Seqs.SubseqTrans(r, byStatus, orders);
      SearchCounts(orders, statusFilter, term);
      Some(r)
  }

  /** With a non-blank term, the search after the status filter keeps each
      shown order as often as the list holds it. */
  lemma SearchCounts(orders: seq<Order>, statusFilter: string, term: string)
    requires !Text.Blank(term)
    ensures var r := Seqs.Filter(ByStatus(orders, statusFilter), HitOf(term));
      forall o :: multiset(r)[o] == if Shown(statusFilter, term, o) then multiset(orders)[o] else 0
  {
    var byStatus := ByStatus(orders, statusFilter);
    var r := Seqs.Filter(byStatus, HitOf(term));
    forall o ensures multiset(r)[o] == if Shown(statusFilter, term, o) then multiset(orders)[o] else 0 {
      assert multiset(r)[o] == if HitOf(term)(o) then multiset(byStatus)[o] else 0;
    }
  }

  /** The status filter alone. */
  function ByStatus(orders: seq<Order>, statusFilter: string): (r: seq<Order>)
    ensures forall o :: o in r <==> o in orders && StatusKept(statusFilter, o)
    ensures forall o :: multiset(r)[o] == if StatusKept(statusFilter, o) then multiset(orders)[o] else 0
    ensures Seqs.IsSubseq(r, orders)
  {
    Seqs.SubseqRefl(orders);
    if statusFilter != "All" then Seqs.Filter(orders, StatusIs(statusFilter)) else orders
  }

  /** The orders the admin context falls back to when the server is unreachable. */
  const FallbackOrders: seq<Order> := [
    Order(Some(NumberId(1)), None, Some("Pending"), Some(299)),
    Order(Some(NumberId(2)), None, Some("Delivered"), Some(499))
  ]

  /** On the fallback orders every non-blank search throws: they carry a
      numeric `_id` and no `userId`. */
  lemma FallbackSearchThrows(statusFilter: string, term: string)
    requires statusFilter == "All" || statusFilter == "Pending" || statusFilter == "Delivered"
    requires !Text.Blank(term)
    ensures FilteredOrders(FallbackOrders, statusFilter, term).None?
  {
    var o := if statusFilter == "Delivered" then FallbackOrders[1] else FallbackOrders[0];
    assert o in FallbackOrders && StatusKept(statusFilter, o) && SearchVerdict(o, term) == Throws;
  }

  /** The summary cards. */
  datatype Stats = Stats(totalOrders: nat, delivered: nat, pending: nat, cancelled: nat, totalSales: int)

  function TotalOf(o: Order): int {
    Cart.OrZero(o.total)
  }

  /** The summary cards: the number of orders, the counts of the three
      statuses, which never exceed it, and the sales, the sum of the totals
      with a missing total read as 0, non-negative when no total is negative. */
  function Summarise(orders: seq<Order>): (r: Stats)
    ensures r.totalOrders == |orders|
    ensures r.totalSales == Seqs.SumOf(orders, TotalOf)
    ensures r.delivered + r.pending + r.cancelled <= r.totalOrders
    ensures (forall i :: 0 <= i < |orders| ==> TotalOf(orders[i]) >= 0) ==> r.totalSales >= 0
  {
    var delivered, pending, cancelled := StatusIs("Delivered"), StatusIs("Pending"), StatusIs("Cancelled");
    Seqs.CountDisjoint3(orders, delivered, pending, cancelled);
    assert (forall i :: 0 <= i < |orders| ==> TotalOf(orders[i]) >= 0) ==> Seqs.SumOf(orders, TotalOf) >= 0 by {
      if forall i :: 0 <= i < |orders| ==> TotalOf(orders[i]) >= 0 {
        Seqs.SumOfNonNegative(orders, TotalOf);
      }
    }
    Stats(|orders|, Seqs.Count(orders, delivered), Seqs.Count(orders, pending),
          Seqs.Count(orders, cancelled), Seqs.SumOf(orders, TotalOf))
  }

  /** Each status card counts the rows the table lists under that status filter
      with an empty search. */
  lemma CardsMatchFilter(orders: seq<Order>)
    ensures Summarise(orders).delivered == |FilteredOrders(orders, "Delivered", "").value|
    ensures Summarise(orders).pending == |FilteredOrders(orders, "Pending", "").value|
    ensures Summarise(orders).cancelled == |FilteredOrders(orders, "Cancelled", "").value|
  {
    assert Text.Blank("");
  }

  /** The server's answer to a status change. */
  datatype UpdateReply = Updated(order: Order) | NotUpdated | UpdateError

  datatype StatusChange = StatusChange(orders: seq<Order>, toast: string)

  /** `handleStatusChange`: on success every order with the id is replaced by
      the one the server sent; otherwise the list stays and an error is shown. */
  function ChangeStatus(orders: seq<Order>, orderId: Option<OrderId>, reply: UpdateReply): (r: StatusChange)
    ensures |r.orders| == |orders|
    ensures reply.Updated? ==> forall i :: 0 <= i < |orders| && orders[i].id == orderId ==> r.orders[i] == reply.order
    ensures forall i :: 0 <= i < |orders| && (orders[i].id != orderId || !reply.Updated?) ==> r.orders[i] == orders[i]
    ensures r.toast == "Order status updated!" <==> reply.Updated?
    ensures reply.NotUpdated? ==> r.toast == "Failed to update order"
    ensures reply.UpdateError? ==> r.toast == "Failed to update status"
  {
    match reply
    case Updated(order) =>
      StatusChange(seq(|orders|, i requires 0 <= i < |orders| => if orders[i].id == orderId then order else orders[i]),
                   "Order status updated!")
    case NotUpdated => StatusChange(orders, "Failed to update order")
    case UpdateError => StatusChange(orders, "Failed to update status")
  }

  /** A failed change leaves the list exactly as it was. */
  lemma FailedChangeKeepsOrders(orders: seq<Order>, orderId: Option<OrderId>, reply: UpdateReply)
    requires !reply.Updated?
    ensures ChangeStatus(orders, orderId, reply).orders == orders
  {
  }

  /** When the server echoes the id, repeating the change changes nothing more,
      and the order sent back is listed whenever the id was. */
  lemma {:induction false} ChangeStatusIdempotent(orders: seq<Order>, o: Order)
    requires o.id.Some?
    ensures var once := ChangeStatus(orders, o.id, Updated(o)).orders;
      ChangeStatus(once, o.id, Updated(o)).orders == once
    ensures (exists i :: 0 <= i < |orders| && orders[i].id == o.id) ==> o in ChangeStatus(orders, o.id, Updated(o)).orders
  {
    var once := ChangeStatus(orders, o.id, Updated(o)).orders;
    var twice := ChangeStatus(once, o.id, Updated(o)).orders;
    assert forall i :: 0 <= i < |once| ==> twice[i] == once[i];
    if exists i :: 0 <= i < |orders| && orders[i].id == o.id {
      var i :| 0 <= i < |orders| && orders[i].id == o.id;
      assert once[i] == o;
    }
  }

  function IdIsNot(orderId: Option<OrderId>): Order -> bool {
    (o: Order) => o.id != orderId
  }

  function IdIs(orderId: Option<OrderId>): Order -> bool {
    (o: Order) => o.id == orderId
  }

  /** `handleDelete`: nothing happens unless the dialog is confirmed and the
      request succeeds; then every order with the id leaves the list. */
  function DeleteOrder(orders: seq<Order>, orderId: Option<OrderId>, confirmed: bool, deleted: bool): (r: seq<Order>)
    ensures !(confirmed && deleted) ==> r == orders
    ensures confirmed && deleted ==> forall o :: o in r <==> o in orders && o.id != orderId
    ensures confirmed && deleted ==> |r| + Seqs.Count(orders, IdIs(orderId)) == |orders|
    ensures Seqs.IsSubseq(r, orders)
  {
    if confirmed && deleted then
      Seqs.CountComplement(orders, IdIsNot(orderId), IdIs(orderId));
      Seqs.Filter(orders, IdIsNot(orderId))
    else
      Seqs.SubseqRefl(orders);
      orders
  }

  /** A confirmed, successful delete lowers the sales card by exactly the
      totals of the deleted orders, and the order count by their number. */
  lemma DeleteLowersSales(orders: seq<Order>, orderId: Option<OrderId>)
    ensures var gone := Summarise(DeleteOrder(orders, orderId, true, true));
      && gone.totalSales + Seqs.SumOf(Seqs.Filter(orders, IdIs(orderId)), TotalOf) == Summarise(orders).totalSales
      && gone.totalOrders + Seqs.Count(orders, IdIs(orderId)) == Summarise(orders).totalOrders
  {
    Seqs.SumOfSplit(orders, IdIsNot(orderId), IdIs(orderId), TotalOf);
  }

  /** Deleting the same id twice is deleting it once, and a later status
      change for a deleted id finds nothing to replace. */
  lemma DeleteThenChange(orders: seq<Order>, orderId: Option<OrderId>, o: Order)
    ensures var gone := DeleteOrder(orders, orderId, true, true);
      DeleteOrder(gone, orderId, true, true) == gone &&
      ChangeStatus(gone, orderId, Updated(o)).orders == gone
  {
    var gone := DeleteOrder(orders, orderId, true, true);
    Seqs.FilterAll(gone, IdIsNot(orderId));
    var changed := ChangeStatus(gone, orderId, Updated(o)).orders;
    assert forall i :: 0 <= i < |gone| ==> changed[i] == gone[i];
  }
}

=== FILE: routes.dfy ===
/** The route table of `App.jsx` and its three guards. A guard reads the
    session slots and the persisted store; a visit either shows a page or
    redirects. Matching is by path segment, case-sensitive. */
module Routes {
  import opened Wrappers
  import Seqs
  import Text
  import opened Auth

  datatype Page =
    | LoginPage | HomePage | AboutPage | ContactPage | BlogPage | BlogPostPage(id: string)
    | BooksPage | BookPage(id: string) | ExplorePage(category: Option<string>)
    | CartPage | CheckoutPage | AuthorPage(name: string)
    | AdminHome | AdminBooks | AdminUsers | AdminOrders | AdminSettings

  datatype Guard = LoginGuard | UserGuard | AdminGuard

  datatype Target = Show(page: Page) | Go(to: string)

  /** A matched route: the guard wrapping its element, if any, and the element. */
  datatype Route = Route(guard: Option<Guard>, target: Target)

  datatype Visit = Shown(page: Page) | Redirected(to: string)

  /** `ProtectedRoute` and `LoginRoute` both ask whether a user is signed in,
      from the session or from the stored `userAuth`. */
  predicate LoggedIn(s: Session, store: Store) {
    s.user.Some? || UserKey in store
  }

  /** `AdminRoute`'s test: an admin slot, a stored `adminAuth`, or a user whose role is admin. */
  predicate AdminAtGate(s: Session, store: Store) {
    s.admin.Some? || AdminKey in store || (s.user.Some? && s.user.value.role == Some("admin"))
  }

  /** A guard's verdict: `None` lets the element render, `Some(to)` navigates away. */
  function Gate(g: Guard, s: Session, store: Store): (r: Option<string>)
    ensures g == UserGuard ==> (r.None? <==> LoggedIn(s, store)) && (r.Some? ==> r.value == "/login")
    ensures g == LoginGuard ==> (r.None? <==> !LoggedIn(s, store)) && (r.Some? ==> r.value == "/home")
    ensures g == AdminGuard ==> (r.None? <==> AdminAtGate(s, store)) && (r.Some? ==> r.value == "/login")
  {
    match g
    case UserGuard => if LoggedIn(s, store) then None else Some("/login")
    case LoginGuard => if LoggedIn(s, store) then Some("/home") else None
    case AdminGuard => if AdminAtGate(s, store) then None else Some("/login")
  }

  /** The login page and the protected pages are open to complementary visitors. */
  lemma LoginComplementsProtected(s: Session, store: Store)
    ensures Gate(LoginGuard, s, store).None? <==> Gate(UserGuard, s, store).Some?
  {
  }

  /** A signed-in user whose role is admin passes both the user and the admin guard. */
  lemma AdminRoleUserPassesBoth(s: Session, store: Store)
    requires s.user.Some? && s.user.value.role == Some("admin")
    ensures Gate(UserGuard, s, store).None? && Gate(AdminGuard, s, store).None?
  {
  }

  /** What a route table entry promises: each guard wraps the pages it is
      meant for, and unguarded entries only redirect to the login page. */
  predicate Consistent(r: Route) {
    && (r.guard.None? ==> r.target == Go("/login"))
    && (r.target.Go? ==> r.target.to == "/login" || r.target.to == "/admin/home")
    && (r.target == Show(LoginPage) ==> r.guard == Some(LoginGuard))
    && (r.target.Show? && IsUserPage(r.target.page) ==> r.guard == Some(UserGuard))
    && (r.target.Show? && IsAdminPage(r.target.page) ==> r.guard == Some(AdminGuard))
  }

  const Fallback := Route(None, Go("/login"))

  /** Routes of one segment. */
  function MatchOne(a: string): (r: Route)
    ensures Consistent(r)
  {
    if a == "login" then Route(Some(LoginGuard), Show(LoginPage))
    else if a == "home" then Route(Some(UserGuard), Show(HomePage))
    else if a == "about" then Route(Some(UserGuard), Show(AboutPage))
    else if a == "contact" then Route(Some(UserGuard), Show(ContactPage))
    else if a == "blog" then Route(Some(UserGuard), Show(BlogPage))
    else if a == "books" then Route(Some(UserGuard), Show(BooksPage))
    else if a == "explore" then Route(Some(UserGuard), Show(ExplorePage(None)))
    else if a == "cart" then Route(Some(UserGuard), Show(CartPage))
    else if a == "checkout" then Route(Some(UserGuard), Show(CheckoutPage))
    else if a == "admin" then Route(Some(AdminGuard), Go("/admin/home"))
    else Fallback
  }

  /** Routes of two segments: the parameterised pages and the admin children. */
  function MatchTwo(a: string, b: string): (r: Route)
    ensures Consistent(r)
  {
    if a == "blog" then Route(Some(UserGuard), Show(BlogPostPage(b)))
    else if a == "book" then Route(Some(UserGuard), Show(BookPage(b)))
    else if a == "explore" then Route(Some(UserGuard), Show(ExplorePage(Some(b))))
    else if a == "author" then Route(Some(UserGuard), Show(AuthorPage(b)))
    else if a != "admin" then Fallback
    else if b == "home" then Route(Some(AdminGuard), Show(AdminHome))
    else if b == "books" then Route(Some(AdminGuard), Show(AdminBooks))
    else if b == "users" then Route(Some(AdminGuard), Show(AdminUsers))
    else if b == "orders" then Route(Some(AdminGuard), Show(AdminOrders))
    else if b == "settings" then Route(Some(AdminGuard), Show(AdminSettings))
    else Fallback
  }

  /** The route of the table that matches the segments; `/` and `*` redirect to login. */
  function Match(segs: seq<string>): (r: Route)
    ensures Consistent(r)
  {
    if |segs| == 1 then MatchOne(segs[0])
    else if |segs| == 2 then MatchTwo(segs[0], segs[1])
    else Fallback
  }

  predicate IsUserPage(p: Page) {
    !p.LoginPage? && !IsAdminPage(p)
  }

  predicate IsAdminPage(p: Page) {
    p.AdminHome? || p.AdminBooks? || p.AdminUsers? || p.AdminOrders? || p.AdminSettings?
  }

  /** The non-empty segments of a path. */
  function Segments(path: string): (segs: seq<string>)
    ensures forall k :: 0 <= k < |segs| ==> segs[k] != "" && '/' !in segs[k]
  {
    Seqs.Filter(Text.Split(path, '/'), (seg: string) => seg != "")
  }

  /** The path `/a/b/...` written from its segments. */
  function PathOf(segs: seq<string>): string {
    "/" + (if segs == [] then "" else Text.Join(segs, '/'))
  }

  /** Writing segments out as a path and reading them back gives them again. */
  lemma SegmentsOfPath(segs: seq<string>)
    requires forall k :: 0 <= k < |segs| ==> segs[k] != "" && '/' !in segs[k]
    ensures Segments(PathOf(segs)) == segs
  {
    if segs == [] {
      SegmentsOfRoot();
    } else {
      SegmentsOfNonRoot(segs);
    }
  }

  lemma SegmentsOfRoot()
    ensures Segments("/") == []
  {
    assert "/" == "" + ['/'] + "";
    Text.SplitCons("", "", '/');
    Text.SplitNoSep("", '/');
    assert Text.Split("/", '/') == ["", ""];
  }

  lemma SegmentsOfNonRoot(segs: seq<string>)
    requires segs != []
    requires forall k :: 0 <= k < |segs| ==> segs[k] != "" && '/' !in segs[k]
    ensures Segments(PathOf(segs)) == segs
  {
    var nonEmpty := (seg: string) => seg != "";
    var joined := Text.Join(segs, '/');
    assert PathOf(segs) == "" + ['/'] + joined;
    assert Text.Split(PathOf(segs), '/') == [""] + segs by {
      Text.SplitCons("", joined, '/');
      Text.SplitJoin(segs, '/');
    }
    Seqs.FilterAppend([""], segs, nonEmpty);
    Seqs.FilterAll(segs, nonEmpty);
  }

  /** A matched route taken: its guard runs first, then its element. */
  function VisitRoute(route: Route, s: Session, store: Store): (v: Visit)
    requires Consistent(route)
    ensures v.Redirected? ==> v.to == "/login" || v.to == "/home" || v.to == "/admin/home"
    ensures v == Shown(LoginPage) ==> !LoggedIn(s, store)
    ensures v.Shown? && IsUserPage(v.page) ==> LoggedIn(s, store)
    ensures v.Shown? && IsAdminPage(v.page) ==> AdminAtGate(s, store)
  {
    var verdict := if route.guard.Some? then Gate(route.guard.value, s, store) else None;
    if verdict.Some? then Redirected(verdict.value)
    else match route.target
      case Show(p) => Shown(p)
      case Go(to) => Redirected(to)
  }

  /** Navigating to a path. Every page shown is one its guard admits. */
  function VisitPath(path: string, s: Session, store: Store): (v: Visit)
    ensures v.Redirected? ==> v.to == "/login" || v.to == "/home" || v.to == "/admin/home"
    ensures v == Shown(LoginPage) ==> !LoggedIn(s, store)
    ensures v.Shown? && IsUserPage(v.page) ==> LoggedIn(s, store)
    ensures v.Shown? && IsAdminPage(v.page) ==> AdminAtGate(s, store)
  {
    VisitRoute(Match(Segments(path)), s, store)
  }

  lemma VisitPathOf(segs: seq<string>, s: Session, store: Store)
    requires forall k :: 0 <= k < |segs| ==> segs[k] != "" && '/' !in segs[k]
    ensures VisitPath(PathOf(segs), s, store) == VisitRoute(Match(segs), s, store)
  {
    SegmentsOfPath(segs);
  }

  /** The bare root and every unmatched path send the visitor to the login page. */
  lemma UnmatchedGoesToLogin(segs: seq<string>, s: Session, store: Store)
    requires forall k :: 0 <= k < |segs| ==> segs[k] != "" && '/' !in segs[k]
    requires Match(segs).guard.None?
    ensures VisitPath(PathOf(segs), s, store) == Redirected("/login")
  {
    VisitPathOf(segs, s, store);
  }

  /** `/blogs`, where the blog post page sends a missing post, matches no route. */
  lemma BlogsGoesToLogin(s: Session, store: Store)
    ensures VisitPath("/blogs", s, store) == Redirected("/login")
  {
    assert PathOf(["blogs"]) == "/blogs";
    UnmatchedGoesToLogin(["blogs"], s, store);
  }

  /** After the local admin login, with the store mirrored, the admin index
      forwards to the dashboard home, which is shown. */
  lemma AdminLands(s: Session, d: Identity, store: Store)
    ensures var s' := AdminLogin(s, d);
      var store' := Mirror(s', store);
      && VisitPath("/admin", s', store') == Redirected("/admin/home")
      && VisitPath(PathOf(["admin", "home"]), s', store') == Shown(AdminHome)
  {
    var s' := AdminLogin(s, d);
    var store' := Mirror(s', store);
    assert AdminAtGate(s', store');
    assert VisitPath("/admin", s', store') == Redirected("/admin/home") by {
      AdminIndexRoute(s', store');
    }
    assert VisitPath(PathOf(["admin", "home"]), s', store') == Shown(AdminHome) by {
      AdminHomeRoute(s', store');
    }
  }

  /** The admin is not a user: after the local admin login the home page
      sends the admin to the login page, which is shown to them. */
  lemma AdminIsNotUser(s: Session, d: Identity, store: Store)
    ensures var s' := AdminLogin(s, d);
      var store' := Mirror(s', store);
      && VisitPath("/home", s', store') == Redirected("/login")
      && VisitPath("/login", s', store') == Shown(LoginPage)
  {
    var s' := AdminLogin(s, d);
    var store' := Mirror(s', store);
    assert !LoggedIn(s', store');
    assert VisitPath("/home", s', store') == Redirected("/login") by {
      HomeRoute(s', store');
    }
    assert VisitPath("/login", s', store') == Shown(LoginPage) by {
      LoginRoute(s', store');
    }
  }

  /** `/home` is shown to a signed-in visitor and sends anyone else to login. */
  lemma HomeRoute(s: Session, store: Store)
    ensures VisitPath("/home", s, store) == if LoggedIn(s, store) then Shown(HomePage) else Redirected("/login")
  {
    HomeMatch();
    PathRoute("/home", Route(Some(UserGuard), Show(HomePage)), s, store);
  }

  lemma HomeMatch()
    ensures Match(Segments("/home")) == Route(Some(UserGuard), Show(HomePage))
  {
    OneSegment("home");
    assert "home"[0] != "login"[0];
  }

  /** `/login` is shown to a visitor nobody signed in as, and sends a user home. */
  lemma LoginRoute(s: Session, store: Store)
    ensures VisitPath("/login", s, store) == if LoggedIn(s, store) then Redirected("/home") else Shown(LoginPage)
  {
    LoginMatch();
    PathRoute("/login", Route(Some(LoginGuard), Show(LoginPage)), s, store);
  }

  lemma LoginMatch()
    ensures Match(Segments("/login")) == Route(Some(LoginGuard), Show(LoginPage))
  {
    OneSegment("login");
  }

  /** `/admin` forwards an admin to the dashboard home and anyone else to login. */
  lemma AdminIndexRoute(s: Session, store: Store)
    ensures VisitPath("/admin", s, store) == Redirected(if AdminAtGate(s, store) then "/admin/home" else "/login")
  {
    AdminIndexMatch();
    PathRoute("/admin", Route(Some(AdminGuard), Go("/admin/home")), s, store);
  }

  lemma AdminIndexMatch()
    ensures Match(Segments("/admin")) == Route(Some(AdminGuard), Go("/admin/home"))
  {
    OneSegment("admin");
    AdminSegment();
  }

  /** `/admin/home` shows the dashboard to an admin and sends anyone else to login. */
  lemma AdminHomeRoute(s: Session, store: Store)
    ensures VisitPath(PathOf(["admin", "home"]), s, store) ==
      if AdminAtGate(s, store) then Shown(AdminHome) else Redirected("/login")
  {
    AdminHomeMatch();
    PathRoute(PathOf(["admin", "home"]), Route(Some(AdminGuard), Show(AdminHome)), s, store);
  }

  lemma AdminHomeMatch()
    ensures Match(Segments(PathOf(["admin", "home"]))) == Route(Some(AdminGuard), Show(AdminHome))
  {
    var a := "admin";
    assert a != "" && '/' !in a && "home" != "" && '/' !in "home";
    TwoSegments(a, "home");
    assert MatchTwo(a, "home") == Route(Some(AdminGuard), Show(AdminHome)) by {
      assert |a| == 5 && |"blog"| == 4 && |"book"| == 4 && |"explore"| == 7 && |"author"| == 6;
    }
  }

  /** The path of two segments is matched by those segments. */
  lemma TwoSegments(a: string, b: string)
    requires a != "" && '/' !in a && b != "" && '/' !in b
    ensures Match(Segments(PathOf([a, b]))) == MatchTwo(a, b)
  {
    var segs := [a, b];
    assert Segments(PathOf(segs)) == segs by {
      assert forall k :: 0 <= k < |segs| ==> segs[k] != "" && '/' !in segs[k];
      SegmentsOfPath(segs);
    }
    assert Match(segs) == MatchTwo(a, b) by {
      assert |segs| == 2 && segs[0] == a && segs[1] == b;
    }
  }

  /** "admin" is none of the other one-segment routes. */
  lemma AdminSegment()
    ensures MatchOne("admin") == Route(Some(AdminGuard), Go("/admin/home"))
  {
    var a := "admin";
    assert a[0] != "login"[0] && a[0] != "home"[0] && a[1] != "about"[1] && a[0] != "contact"[0];
    assert a[0] != "blog"[0] && a[0] != "books"[0] && a[0] != "explore"[0];
    assert a[0] != "cart"[0] && a[0] != "checkout"[0];
  }

  /** A path reaches the route its segments match. */
  lemma PathRoute(path: string, route: Route, s: Session, store: Store)
    requires Match(Segments(path)) == route
    ensures VisitPath(path, s, store) == VisitRoute(route, s, store)
  {
  }

  /** The path of one segment is matched by that segment alone. */
  lemma OneSegment(a: string)
    requires a != "" && '/' !in a
    ensures Match(Segments("/" + a)) == MatchOne(a)
  {
    assert PathOf([a]) == "/" + a;
    SegmentsOfPath([a]);
  }

  /** A successful login that returns a user, with the store mirrored, shows the
      home page and sends the login page on to it. */
  lemma UserLands(s: Session, reply: Reply, store: Store)
    requires reply.Accepted? && reply.user.Some?
    ensures var s' := Login(s, reply).session;
      var store' := Mirror(s', store);
      && VisitPath("/home", s', store') == Shown(HomePage)
      && VisitPath("/login", s', store') == Redirected("/home")
  {
    var s' := Login(s, reply).session;
    var store' := Mirror(s', store);
    assert LoggedIn(s', store');
    assert VisitPath("/home", s', store') == Shown(HomePage) by {
      HomeRoute(s', store');
    }
    assert VisitPath("/login", s', store') == Redirected("/home") by {
      LoginRoute(s', store');
    }
  }

  /** A login the server accepts without returning a user leaves no user behind,
      so the home page the form navigates to sends the visitor back to login. */
  lemma AcceptedWithoutUserBounces(s: Session, store: Store)
    ensures var s' := Login(s, Accepted(None)).session;
      VisitPath("/home", s', Mirror(s', store)) == Redirected("/login")
  {
    var s' := Login(s, Accepted(None)).session;
    HomeRoute(s', Mirror(s', store));
  }
}

=== FILE: seqs.dfy ===
/** Sequence operations shared by the pages: the JavaScript array methods the
    storefront uses (`filter`, `reduce` into a sum, `slice(0, n)`, `sort`, and
    `[...new Set(xs)]`), each with a specification that does not depend on how
    it is computed. */
module Seqs {

  /** `a` is obtained from `b` by deleting elements, keeping the order of the rest. */
  ghost predicate IsSubseq<T(!new)>(a: seq<T>, b: seq<T>)
    decreases |b|
  {
    |a| == 0 ||
    (|b| > 0 && ((a[0] == b[0] && IsSubseq(a[1..], b[1..])) || IsSubseq(a, b[1..])))
  }

  lemma {:induction false} SubseqRefl<T(!new)>(s: seq<T>)
    ensures IsSubseq(s, s)
    decreases |s|
  {
    if |s| > 0 {
      SubseqRefl(s[1..]);
    }
  }

  lemma {:induction false} SubseqTrans<T(!new)>(a: seq<T>, b: seq<T>, c: seq<T>)
    requires IsSubseq(a, b) && IsSubseq(b, c)
    ensures IsSubseq(a, c)
    decreases |c|
  {
    if |a| > 0 {
      if b[0] == c[0] && IsSubseq(b[1..], c[1..]) {
        if a[0] == b[0] && IsSubseq(a[1..], b[1..]) {
          SubseqTrans(a[1..], b[1..], c[1..]);
        } else {
          SubseqTrans(a, b[1..], c[1..]);
        }
      } else {
        SubseqTrans(a, b, c[1..]);
      }
    }
  }

  /** `Array.prototype.filter`: keeps exactly the elements satisfying `p`, in order. */
  function Filter<T(!new)>(s: seq<T>, p: T -> bool): (r: seq<T>)
    ensures |r| <= |s|
    ensures forall i :: 0 <= i < |r| ==> p(r[i])
    ensures forall x :: x in r <==> x in s && p(x)
    ensures forall x :: multiset(r)[x] == if p(x) then multiset(s)[x] else 0
    ensures IsSubseq(r, s)
  {
    if |s| == 0 then []
    else
      assert s == [s[0]] + s[1..];
      if p(s[0]) then [s[0]] + Filter(s[1..], p) else Filter(s[1..], p)
  }

  /** `if (on) xs = xs.filter(p)`: a filter that applies only when switched on. */
  function FilterWhen<T(!new)>(s: seq<T>, on: bool, p: T -> bool): (r: seq<T>)
    ensures |r| <= |s|
    ensures forall x :: multiset(r)[x] == if !on || p(x) then multiset(s)[x] else 0
    ensures IsSubseq(r, s)
  {
    SubseqRefl(s);
    if on then Filter(s, p) else s
  }

  /** Three conditional filters in turn keep what passes all three. */
  lemma FilterWhen3<T(!new)>(s: seq<T>, on1: bool, p1: T -> bool, on2: bool, p2: T -> bool, on3: bool, p3: T -> bool)
    ensures var r := FilterWhen(FilterWhen(FilterWhen(s, on1, p1), on2, p2), on3, p3);
      forall x :: multiset(r)[x] == if (!on1 || p1(x)) && (!on2 || p2(x)) && (!on3 || p3(x)) then multiset(s)[x] else 0
  {
    var s1 := FilterWhen(s, on1, p1);
    var s2 := FilterWhen(s1, on2, p2);
    var s3 := FilterWhen(s2, on3, p3);
    forall x ensures multiset(s3)[x] == if (!on1 || p1(x)) && (!on2 || p2(x)) && (!on3 || p3(x)) then multiset(s)[x] else 0 {
      assert multiset(s1)[x] == if !on1 || p1(x) then multiset(s)[x] else 0;
      assert multiset(s2)[x] == if !on2 || p2(x) then multiset(s1)[x] else 0;
    }
  }

  /** A sequence holding each element as often as `s` does when `keep` admits
      it, and never otherwise, holds exactly the admitted elements of `s`. */
  lemma MembersOfKept<T(!new)>(r: seq<T>, s: seq<T>, keep: T -> bool)
    requires forall x :: multiset(r)[x] == if keep(x) then multiset(s)[x] else 0
    ensures forall x :: x in r <==> x in s && keep(x)
  {
    forall x
      ensures x in r <==> x in s && keep(x)
    {
      assert x in r <==> x in multiset(r);
      assert x in s <==> x in multiset(s);
    }
  }

  lemma {:induction false} FilterAppend<T(!new)>(s: seq<T>, t: seq<T>, p: T -> bool)
    ensures Filter(s + t, p) == Filter(s, p) + Filter(t, p)
  {
    if |s| == 0 {
      assert s + t == t;
    } else {
      assert (s + t)[0] == s[0];
      assert (s + t)[1..] == s[1..] + t;
      FilterAppend(s[1..], t, p);
    }
  }

  /** Filtering with a predicate that holds everywhere changes nothing. */
  lemma {:induction false} FilterAll<T(!new)>(s: seq<T>, p: T -> bool)
    requires forall i :: 0 <= i < |s| ==> p(s[i])
    ensures Filter(s, p) == s
  {
    if |s| > 0 {
      FilterAll(s[1..], p);
    }
  }

  /** Two filters in a row keep exactly what their conjunction `both` keeps. */
  lemma {:induction false} FilterFilter<T(!new)>(s: seq<T>, p: T -> bool, q: T -> bool, both: T -> bool)
    requires forall x :: both(x) == (p(x) && q(x))
    ensures Filter(Filter(s, p), q) == Filter(s, both)
  {
    if |s| > 0 {
      FilterFilter(s[1..], p, q, both);
    }
  }

  /** Filtering depends only on which elements the predicate keeps. */
  lemma {:induction false} FilterExtensional<T(!new)>(s: seq<T>, p: T -> bool, q: T -> bool)
    requires forall i :: 0 <= i < |s| ==> p(s[i]) == q(s[i])
    ensures Filter(s, p) == Filter(s, q)
  {
    if |s| > 0 {
      FilterExtensional(s[1..], p, q);
    }
  }

  /** `xs.reduce((acc, x) => acc + f(x), 0)`. */
  function SumOf<T(!new)>(s: seq<T>, f: T -> int): int
  {
    if |s| == 0 then 0 else f(s[0]) + SumOf(s[1..], f)
  }

  lemma {:induction false} SumOfAppend<T(!new)>(s: seq<T>, t: seq<T>, f: T -> int)
    ensures SumOf(s + t, f) == SumOf(s, f) + SumOf(t, f)
  {
    if |s| > 0 {
      assert (s + t)[0] == s[0];
      assert (s + t)[1..] == s[1..] + t;
      SumOfAppend(s[1..], t, f);
    } else {
      assert s + t == t;
    }
  }

  /** Two sequences whose `f`-values agree except at one position `k`, where
      `t`'s is larger by `d`, have sums that differ by `d`. */
  lemma {:induction false} SumOfBump<T(!new)>(s: seq<T>, t: seq<T>, f: T -> int, k: int, d: int)
    requires |s| == |t| && 0 <= k < |s|
    requires forall i :: 0 <= i < |s| && i != k ==> f(t[i]) == f(s[i])
    requires f(t[k]) == f(s[k]) + d
    ensures SumOf(t, f) == SumOf(s, f) + d
  {
    if k == 0 {
      SumOfEqual(s[1..], t[1..], f);
    } else {
      SumOfBump(s[1..], t[1..], f, k - 1, d);
    }
  }

  lemma {:induction false} SumOfEqual<T(!new)>(s: seq<T>, t: seq<T>, f: T -> int)
    requires |s| == |t|
    requires forall i :: 0 <= i < |s| ==> f(t[i]) == f(s[i])
    ensures SumOf(t, f) == SumOf(s, f)
  {
    if |s| > 0 {
      SumOfEqual(s[1..], t[1..], f);
    }
  }

  lemma SumOfSingle<T(!new)>(x: T, f: T -> int)
    ensures SumOf([x], f) == f(x)
  {
    assert [x][1..] == [];
  }

  /** Splitting a sequence by a condition and its negation splits its sum. */
  lemma {:induction false} SumOfSplit<T(!new)>(s: seq<T>, p: T -> bool, q: T -> bool, f: T -> int)
    requires forall x :: q(x) == !p(x)
    ensures SumOf(Filter(s, p), f) + SumOf(Filter(s, q), f) == SumOf(s, f)
  {
    if |s| > 0 {
      SumOfSplit(s[1..], p, q, f);
    }
  }

  lemma {:induction false} SumOfNonNegative<T(!new)>(s: seq<T>, f: T -> int)
    requires forall i :: 0 <= i < |s| ==> f(s[i]) >= 0
    ensures SumOf(s, f) >= 0
  {
    if |s| > 0 {
      SumOfNonNegative(s[1..], f);
    }
  }

  /** Pointwise `f(s[i]) <= g(s[i])` carries over to the sums. */
  lemma {:induction false} SumOfMonotone<T(!new)>(s: seq<T>, f: T -> int, g: T -> int)
    requires forall i :: 0 <= i < |s| ==> f(s[i]) <= g(s[i])
    ensures SumOf(s, f) <= SumOf(s, g)
  {
    if |s| > 0 {
      SumOfMonotone(s[1..], f, g);
    }
  }

  /** The number of elements satisfying `p`. */
  function Count<T(!new)>(s: seq<T>, p: T -> bool): (n: nat)
    ensures n == |Filter(s, p)|
  {
    if |s| == 0 then 0 else (if p(s[0]) then 1 else 0) + Count(s[1..], p)
  }

  /** Elements satisfying pairwise exclusive predicates never outnumber the sequence. */
  lemma {:induction false} CountDisjoint3<T(!new)>(s: seq<T>, p: T -> bool, q: T -> bool, u: T -> bool)
    requires forall x :: !(p(x) && q(x)) && !(p(x) && u(x)) && !(q(x) && u(x))
    ensures Count(s, p) + Count(s, q) + Count(s, u) <= |s|
  {
    if |s| > 0 {
      CountDisjoint3(s[1..], p, q, u);
    }
  }

  /** Every element satisfies exactly one of `p` and `q`, so their counts add up to the length. */
  lemma {:induction false} CountComplement<T(!new)>(s: seq<T>, p: T -> bool, q: T -> bool)
    requires forall x :: q(x) == !p(x)
    ensures Count(s, p) + Count(s, q) == |s|
  {
    if |s| > 0 {
      CountComplement(s[1..], p, q);
    }
  }

  /** `xs.slice(0, n)`. */
  function Take<T(!new)>(s: seq<T>, n: nat): (r: seq<T>)
    ensures |r| <= n && |r| <= |s|
    ensures r == s[..|r|]
    ensures |s| <= n ==> r == s
    ensures |s| > n ==> |r| == n
  {
    if |s| <= n then s else s[..n]
  }

  ghost predicate NoDups<T(!new)>(s: seq<T>) {
    forall i, j :: 0 <= i < j < |s| ==> s[i] != s[j]
  }

  /** A value is in a non-empty sequence exactly when it is the head or in the tail. */
  lemma InHeadOrTail<T(!new)>(s: seq<T>, x: T)
    requires |s| > 0
    ensures x in s <==> x == s[0] || x in s[1..]
  {
    assert s == [s[0]] + s[1..];
  }

  /** The tail of a sequence without repeats has none, and lacks the head. */
  lemma NoDupsTail<T(!new)>(s: seq<T>)
    requires |s| > 0 && NoDups(s)
    ensures NoDups(s[1..]) && s[0] !in s[1..]
  {
    forall i, j | 0 <= i < j < |s[1..]|
      ensures s[1..][i] != s[1..][j]
    {
      assert s[1..][i] == s[i + 1] && s[1..][j] == s[j + 1];
    }
    forall j | 0 <= j < |s[1..]|
      ensures s[1..][j] != s[0]
    {
      assert s[1..][j] == s[j + 1];
    }
  }

  /** Position of the first occurrence of `x` in `s`. */
  function FirstIndex<T(==,!new)>(s: seq<T>, x: T): (k: nat)
    requires x in s
    ensures k < |s| && s[k] == x
    ensures forall j :: 0 <= j < k ==> s[j] != x
  {
    if s[0] == x then 0 else 1 + FirstIndex(s[1..], x)
  }

  lemma {:induction false} FirstIndexExtend<T(!new)>(pre: seq<T>, x: T)
    ensures forall y :: y in pre ==> FirstIndex(pre + [x], y) == FirstIndex(pre, y)
  {
    forall y | y in pre
      ensures FirstIndex(pre + [x], y) == FirstIndex(pre, y)
    {
      var k := FirstIndex(pre, y);
      var k' := FirstIndex(pre + [x], y);
      assert (pre + [x])[k] == y;
      assert k' <= k;
    }
  }

  /** `[...new Set(xs)]`: each value once, at its first occurrence. */
  function Distinct<T(==,!new)>(s: seq<T>): (r: seq<T>)
    ensures NoDups(r)
    ensures forall x :: x in r <==> x in s
    ensures |r| <= |s|
  {
    if |s| == 0 then []
    else
      var d := Distinct(s[..|s| - 1]);
      var x := s[|s| - 1];
      assert s == s[..|s| - 1] + [x];
      if x in d then d else d + [x]
  }

  /** The distinct values appear in the order of their first occurrence. */
  lemma {:induction false} DistinctFirstOccurrence<T(!new)>(s: seq<T>)
    ensures forall i, j :: 0 <= i < j < |Distinct(s)| ==>
      FirstIndex(s, Distinct(s)[i]) < FirstIndex(s, Distinct(s)[j])
  {
    if |s| > 0 {
      var pre, x := s[..|s| - 1], s[|s| - 1];
      assert s == pre + [x];
      DistinctFirstOccurrence(pre);
      FirstIndexExtend(pre, x);
      var d := Distinct(pre);
      assert Distinct(s) == if x in d then d else d + [x];
      if x !in d {
        assert x !in pre;
        assert FirstIndex(s, x) == |pre| by {
          assert s[|pre|] == x;
        }
        var e := d + [x];
        forall i, j | 0 <= i < j < |e|
          ensures FirstIndex(s, e[i]) < FirstIndex(s, e[j])
        {
          assert e[i] == d[i] && e[i] in pre;
          if j == |d| {
            assert FirstIndex(s, e[i]) == FirstIndex(pre, d[i]) < |pre|;
          } else {
            assert e[j] == d[j] && e[j] in pre;
          }
        }
      }
    }
  }

  /** Keeping the first occurrence of each value is idempotent. */
  lemma {:induction false} DistinctOfNoDups<T(!new)>(s: seq<T>)
    requires NoDups(s)
    ensures Distinct(s) == s
  {
    if |s| > 0 {
      var pre := s[..|s| - 1];
      DistinctOfNoDups(pre);
      assert s == pre + [s[|s| - 1]];
    }
  }

  /** `le` is a total preorder: the comparators handed to `Array.prototype.sort`. */
  ghost predicate TotalPreorder<T(!new)>(le: (T, T) -> bool) {
    && (forall a, b :: le(a, b) || le(b, a))
    && (forall a, b, c :: le(a, b) && le(b, c) ==> le(a, c))
  }

  ghost predicate Sorted<T(!new)>(s: seq<T>, le: (T, T) -> bool) {
    forall i, j :: 0 <= i < j < |s| ==> le(s[i], s[j])
  }

  function Insert<T(!new)>(x: T, s: seq<T>, le: (T, T) -> bool): (r: seq<T>)
    requires TotalPreorder(le) && Sorted(s, le)
    ensures Sorted(r, le)
    ensures multiset(r) == multiset(s) + multiset{x}
  {
    if |s| == 0 then [x]
    else if le(x, s[0]) then
      assert forall j :: 0 <= j < |s| ==> le(x, s[j]);
      [x] + s
    else
      var t := Insert(x, s[1..], le);
      assert s == [s[0]] + s[1..];
      InsertBehindHead(x, s, t, le);
      [s[0]] + t
  }

  lemma InsertBehindHead<T(!new)>(x: T, s: seq<T>, t: seq<T>, le: (T, T) -> bool)
    requires TotalPreorder(le) && Sorted(s, le) && Sorted(t, le)
    requires |s| > 0 && !le(x, s[0])
    requires multiset(t) == multiset(s[1..]) + multiset{x}
    ensures Sorted([s[0]] + t, le)
  {
    forall j | 0 <= j < |t|
      ensures le(s[0], t[j])
    {
      assert t[j] in multiset(t);
      if t[j] != x {
        assert t[j] in s[1..];
        var k :| 0 <= k < |s[1..]| && s[1..][k] == t[j];
        assert s[k + 1] == t[j];
      }
    }
    var r := [s[0]] + t;
    forall i, j | 0 <= i < j < |r|
      ensures le(r[i], r[j])
    {
      if i > 0 {
        assert r[i] == t[i - 1] && r[j] == t[j - 1];
      } else {
        assert r[j] == t[j - 1];
      }
    }
  }

  /** `Array.prototype.sort` under a consistent comparator: a sorted permutation. */
  function Sort<T(!new)>(s: seq<T>, le: (T, T) -> bool): (r: seq<T>)
    requires TotalPreorder(le)
    ensures Sorted(r, le)
    ensures multiset(r) == multiset(s)
    ensures |r| == |s|
  {
    if |s| == 0 then []
    else
      assert s == [s[0]] + s[1..];
      Insert(s[0], Sort(s[1..], le), le)
  }
}

=== FILE: text.dfy ===
/** The string operations the pages use: `toLowerCase`/`toUpperCase` (as an
    ASCII case fold), `trim`, `includes`, `startsWith`, `split` on one
    character or on a separator string, a character-wise `replace`, and a
    lexicographic order by Unicode scalar value standing in for
    `localeCompare`. */
module Text {
  import opened Wrappers
  import Seqs

  /** JavaScript truthiness of an optional string: present and non-empty. */
  predicate Present(s: Option<string>) {
    s.Some? && s.value != ""
  }

  predicate IsUpperAscii(c: char) { 'A' <= c <= 'Z' }
  predicate IsLowerAscii(c: char) { 'a' <= c <= 'z' }

  function LowerChar(c: char): (d: char)
    ensures IsUpperAscii(c) ==> IsLowerAscii(d) && d as int == c as int + 32
    ensures !IsUpperAscii(c) ==> d == c
  {
    if IsUpperAscii(c) then (c as int + 32) as char else c
  }

  function UpperChar(c: char): (d: char)
    ensures IsLowerAscii(c) ==> IsUpperAscii(d) && d as int == c as int - 32
    ensures !IsLowerAscii(c) ==> d == c
  {
    if IsLowerAscii(c) then (c as int - 32) as char else c
  }

  /** `s.toLowerCase()`, restricted to the ASCII letters. */
  function Lower(s: string): (r: string)
    ensures |r| == |s|
    ensures forall i :: 0 <= i < |s| ==> r[i] == LowerChar(s[i])
  {
    seq(|s|, i requires 0 <= i < |s| => LowerChar(s[i]))
  }

  /** `s.toUpperCase()`, restricted to the ASCII letters. */
  function Upper(s: string): (r: string)
    ensures |r| == |s|
    ensures forall i :: 0 <= i < |s| ==> r[i] == UpperChar(s[i])
  {
    seq(|s|, i requires 0 <= i < |s| => UpperChar(s[i]))
  }

  lemma LowerIdempotent(s: string)
    ensures Lower(Lower(s)) == Lower(s)
  {
  }

  /** Upper-casing discards any earlier folding to lower case. */
  lemma UpperOfLower(s: string)
    ensures Upper(Lower(s)) == Upper(s)
  {
  }

  lemma LowerAppend(a: string, b: string)
    ensures Lower(a + b) == Lower(a) + Lower(b)
  {
  }

  /** Equality after folding case, as in `a.toLowerCase() === b.toLowerCase()`. */
  predicate EqualsIgnoreCase(a: string, b: string) {
    Lower(a) == Lower(b)
  }

  /** The characters `String.prototype.trim` removes: white space and line terminators. */
  predicate IsSpace(c: char) {
    c == ' ' || c == '\t' || c == '\n' || c == '\r' || c == '\U{000B}' || c == '\U{000C}' ||
    c == '\U{00A0}' || c == '\U{1680}' || ('\U{2000}' <= c <= '\U{200A}') ||
    c == '\U{2028}' || c == '\U{2029}' || c == '\U{202F}' || c == '\U{205F}' ||
    c == '\U{3000}' || c == '\U{FEFF}'
  }

  function TrimStart(s: string): (r: string)
    ensures |r| <= |s| && r == s[|s| - |r|..]
    ensures forall i :: 0 <= i < |s| - |r| ==> IsSpace(s[i])
    ensures |r| > 0 ==> !IsSpace(r[0])
  {
    if |s| > 0 && IsSpace(s[0]) then TrimStart(s[1..]) else s
  }

  function TrimEnd(s: string): (r: string)
    ensures |r| <= |s| && r == s[..|r|]
    ensures forall i :: |r| <= i < |s| ==> IsSpace(s[i])
    ensures |r| > 0 ==> !IsSpace(r[|r| - 1])
  {
    if |s| > 0 && IsSpace(s[|s| - 1]) then TrimEnd(s[..|s| - 1]) else s
  }

  /** `s.trim()`. */
  function Trim(s: string): string {
    TrimEnd(TrimStart(s))
  }

  /** JavaScript's `!s.trim()`: nothing but white space. */
  predicate Blank(s: string) {
    Trim(s) == ""
  }

  lemma BlankIffAllSpace(s: string)
    ensures Trim(s) == "" <==> forall i :: 0 <= i < |s| ==> IsSpace(s[i])
  {
    var t := TrimStart(s);
    if Trim(s) == "" {
      assert |t| == 0;
    } else {
      assert !IsSpace(Trim(s)[0]);
      assert Trim(s)[0] == t[0] == s[|s| - |t|];
    }
  }

  /** Text that starts with a visible character is not blank. */
  lemma LeadNotBlank(s: string)
    requires |s| > 0 && !IsSpace(s[0])
    ensures !Blank(s)
  {
    BlankIffAllSpace(s);
  }

  /** Text before a non-blank string leaves it non-blank. */
  lemma PrefixKeepsNotBlank(pre: string, s: string)
    requires !Blank(s)
    ensures !Blank(pre + s)
  {
    BlankIffAllSpace(s);
    BlankIffAllSpace(pre + s);
    var i :| 0 <= i < |s| && !IsSpace(s[i]);
    assert (pre + s)[|pre| + i] == s[i];
  }

  /** Trimming leaves a string without surrounding white space unchanged. */
  lemma TrimNoSpace(s: string)
    requires |s| > 0 ==> !IsSpace(s[0]) && !IsSpace(s[|s| - 1])
    ensures Trim(s) == s
  {
  }

  /** Trimming removes exactly the blank padding around a word that has none of its own. */
  lemma {:induction false} TrimPadded(pre: string, w: string, post: string)
    requires forall i :: 0 <= i < |pre| ==> IsSpace(pre[i])
    requires forall i :: 0 <= i < |post| ==> IsSpace(post[i])
    requires |w| > 0 && !IsSpace(w[0]) && !IsSpace(w[|w| - 1])
    ensures Trim(pre + w + post) == w
  {
    TrimStartPadded(pre, w + post);
    assert pre + w + post == pre + (w + post);
    TrimEndPadded(w, post);
  }

  lemma {:induction false} TrimStartPadded(pre: string, rest: string)
    requires forall i :: 0 <= i < |pre| ==> IsSpace(pre[i])
    requires |rest| > 0 && !IsSpace(rest[0])
    ensures TrimStart(pre + rest) == rest
  {
    if |pre| > 0 {
      assert (pre + rest)[1..] == pre[1..] + rest;
      TrimStartPadded(pre[1..], rest);
    } else {
      assert pre + rest == rest;
    }
  }

  lemma {:induction false} TrimEndPadded(w: string, post: string)
    requires forall i :: 0 <= i < |post| ==> IsSpace(post[i])
    requires |w| > 0 && !IsSpace(w[|w| - 1])
    ensures TrimEnd(w + post) == w
  {
    if |post| > 0 {
      assert (w + post)[..|w + post| - 1] == w + post[..|post| - 1];
      TrimEndPadded(w, post[..|post| - 1]);
    } else {
      assert w + post == w;
    }
  }

  /** White space around a string does not change what it trims to. */
  lemma TrimIgnoresPadding(pre: string, s: string, post: string)
    requires forall i :: 0 <= i < |pre| ==> IsSpace(pre[i])
    requires forall i :: 0 <= i < |post| ==> IsSpace(post[i])
    ensures Trim(pre + s + post) == Trim(s)
  {
    var w := Trim(s);
    if w == "" {
      BlankIffAllSpace(s);
      SpaceConcat(pre, s);
      SpaceConcat(pre + s, post);
      BlankIffAllSpace(pre + s + post);
    } else {
      var a, b := TrimParts(s);
      SpaceConcat(pre, a);
      SpaceConcat(b, post);
      Regroup(pre, a, w, b, post);
      TrimPadded(pre + a, w, b + post);
    }
  }

  /** A string is its trimmed form between two runs of white space. */
  lemma TrimParts(s: string) returns (a: string, b: string)
    ensures s == a + Trim(s) + b
    ensures forall i :: 0 <= i < |a| ==> IsSpace(a[i])
    ensures forall i :: 0 <= i < |b| ==> IsSpace(b[i])
  {
    var t := TrimStart(s);
    a := LeadingSpace(s);
    var w := TrimEnd(t);
    b := TrailingSpace(t);
    Assoc(a, w, b);
    assert Trim(s) == w;
  }

  lemma Assoc(a: string, w: string, b: string)
    ensures a + (w + b) == a + w + b
  {
  }

  /** What `TrimStart` drops. */
  lemma LeadingSpace(s: string) returns (a: string)
    ensures s == a + TrimStart(s)
    ensures forall i :: 0 <= i < |a| ==> IsSpace(a[i])
  {
    var t := TrimStart(s);
    var k := |s| - |t|;
    a := s[..k];
    assert t == s[k..];
    assert s == a + t by {
      assert s == s[..k] + s[k..];
    }
    forall i | 0 <= i < |a| ensures IsSpace(a[i]) {
      assert a[i] == s[i];
    }
  }

  /** What `TrimEnd` drops. */
  lemma TrailingSpace(s: string) returns (b: string)
    ensures s == TrimEnd(s) + b
    ensures forall i :: 0 <= i < |b| ==> IsSpace(b[i])
  {
    var w := TrimEnd(s);
    b := s[|w|..];
    assert w == s[..|w|];
    assert s == w + b by {
      assert s == s[..|w|] + s[|w|..];
    }
    forall i | 0 <= i < |b| ensures IsSpace(b[i]) {
      assert b[i] == s[|w| + i];
    }
  }

  /** Two runs of white space make one. */
  lemma SpaceConcat(x: string, y: string)
    requires forall i :: 0 <= i < |x| ==> IsSpace(x[i])
    requires forall i :: 0 <= i < |y| ==> IsSpace(y[i])
    ensures forall i :: 0 <= i < |x + y| ==> IsSpace((x + y)[i])
  {
  }

  lemma Regroup(p: string, a: string, w: string, b: string, q: string)
    ensures p + (a + w + b) + q == (p + a) + w + (b + q)
  {
  }

  /** Folding case before or after trimming gives the same text. */
  lemma LowerTrimCommute(s: string)
    ensures Trim(Lower(s)) == Lower(Trim(s))
  {
    LowerTrimStart(s);
    LowerTrimEnd(TrimStart(s));
  }

  /** Folding case never makes or unmakes white space. */
  lemma LowerCharSpace(c: char)
    ensures IsSpace(LowerChar(c)) <==> IsSpace(c)
  {
    if IsUpperAscii(c) {
      assert 'a' <= LowerChar(c) <= 'z';
    }
  }

  lemma {:induction false} LowerTrimStart(s: string)
    ensures TrimStart(Lower(s)) == Lower(TrimStart(s))
    decreases |s|
  {
    if |s| > 0 {
      assert Lower(s)[1..] == Lower(s[1..]);
      LowerCharSpace(s[0]);
      if IsSpace(s[0]) {
        LowerTrimStart(s[1..]);
      }
    }
  }

  lemma {:induction false} LowerTrimEnd(s: string)
    ensures TrimEnd(Lower(s)) == Lower(TrimEnd(s))
    decreases |s|
  {
    if |s| > 0 {
      var n, l := |s| - 1, Lower(s);
      assert l[n] == LowerChar(s[n]);
      LowerCharSpace(s[n]);
      if IsSpace(s[n]) {
        assert TrimEnd(l) == TrimEnd(l[..n]);
        assert l[..n] == Lower(s[..n]);
        LowerTrimEnd(s[..n]);
        assert TrimEnd(s) == TrimEnd(s[..n]);
      } else {
        assert TrimEnd(l) == l && TrimEnd(s) == s;
      }
    }
  }

  /** `s.startsWith(p)`. */
  predicate StartsWith(s: string, p: string) {
    |p| <= |s| && s[..|p|] == p
  }

  /** `needle` occurs in `hay` at offset `i`. */
  ghost predicate OccursAt(hay: string, needle: string, i: int) {
    0 <= i && i + |needle| <= |hay| && hay[i..i + |needle|] == needle
  }

  /** `hay.includes(needle)`. */
  function Contains(hay: string, needle: string): (b: bool)
    ensures b <==> exists i :: OccursAt(hay, needle, i)
    decreases |hay|
  {
    if |hay| < |needle| then
      assert forall i :: !OccursAt(hay, needle, i);
      false
    else if StartsWith(hay, needle) then
      assert OccursAt(hay, needle, 0);
      true
    else
      var b := Contains(hay[1..], needle);
      assert b ==> exists i :: OccursAt(hay, needle, i) by {
        if b {
          var i :| OccursAt(hay[1..], needle, i);
          assert hay[1..][i..i + |needle|] == hay[i + 1..i + 1 + |needle|];
          assert OccursAt(hay, needle, i + 1);
        }
      }
      assert (exists i :: OccursAt(hay, needle, i)) ==> b by {
        if exists i :: OccursAt(hay, needle, i) {
          var i :| OccursAt(hay, needle, i);
          assert i != 0;
          assert hay[1..][i - 1..i - 1 + |needle|] == hay[i..i + |needle|];
          assert OccursAt(hay[1..], needle, i - 1);
        }
      }
      b
  }

  /** Every string includes the empty string (`s.includes("")` is true). */
  lemma ContainsEmpty(hay: string)
    ensures Contains(hay, "")
  {
    assert OccursAt(hay, "", 0);
  }

  /** Position of the first occurrence of `needle`, as `indexOf` reports it. */
  function IndexOf(hay: string, needle: string): (r: Option<nat>)
    ensures r.Some? ==> OccursAt(hay, needle, r.value)
    ensures r.Some? ==> forall i :: 0 <= i < r.value ==> !OccursAt(hay, needle, i)
    ensures r.None? <==> !Contains(hay, needle)
    decreases |hay|
  {
    if |hay| < |needle| then None
    else if StartsWith(hay, needle) then Some(0)
    else
      match IndexOf(hay[1..], needle)
      case None => None
      case Some(k) =>
        assert hay[1..][k..k + |needle|] == hay[k + 1..k + 1 + |needle|];
        assert forall i :: 1 <= i < k + 1 ==> !OccursAt(hay, needle, i) by {
          forall i | 1 <= i < k + 1 ensures !OccursAt(hay, needle, i) {
            if i + |needle| <= |hay| {
              assert hay[1..][i - 1..i - 1 + |needle|] == hay[i..i + |needle|];
              assert !OccursAt(hay[1..], needle, i - 1);
            }
          }
        }
        Some(k + 1)
  }

  /** The text of `s` up to the first `sep` or the end, with each `a` read as `b`. */
  function ReplaceUpTo(s: string, sep: string, a: char, b: char): (r: string)
    requires |sep| > 0
    ensures |r| <= |s|
    ensures forall i :: 0 <= i < |r| ==> r[i] == if s[i] == a then b else s[i]
    ensures |r| == |s| || OccursAt(s, sep, |r|)
    ensures forall j :: 0 <= j < |r| ==> !OccursAt(s, sep, j)
  {
    var piece := UpTo(s, sep);
    assert forall i :: 0 <= i < |piece| ==> piece[i] == s[i];
    ReplaceChar(piece, a, b)
  }

  /** `s.split(sep)[1]` for a separator that occurs in `s`: the text after its
      first occurrence, up to the next occurrence or the end. */
  function SecondPiece(s: string, sep: string): (r: string)
    requires |sep| > 0 && Contains(s, sep)
    ensures var rest := s[IndexOf(s, sep).value + |sep|..];
      && |r| <= |rest| && r == rest[..|r|]
      && (|r| == |rest| || OccursAt(rest, sep, |r|))
      && forall j :: 0 <= j < |r| ==> !OccursAt(rest, sep, j)
    ensures !Contains(r, sep)
  {
    UpTo(s[IndexOf(s, sep).value + |sep|..], sep)
  }

  /** `s.split(sep)[1]` read off a split of `s`: `pre` holds no occurrence of
      `sep` that starts before it ends, and the `piece` after the first one runs
      up to the next occurrence or to the end. */
  lemma SecondPieceOf(pre: string, sep: string, piece: string, more: string)
    requires |sep| > 0
    requires forall j :: 0 <= j < |pre| ==> !OccursAt(pre + sep, sep, j)
    requires forall j :: 0 <= j < |piece| ==> !OccursAt(piece + more, sep, j)
    requires more == [] || OccursAt(more, sep, 0)
    ensures Contains(pre + sep + piece + more, sep)
    ensures SecondPiece(pre + sep + piece + more, sep) == piece
  {
    var head, tail := pre + sep, piece + more;
    var s := head + tail;
    assert s == pre + sep + piece + more;
    FirstOccurrence(pre, sep, tail);
    assert s[|head|..] == tail;
    var r := SecondPiece(s, sep);
    assert more != [] ==> OccursAt(tail, sep, |piece|) by {
      if more != [] {
        assert tail[|piece|..|piece| + |sep|] == more[..|sep|];
      }
    }
    assert |r| == |piece|;
  }

  /** The first occurrence of `sep` in `pre + sep + tail` starts where `pre`
      ends, when none starts inside `pre`. */
  lemma FirstOccurrence(pre: string, sep: string, tail: string)
    requires |sep| > 0
    requires forall j :: 0 <= j < |pre| ==> !OccursAt(pre + sep, sep, j)
    ensures Contains(pre + sep + tail, sep)
    ensures IndexOf(pre + sep + tail, sep) == Some(|pre|)
  {
    var head := pre + sep;
    var s := head + tail;
    assert s[|pre|..|pre| + |sep|] == sep;
    assert OccursAt(s, sep, |pre|);
    forall j | 0 <= j < |pre| ensures OccursAt(s, sep, j) == OccursAt(head, sep, j) {
      assert s[j..j + |sep|] == head[j..j + |sep|];
    }
  }

  /** The text before the first occurrence of `sep`, or all of it when there is none. */
  function UpTo(s: string, sep: string): (r: string)
    requires |sep| > 0
    ensures |r| <= |s| && r == s[..|r|]
    ensures |r| == |s| || OccursAt(s, sep, |r|)
    ensures forall j :: 0 <= j < |r| ==> !OccursAt(s, sep, j)
    ensures !Contains(r, sep)
  {
    match IndexOf(s, sep)
    case None =>
      assert !Contains(s, sep);
      assert forall j :: !OccursAt(s, sep, j);
      NoneBefore(s, sep, |s|);
      assert s == s[..|s|];
      s
    case Some(m) =>
      NoneBefore(s, sep, m);
      s[..m]
  }

  /** A prefix that ends before the first occurrence of `sep` does not contain it. */
  lemma NoneBefore(s: string, sep: string, m: nat)
    requires |sep| > 0 && m <= |s|
    requires forall j :: 0 <= j < m ==> !OccursAt(s, sep, j)
    ensures !Contains(s[..m], sep)
  {
    forall i | 0 <= i && i + |sep| <= m ensures OccursAt(s[..m], sep, i) == OccursAt(s, sep, i) {
      assert s[..m][i..i + |sep|] == s[i..i + |sep|];
    }
    assert forall i :: !OccursAt(s[..m], sep, i);
  }

  /** Replaces every occurrence of one character, as `s.replace(/a/g, b)`. */
  function ReplaceChar(s: string, a: char, b: char): (r: string)
    ensures |r| == |s|
    ensures forall i :: 0 <= i < |s| ==> r[i] == (if s[i] == a then b else s[i])
  {
    seq(|s|, i requires 0 <= i < |s| => if s[i] == a then b else s[i])
  }

  /** Replacing `a` by `b` and then `b` by `a` restores a string with no `b` in it. */
  lemma ReplaceCharRoundTrip(s: string, a: char, b: char)
    requires b !in s
    ensures ReplaceChar(ReplaceChar(s, a, b), b, a) == s
  {
    var t := ReplaceChar(ReplaceChar(s, a, b), b, a);
    forall i | 0 <= i < |s| ensures t[i] == s[i] {
      assert s[i] != b;
    }
  }

  /** Deletes every character of `cs`, as `s.replace(/[...]/g, "")`. */
  function RemoveChars(s: string, cs: set<char>): (r: string)
    ensures forall i :: 0 <= i < |r| ==> r[i] !in cs
    ensures Seqs.IsSubseq(r, s)
    ensures forall c :: c !in cs ==> multiset(r)[c] == multiset(s)[c]
  {
    Seqs.Filter(s, Outside(cs))
  }

  function Outside(cs: set<char>): char -> bool {
    c => c !in cs
  }

  /** Text holding none of the characters loses nothing. */
  lemma RemoveCharsNone(s: string, cs: set<char>)
    requires forall i :: 0 <= i < |s| ==> s[i] !in cs
    ensures RemoveChars(s, cs) == s
  {
    Seqs.FilterAll(s, Outside(cs));
  }

  /** Pieces of `s` between occurrences of `sep`, as `s.split(sep)` for a one-character separator. */
  function Split(s: string, sep: char): (r: seq<string>)
    ensures |r| >= 1
    ensures forall k :: 0 <= k < |r| ==> sep !in r[k]
  {
    if |s| == 0 then [""]
    else
      var rest := Split(s[1..], sep);
      if s[0] == sep then [""] + rest
      else [[s[0]] + rest[0]] + rest[1..]
  }

  /** One piece more than there are separators. */
  lemma {:induction false} SplitCount(s: string, sep: char)
    ensures |Split(s, sep)| == multiset(s)[sep] + 1
  {
    if |s| > 0 {
      SplitCount(s[1..], sep);
      assert s == [s[0]] + s[1..];
    }
  }

  /** `parts.join(sep)`. */
  function Join(parts: seq<string>, sep: char): string
    requires |parts| >= 1
  {
    if |parts| == 1 then parts[0] else parts[0] + [sep] + Join(parts[1..], sep)
  }

  lemma {:induction false} JoinSplit(s: string, sep: char)
    ensures Join(Split(s, sep), sep) == s
  {
    if |s| > 0 {
      JoinSplit(s[1..], sep);
      var rest := Split(s[1..], sep);
      if s[0] != sep {
        var r := Split(s, sep);
        if |rest| == 1 {
          assert Join(r, sep) == [s[0]] + rest[0];
        } else {
          assert r[1..] == rest[1..];
          assert Join(r, sep) == [s[0]] + rest[0] + [sep] + Join(rest[1..], sep);
        }
      }
    }
  }

  lemma {:induction false} SplitNoSep(p: string, sep: char)
    requires sep !in p
    ensures Split(p, sep) == [p]
  {
    if |p| > 0 {
      SplitNoSep(p[1..], sep);
      assert [p[0]] + p[1..] == p;
    }
  }

  lemma {:induction false} SplitCons(p: string, t: string, sep: char)
    requires sep !in p
    ensures Split(p + [sep] + t, sep) == [p] + Split(t, sep)
  {
    var s := p + [sep] + t;
    if |p| == 0 {
      assert s[1..] == t;
    } else {
      SplitCons(p[1..], t, sep);
      assert s[1..] == p[1..] + [sep] + t;
      assert [p[0]] + p[1..] == p;
    }
  }

  lemma {:induction false} SplitJoin(parts: seq<string>, sep: char)
    requires |parts| >= 1
    requires forall k :: 0 <= k < |parts| ==> sep !in parts[k]
    ensures Split(Join(parts, sep), sep) == parts
  {
    if |parts| == 1 {
      SplitNoSep(parts[0], sep);
    } else {
      SplitJoin(parts[1..], sep);
      SplitCons(parts[0], Join(parts[1..], sep), sep);
      assert [parts[0]] + parts[1..] == parts;
    }
  }

  /** Lexicographic order by Unicode scalar value (Dafny's `char`): the model's stand-in for `localeCompare(...) <= 0`. */
  predicate StrLe(a: string, b: string) {
    |a| == 0 || (|b| > 0 && (a[0] < b[0] || (a[0] == b[0] && StrLe(a[1..], b[1..]))))
  }

  lemma {:induction false} StrLeTotal(a: string, b: string)
    ensures StrLe(a, b) || StrLe(b, a)
  {
    if |a| > 0 && |b| > 0 && a[0] == b[0] {
      StrLeTotal(a[1..], b[1..]);
    }
  }

  lemma {:induction false} StrLeTrans(a: string, b: string, c: string)
    requires StrLe(a, b) && StrLe(b, c)
    ensures StrLe(a, c)
  {
    if |a| > 0 && a[0] == b[0] && b[0] == c[0] {
      StrLeTrans(a[1..], b[1..], c[1..]);
    }
  }

  lemma {:induction false} StrLeAntisymmetric(a: string, b: string)
    requires StrLe(a, b) && StrLe(b, a)
    ensures a == b
  {
    if |a| > 0 {
      StrLeAntisymmetric(a[1..], b[1..]);
      assert a == [a[0]] + a[1..] && b == [b[0]] + b[1..];
    }
  }
}

=== FILE: users.dfy ===
/** The admin users page of `UsersManager.jsx`: search, role and status
    filters, the three sort orders, the badges and the block/activate toggle.
    The user list comes from the admin context and is a parameter. */
module UsersManager {
  import opened Wrappers
  import Seqs
  import Text

  /** The fields the page reads; `createdAt` is the join time in milliseconds. */
  datatype User = User(id: Option<string>, name: Option<string>, email: Option<string>,
                       role: Option<string>, status: Option<string>, createdAt: int)

  /** `field?.toLowerCase().includes(query.toLowerCase())`, false when the field is absent. */
  predicate FieldHit(field: Option<string>, query: string) {
    field.Some? && Text.Contains(Text.Lower(field.value), Text.Lower(query))
  }

  /** The search: name or email; it runs whenever the query is non-empty,
      spaces included. */
  predicate QueryKept(query: string, u: User) {
    query == "" || FieldHit(u.name, query) || FieldHit(u.email, query)
  }

  predicate RoleKept(roleFilter: string, u: User) {
    roleFilter == "all" || u.role == Some(roleFilter)
  }

  predicate StatusKept(statusFilter: string, u: User) {
    statusFilter == "all" || u.status == Some(statusFilter)
  }

  /** A user the table lists. */
  predicate Kept(query: string, roleFilter: string, statusFilter: string, u: User) {
    QueryKept(query, u) && RoleKept(roleFilter, u) && StatusKept(statusFilter, u)
  }

  function QueryOf(query: string): User -> bool {
    (u: User) => FieldHit(u.name, query) || FieldHit(u.email, query)
  }

  function RoleOf(roleFilter: string): User -> bool {
    (u: User) => u.role == Some(roleFilter)
  }

  function StatusOf(statusFilter: string): User -> bool {
    (u: User) => u.status == Some(statusFilter)
  }

  /** The three filters in the order the memo applies them. */
  function Narrowed(users: seq<User>, query: string, roleFilter: string, statusFilter: string): (r: seq<User>)
    ensures forall u :: multiset(r)[u] == if Kept(query, roleFilter, statusFilter, u) then multiset(users)[u] else 0
    ensures |r| <= |users|
    ensures Seqs.IsSubseq(r, users)
  {
    var s1 := Seqs.FilterWhen(users, query != "", QueryOf(query));
    var s2 := Seqs.FilterWhen(s1, roleFilter != "all", RoleOf(roleFilter));
    var s3 := Seqs.FilterWhen(s2, statusFilter != "all", StatusOf(statusFilter));
    ThreeFiltersKeep(users, query, roleFilter, statusFilter);
    Seqs.SubseqTrans(s2, s1, users);
    Seqs.SubseqTrans(s3, s2, users);
    s3
  }

  /** The three filters together keep exactly the users `Kept` admits. */
  lemma ThreeFiltersKeep(users: seq<User>, query: string, roleFilter: string, statusFilter: string)
    ensures var r := Seqs.FilterWhen(Seqs.FilterWhen(Seqs.FilterWhen(users, query != "", QueryOf(query)),
                                     roleFilter != "all", RoleOf(roleFilter)), statusFilter != "all", StatusOf(statusFilter));
      forall u :: multiset(r)[u] == if Kept(query, roleFilter, statusFilter, u) then multiset(users)[u] else 0
  {
    Seqs.FilterWhen3(users, query != "", QueryOf(query), roleFilter != "all", RoleOf(roleFilter),
                     statusFilter != "all", StatusOf(statusFilter));
    forall u ensures Kept(query, roleFilter, statusFilter, u) <==>
      (query == "" || QueryOf(query)(u)) && (roleFilter == "all" || RoleOf(roleFilter)(u)) &&
      (statusFilter == "all" || StatusOf(statusFilter)(u)) {
    }
  }

  /** The sort key of `localeCompare` on a field; an absent field sorts as empty text. */
  function NameKey(u: User): string {
    u.name.GetOr("")
  }

  function RoleKey(u: User): string {
    u.role.GetOr("")
  }

  /** The comparator `a.key.localeCompare(b.key)` as an order. */
  function ByKey(key: User -> string): (User, User) -> bool {
    (a: User, b: User) => Text.StrLe(key(a), key(b))
  }

  /** `new Date(b.createdAt) - new Date(a.createdAt)`: newest first. */
  predicate NewestFirst(a: User, b: User) {
    b.createdAt <= a.createdAt
  }

  lemma ByKeyTotal(key: User -> string)
    ensures Seqs.TotalPreorder(ByKey(key))
  {
    forall a: User, b: User
      ensures ByKey(key)(a, b) || ByKey(key)(b, a)
    {
      Text.StrLeTotal(key(a), key(b));
    }
    forall a: User, b: User, c: User | ByKey(key)(a, b) && ByKey(key)(b, c)
      ensures ByKey(key)(a, c)
    {
      Text.StrLeTrans(key(a), key(b), key(c));
    }
  }

  /** The sort step: by name, by role, by join date, or none for any other option. */
  function SortUsers(s: seq<User>, sortOption: string): (r: seq<User>)
    ensures multiset(r) == multiset(s) && |r| == |s|
    ensures sortOption == "name" ==> Seqs.Sorted(r, ByKey(NameKey))
    ensures sortOption == "role" ==> Seqs.Sorted(r, ByKey(RoleKey))
    ensures sortOption == "date" ==> Seqs.Sorted(r, NewestFirst)
    ensures sortOption != "name" && sortOption != "role" && sortOption != "date" ==> r == s
  {
    if sortOption == "name" then
      ByKeyTotal(NameKey);
      Seqs.Sort(s, ByKey(NameKey))
    else if sortOption == "role" then
      ByKeyTotal(RoleKey);
      Seqs.Sort(s, ByKey(RoleKey))
    else if sortOption == "date" then
      assert Seqs.TotalPreorder(NewestFirst);
      Seqs.Sort(s, NewestFirst)
    else s
  }

  /** `filteredUsers`: exactly the kept users, each as often as in the list,
      in the chosen order; never more users than the list holds. */
  function FilteredUsers(users: seq<User>, query: string, sortOption: string, roleFilter: string, statusFilter: string): (r: seq<User>)
    ensures forall u :: u in r <==> u in users && Kept(query, roleFilter, statusFilter, u)
    ensures forall u :: multiset(r)[u] == if Kept(query, roleFilter, statusFilter, u) then multiset(users)[u] else 0
    ensures |r| <= |users|
    ensures sortOption == "name" ==> Seqs.Sorted(r, ByKey(NameKey))
    ensures sortOption == "role" ==> Seqs.Sorted(r, ByKey(RoleKey))
    ensures sortOption == "date" ==> Seqs.Sorted(r, NewestFirst)
    ensures sortOption != "name" && sortOption != "role" && sortOption != "date" ==> Seqs.IsSubseq(r, users)
  {
    var kept := Narrowed(users, query, roleFilter, statusFilter);
    var r := SortUsers(kept, sortOption);
    assert forall u :: u in r <==> u in multiset(kept);
    r
  }

  /** With every filter off and no sort option, the table is the list itself. */
  lemma NoFilterNoSort(users: seq<User>)
    ensures FilteredUsers(users, "", "none", "all", "all") == users
  {
  }

  /** The search ignores the query's case: lower-casing it shows the same table. */
  lemma {:induction false} QueryCaseInsensitive(users: seq<User>, query: string, sortOption: string, roleFilter: string, statusFilter: string)
    ensures FilteredUsers(users, Text.Lower(query), sortOption, roleFilter, statusFilter) ==
            FilteredUsers(users, query, sortOption, roleFilter, statusFilter)
  {
    Text.LowerIdempotent(query);
    if query != "" {
      Seqs.FilterExtensional(users, QueryOf(Text.Lower(query)), QueryOf(query));
    }
  }

  /** The position `users.find((u) => u.id === id)` stops at: the first user
      with the id, or the length when there is none. */
  function FindIndex(users: seq<User>, id: Option<string>): (k: nat)
    ensures k <= |users|
    ensures forall j :: 0 <= j < k ==> users[j].id != id
    ensures k < |users| ==> users[k].id == id
  {
    if |users| == 0 then 0
    else if users[0].id == id then 0
    else 1 + FindIndex(users[1..], id)
  }

  /** `users.find((u) => u.id === id)`. */
  function Find(users: seq<User>, id: Option<string>): (r: Option<User>)
    ensures r.None? <==> forall i :: 0 <= i < |users| ==> users[i].id != id
    ensures r.Some? ==> r.value == users[FindIndex(users, id)] && r.value.id == id
  {
    var k := FindIndex(users, id);
    if k < |users| then Some(users[k]) else None
  }

  /** The status the toggle asks for: "blocked" for an active user, "active" otherwise. */
  function NextStatus(status: Option<string>): (r: string)
    ensures r == "blocked" <==> status == Some("active")
    ensures r != "blocked" ==> r == "active"
  {
    if status == Some("active") then "blocked" else "active"
  }

  /** Toggling a status the page wrote flips it back. */
  lemma NextStatusFlips(status: string)
    requires status == "active" || status == "blocked"
    ensures NextStatus(Some(NextStatus(Some(status)))) == status
  {
  }

  /** The call `handleStatusToggle` makes. */
  datatype StatusCall = NoStatusCall | SetStatus(id: Option<string>, status: string)

  /** `handleStatusToggle(id)`: no call for an unknown id; otherwise the next
      status of the first user with the id. */
  function StatusToggle(users: seq<User>, id: Option<string>): (c: StatusCall)
    ensures c.NoStatusCall? <==> forall i :: 0 <= i < |users| ==> users[i].id != id
    ensures c.SetStatus? ==> c.id == id && c.status == NextStatus(Find(users, id).value.status)
  {
    match Find(users, id)
    case None => NoStatusCall
    case Some(u) => SetStatus(id, NextStatus(u.status))
  }

  /** The row's button: "Block" for an active user, "Activate" otherwise. */
  function ToggleLabel(u: User): (text: string)
    ensures text == "Block" <==> u.status == Some("active")
    ensures text != "Block" ==> text == "Activate"
  {
    if u.status == Some("active") then "Block" else "Activate"
  }

  /** The status badge reads "Active" exactly when the status is "active". */
  function StatusBadge(status: Option<string>): (text: string)
    ensures text == "Active" <==> status == Some("active")
    ensures text != "Active" ==> text == "Blocked"
  {
    if status == Some("active") then "Active" else "Blocked"
  }

  /** The role badge reads "Admin" exactly when the role is "admin". */
  function RoleBadge(role: Option<string>): (text: string)
    ensures text == "Admin" <==> role == Some("admin")
    ensures text != "Admin" ==> text == "User"
  {
    if role == Some("admin") then "Admin" else "User"
  }

  /** For the first user with an id, the button's label names the status the
      click asks for, and agrees with the badge. */
  lemma {:induction false} LabelMatchesCall(users: seq<User>, k: nat)
    requires k < |users|
    requires forall j :: 0 <= j < k ==> users[j].id != users[k].id
    ensures var c := StatusToggle(users, users[k].id);
      c.SetStatus? && (ToggleLabel(users[k]) == "Block" <==> c.status == "blocked") &&
      (ToggleLabel(users[k]) == "Block" <==> StatusBadge(users[k].status) == "Active")
  {
    assert FindIndex(users, users[k].id) == k;
  }
}

=== FILE: wrappers.dfy ===
/** Optional values: the model's stand-in for JavaScript's `null` and `undefined`. */
module Wrappers {

  datatype Option<+T> = None | Some(value: T) {

    /** The wrapped value, or `default` when there is none. */
    function GetOr(default: T): T {
      match this
      case Some(v) => v
      case None => default
    }
  }
}
